=== FILE: README.md ===
# Onboarding firmware core, modelled in Dafny

This project models the onboarding component of a Zephyr-based device. A
new device with no network credentials starts a WiFi access point and a
small web server. The server's captive portal lists the networks found by
a scan, accepts an SSID and password by HTTP POST, stores them in
non-volatile storage (NVS) and reboots. On the next boot, the stored
credentials make the device join that network as a station. A Bluetooth
LE state machine fans its events out to the configured onboarding modes.

The model is functional. Request bytes are folded through explicit scanner
states, and the page registry, SSID list, NVS domain registry and BLE mode
table are sequences. The flash store is a map from 16-bit ids to byte
strings; as in the flash file system, a write of no bytes deletes the
record. Sockets, flash and radio outcomes are parameters: a receive is a
`RecvOutcome` (a byte, a peer close or an errno), and a send is the count
the socket accepted. C strings are `seq<char>`, read up to their first NUL
(`CText.CStr`).

Where the C code writes past a fixed buffer or has another evident slip,
the affected operation takes a `Mode` (`CText.Mode`). `AsWritten` follows
the code and records the overrun or the slip. `Corrected` is the intended
behaviour. Each such pair is listed under "## Findings".

Modules, one per source component:

- `CText` (cstring.dfy): C string reading, `strncmp` equality, `strncpy`,
  decimal and hex rendering.
- `SocketIo` (socket_io.dfy): receive outcomes, retries and `sendall`.
- `RequestScanner` (request_scanner.dfy): the header loop of
  `client_conn_handler`, covering method and path detection, the
  Content-Length matcher and the `\r\n\r\n` terminator.
- `WebPages` (page_registry.dfy): the page list, registration, root and
  home page selection.
- `Dispatcher` (dispatcher.dfy): connection slots, GET/POST routing,
  404/500 replies and slot release.
- `PostForm` (post_extractor.dfy): `ob_ws_process_post`.
- `Responses` (response_builder.dfy): `create_menu`, `CreateHeader200` and
  the fixed 404/500 responses.
- `CaptivePortal` (captive_portal.dfy): the SSID option list, the setup
  page, the credentials POST and `ob_cp_init`.
- `NvsData` (nvs_data.dfy): key packing, read and write, the domain
  registry and factory reset.
- `SsidList` (ssid_list.dfy): the scan's linked SSID list, as a heap of
  nodes with a head and a tail.
- `Wifi` (wifi.dfy): `Mac2String`, the AP SSID, the start-up
  AP-versus-station decision, connect retries and `mHasAp`.
- `Bluetooth` (bluetooth.dfy): `foreach_obb`, `ble_state_machine`, the
  `disconnected` event and `bluetooth_init`.

Where the documentation and the code disagree, the model follows the code:

- `nvs_id_t`: the header documents the key as `domain << 8 | id`. The union
  in the code puts `domain` in the low byte on the little-endian targets.
  `AsWritten` packing follows the union and `Corrected` follows the
  documentation. Both packings are proved injective.
- Factory reset: it is documented to delete every record. The code
  deletes only the id ranges of registered domains, and `NvsData.ResetErases`
  states exactly that.
- `sendall`: it is documented to return the bytes sent or -1. The code
  returns 0 once everything is sent, or the first negative send result.
- `ob_nvs_data_register_ids`: `-EIO` is documented but cannot be returned.

## Model

| member | source | states |
|---|---|---|
| CText.CStr | src/ob_web_server.c:426-456 | the C string a buffer holds is its longest NUL-free prefix; when shorter than the buffer it is followed by a NUL |
| CText.StrNCmpEqMeaning | src/ob_web_server.c:371-385 | `strncmp(a, b, n) == 0` holds exactly when the first n characters of the two C strings agree |
| CText.PrefixMatch | src/ob_web_server.c:446-456 | comparing over a page path's own length succeeds exactly when the path is a prefix of the requested C string |
| CText.BoundedEquality | src/ob_web_server.c:1020-1026 | for two strings shorter than the bound, bounded `strncmp` equality is plain equality |
| CText.StrNCpy | src/ob_wifi.c:195-196 | a bounded copy is a NUL-free prefix of the source C string, at most n long, and the whole of it when shorter than n |
| CText.DecimalRoundTrip | src/ob_web_server.c:990 | reading back the decimal digits printed for n gives n |
| CText.Hex2 | src/ob_wifi.c:97-105 | a byte prints as two hex digits whose values recombine to the byte, neither of them a colon |
| SocketIo.WithoutRetries | src/ob_web_server.c:338-355 | removing EAGAIN/EINTR outcomes leaves a stream with no retryable error, no longer than the original |
| SocketIo.SendAll | src/ob_web_server.c:188-206 | sendall's result is never positive; on 0 the whole buffer went out; a negative result is the failing call's own value; what was sent is always a prefix of the buffer |
| SocketIo.SendAllLoop | src/ob_web_server.c:188-206 | the chunked send loop computes exactly the reference `SendAll` outcome |
| SocketIo.SendAllFirstFailure | src/ob_web_server.c:196-201 | every send before the one that ended the loop succeeded |
| SocketIo.SendAllFullChunks | src/ob_web_server.c:189-204 | when the socket accepts whole chunks, the buffer goes out in ceil(len/1024) calls and the result is 0 |
| SocketIo.SendAllStopsAtFailure | src/ob_web_server.c:196-201 | a failure on call k stops the loop there, returns that value, and leaves exactly k-1 full chunks sent |
| RequestScanner.LengthStep | src/ob_web_server.c:387-408 | the Content-Length index advances only on an equal byte and is not reset on a mismatch; digits fold into the length only after the full name and before the next CR |
| RequestScanner.LengthRunAppend | src/ob_web_server.c:387-408 | the Content-Length matcher over a concatenation is the matcher over the second part, started from the state the first part left |
| RequestScanner.ContentLengthRoundTrip | src/ob_web_server.c:387-408 | a `Content-Length: <n>\r` line appends the digits of n to the running length, so a fresh scan reads back n |
| RequestScanner.FreshContentLength | src/ob_web_server.c:387-408 | scanning `Content-Length: ` followed by the decimal of n and a CR from a fresh state yields length n |
| RequestScanner.LengthRunIgnores | src/ob_web_server.c:387-408 | text without a 'C' leaves an idle matcher unchanged |
| RequestScanner.TermStep | src/ob_web_server.c:409-419 | the terminator scanner stops exactly on the LF that follows CR LF CR |
| RequestScanner.TermStateMeaning | src/ob_web_server.c:409-419 | the terminator state k records that the text read so far ends with the first k characters of CR LF CR |
| RequestScanner.TermStopSound | src/ob_web_server.c:409-419 | the scanner stops only after a literal `\r\n\r\n` |
| RequestScanner.TermRunHeaderBlock | src/ob_web_server.c:409-419 | a block of CR-LF terminated header lines does not end the loop, and the following empty line ends it exactly at its LF |
| RequestScanner.Step | src/ob_web_server.c:359-420 | one header byte stops the loop exactly when the terminator scanner stops, and otherwise advances the byte index by one |
| RequestScanner.Run | src/ob_web_server.c:338-420 | the header loop consumes a prefix of the receive stream; a stream that runs out leaves it pending with nothing left |
| RequestScanner.RunAppend | src/ob_web_server.c:338-420 | feeding two streams in turn equals feeding their concatenation, and once the loop has ended extra input is left unread |
| RequestScanner.RetriesInvisible | src/ob_web_server.c:340-355 | EAGAIN/EINTR outcomes neither consume a byte nor change the scan or how it ends |
| RequestScanner.GetbufTracks | src/ob_web_server.c:359-385 | the saved first bytes match "GET " or "POST" exactly when the request text starts with it |
| RequestScanner.StepTracks | src/ob_web_server.c:359-420 | each step keeps the scanner state equal to the reference reading of the text so far: method, stored path, Content-Length and terminator state |
| RequestScanner.ScanOpen | src/ob_web_server.c:338-420 | a header not yet terminated leaves the loop pending, with the state equal to the reference reading of all bytes received |
| RequestScanner.ScanEnds | src/ob_web_server.c:409-419 | the byte that completes `\r\n\r\n` ends the loop with the header state of the whole text, leaving the rest of the stream unread |
| RequestScanner.GetTarget | src/ob_web_server.c:371-378 | for `GET <target> `, the method is GET and the path is the target, closed by its space |
| RequestScanner.CorrectedTarget | src/ob_web_server.c:362-370 | the bounded filename copy fits the 32-byte buffer and holds the first 31 path characters |
| RequestScanner.CorrectedNeverOverruns | src/ob_web_server.c:362-370 | with the bounded copy no header writes past the filename buffer, and the stored path is the truncated target |
| RequestScanner.AsWrittenOverrun | src/ob_web_server.c:362-370 | as written, a GET path of 32 characters or more writes past the 32-byte filename buffer |
| WebPages.FirstWhere | src/ob_web_server.c:426-456 | page lookup returns the first page in list order with the property, or none exactly when no page has it |
| WebPages.Register | src/ob_web_server.c:1013-1044 | a path already present (strncmp, 32) returns 0 and changes nothing; otherwise allocation failure returns -1, and success puts a new page at the head with content_length 0 and the given flags and callbacks. Its arrays hold the first 32 characters of the path and title; a shorter path or title is read back as given, a longer one as its first 32 characters followed by the next field (the title after the path, the flag bytes after the title). Corrected, a path or title that does not fit with its NUL is refused with -1 |
| WebPages.SamePathStored | src/ob_web_server.c:1018-1028 | a page's path, whose array holds the registered path's first 32 characters, compares under strncmp(.., 32) with any other path exactly as the registered path does, even when its read runs past the array |
| WebPages.RegisterKeepsDistinct | src/ob_web_server.c:1013-1044 | registration keeps page paths pairwise distinct |
| WebPages.RegisterIdempotent | src/ob_web_server.c:1013-1044 | registering the same path again, with any title, callbacks or flags, returns 0 and leaves the list as it was |
| WebPages.AsWrittenUnterminatedPath | src/ob_web_server.c:1028 | as written, a 32-character path registered with a shorter title is read back as the path followed by the title, and a GET of the path itself finds no page |
| WebPages.AsWrittenUnterminatedTitle | src/ob_web_server.c:1029 | as written, a 32-character title on a home page is read back followed by the flag byte 0x01 |
| WebPages.CorrectedRegisterKeepsNames | src/ob_web_server.c:1026-1034 | corrected, registering a new path succeeds exactly when the path and title fit their arrays with a NUL, and the page is then read back with exactly that path and title, and a request for the path matches it |
| WebPages.RootPage | src/ob_web_server.c:427-445 | the root page is the first page flagged CAPTIVE_PORTAL when an AP is up, else the first flagged HOME_PAGE, or none when no page has that flag |
| WebPages.PathMatchesMeaning | src/ob_web_server.c:446-456 | a page serves a path exactly when its pathname is a prefix of the requested C string |
| WebPages.HandlerPage | src/ob_web_server.c:446-456 | GET lookup finds the first page that both matches the path and has a GET callback |
| WebPages.HomePage | src/ob_web_server.c:646-668 | the home page is the first HOME_PAGE page with a GET callback, or none exactly when no such page exists |
| WebPages.DisplayHome | src/ob_web_server.c:646-668 | the home display calls the home page's handler and returns its result, or sends 404 and returns -1 exactly when there is none |
| Dispatcher.FreshSlots | src/ob_web_server.c:841-847 | the listener starts with every slot free |
| Dispatcher.FirstFree | src/ob_web_server.c:676-687 | slot search finds the lowest free index, and finds none exactly when every slot is taken |
| Dispatcher.GetFreeSlot | src/ob_web_server.c:676-687 | the search loop returns the lowest index with a negative entry, or -1 exactly when all are in use |
| Dispatcher.ProcessTcp | src/ob_web_server.c:699-720 | a failed accept returns -errno and changes nothing; an accepted client takes the lowest free slot, or is refused only when the table is full; no other slot changes |
| Dispatcher.Release | src/ob_web_server.c:489-491 | closing a connection frees exactly its own slot |
| Dispatcher.ActiveUpdate | src/ob_web_server.c:699-720 | overwriting one slot changes the count of busy slots by that slot's change alone |
| Dispatcher.AcceptThenRelease | src/ob_web_server.c:699-720 | accepting into a slot adds one busy slot and releasing it restores the count; a refusal happens only with every slot busy |
| Dispatcher.FullTable | src/ob_web_server.c:676-687 | a table with no free slot has every slot busy |
| Dispatcher.Route | src/ob_web_server.c:424-485 | an unknown method gets no response; a one-character GET path goes to the root page, and any other GET to the first prefix-matching page with a GET callback, else 404; POST goes to the first prefix-matching page that can take it, else 404; the 500 check applies except on root |
| Dispatcher.Finish | src/ob_web_server.c:457-485 | 404 is sent exactly for the 404 plan; 500 exactly when a checked handler returns a negative value; the null-callback case arises exactly when POST picks a page without a POST callback |
| Dispatcher.HandleConnection | src/ob_web_server.c:308-492 | a connection stays waiting exactly while its receive trace has not ended the head; once the blank line arrives, the peer closes or a receive fails, it is routed with the method and filename scanned so far, and only a POSTed page's content_length changes, to the parsed length |
| Dispatcher.WaitsForHead | src/ob_web_server.c:409-419 | nothing is dispatched before the header terminator arrives |
| Dispatcher.RetriesChangeNothing | src/ob_web_server.c:340-355 | EAGAIN/EINTR outcomes do not change how a connection is handled |
| Dispatcher.ShortGetFilename | src/ob_web_server.c:359-378 | for a GET line of fewer than 32 path characters the scanned filename is exactly the request target |
| Dispatcher.GetServesPrefixPage | src/ob_web_server.c:446-463 | a non-root GET calls a page exactly when some page's path prefixes the target and has a GET callback, picks the first such, and otherwise sends 404 |
| Dispatcher.SingleCharacterIsRoot | src/ob_web_server.c:427-445 | a one-character GET path is served by the root page's handler, when the root page has one, and sends nothing else |
| Dispatcher.ModesAgreeOnShortGet | src/ob_web_server.c:359-465 | for paths that fit the buffer the as-written and corrected servers route and reply alike |
| Dispatcher.RouteDependsOnCStr | src/ob_web_server.c:426-465 | routing looks only at the filename's C string |
| Dispatcher.AsWrittenNullPostCallback | src/ob_web_server.c:468-472 | as written, a POST to a page with a GET callback and no POST callback is routed there and reaches the null call |
| Dispatcher.CorrectedPostHasCallback | src/ob_web_server.c:468-472 | with the check on the POST callback, no POST ever reaches a null callback |
| PostForm.FindAttr | src/ob_web_server.c:542-561 | on '=' the first declared attribute whose name equals the buffered name (strncmp, 32) is chosen, or none exactly when no attribute matches |
| PostForm.NameEnd | src/ob_web_server.c:541-561 | '=' switches to value mode at offset 0 for the matched attribute, and fails exactly when no attribute matches |
| PostForm.Step | src/ob_web_server.c:541-580 | only '=' in name mode can fail the body; CR/LF in name mode are skipped |
| PostForm.Run | src/ob_web_server.c:518-593 | the body loop reads at most what it is given, keeps the attribute table's size, and blocks only with nothing left to read |
| PostForm.FeedNameChars | src/ob_web_server.c:563-569 | name characters are stored one after another from index 0 while they fit |
| PostForm.NameCharsDropped | src/ob_web_server.c:563-569 | once the name buffer is full, further name characters are dropped and change nothing |
| PostForm.FeedValueChars | src/ob_web_server.c:571-580 | value characters are stored one after another from offset 0 of the target attribute's buffer |
| PostForm.NameStage | src/ob_web_server.c:541-561 | a declared name followed by '=' selects that attribute and changes nothing else |
| PostForm.UnknownStage | src/ob_web_server.c:541-561 | an undeclared name followed by '=' fails |
| PostForm.ValueStage | src/ob_web_server.c:571-580 | a value followed by CR LF is stored NUL-terminated at the start of the attribute's buffer, and the loop returns to name mode |
| PostForm.FeedField | src/ob_web_server.c:541-580 | one `name=value\r\n` field writes the value into every attribute with that name and leaves the others as they were |
| PostForm.FeedFields | src/ob_web_server.c:518-580 | a body of fields leaves each attribute holding the last value submitted for it |
| PostForm.FormRoundTrip | src/ob_web_server.c:518-593 | reading a text/plain body encoded from fields, with its exact content length, returns 0 with every attribute holding its last submitted value |
| PostForm.UnknownName | src/ob_web_server.c:555-560 | an undeclared attribute name returns -EINVAL, leaving the rest of the body unread |
| PostForm.AsWrittenNameOverrun | src/ob_web_server.c:544 | as written, a 32-character name followed by '=' writes its NUL past the name buffer |
| PostForm.AsWrittenValueOverrun | src/ob_web_server.c:571-580 | as written, a 65-character value writes past the 65-byte value buffer |
| PostForm.CorrectedValueTruncated | src/ob_web_server.c:571-580 | with the bound, a 65-character value is kept as its first 64 characters without an overrun |
| PostForm.CorrectedNeverOverruns | src/ob_web_server.c:518-580 | with the bounds, no body whatever writes past the name or value buffers |
| PostForm.AsWrittenRetriesUnterminated | src/ob_web_server.c:518-534 | as written, two retries before a field use up the budget for its CR LF, so the value is left without its terminator |
| PostForm.AsWrittenRetriesCost | src/ob_web_server.c:518-534 | as written, each retry spends one unit of the content-length budget |
| PostForm.CorrectedRetriesInvisible | src/ob_web_server.c:518-534 | when retries do not spend budget, removing them from the stream changes neither the result nor the attributes |
| Responses.MenuLoop | src/ob_web_server.c:613-640 | when the menu loop succeeds it has rendered one link per page in list order |
| Responses.MenuLoopTotal | src/ob_web_server.c:613-640 | the menu loop succeeds exactly when the starting length plus the estimated cost of every page stays within 256, or there are no pages |
| Responses.Menu | src/ob_web_server.c:613-640 | a built menu is the prefix, the links of all pages in list order, then the tail |
| Responses.ItemsLength | src/ob_web_server.c:613-640 | the rendered links take 21 bytes plus path and title per page, the corrected per-page charge |
| Responses.CorrectedMenuFits | src/ob_web_server.c:613-640 | with the true per-item size, a built menu always fits the 256-byte buffer, and the build fails exactly when it would not |
| Responses.ChargeGap | src/ob_web_server.c:613-640 | the as-written estimate undercounts by 2 bytes per page |
| Responses.AsWrittenMenuOverrun | src/ob_web_server.c:613-640 | as written, two pages with 40 characters of path and title pass the estimate while the menu needs 9 bytes more than the buffer |
| Responses.OverrunPagesRegister | src/ob_web_server.c:613-640 | such pages can be registered side by side, so the overrun is reachable |
| Responses.ParseOneItem | src/ob_web_server.c:620-634 | one rendered menu item parses back to the page's path and title |
| Responses.ParseItemsRoundTrip | src/ob_web_server.c:613-640 | the menu items parse back to the (path, title) list of the pages, in order |
| Responses.ContentLengthItem | src/ob_web_server.c:990-994 | the Content-Length line is always shorter than its 40-byte buffer |
| Responses.ContentLengthItemFull | src/ob_web_server.c:990 | for any int-sized length the line is the full `Content-Length: <n>\r\n` |
| Responses.Header200 | src/ob_web_server.c:980-1011 | no 200 header is built without a menu |
| Responses.Header200ContentLength | src/ob_web_server.c:980-1011 | the announced Content-Length reads back as the caller's body length plus exactly the bytes the header sends after its blank line |
| Responses.Header200Fits | src/ob_web_server.c:971-1011 | with a title of at most 32 and a menu under 256 bytes, the header fits its 1024-byte buffer |
| Responses.AsWrittenErrorLengths | src/ob_web_server.c:81-84 | the fixed 404 and 500 responses write `Content-Length=` rather than `Content-Length: `, and their figures 162 and 199 are not the body sizes 156 and 180 |
| Responses.CorrectedErrorLength | src/ob_web_server.c:81-84 | the corrected error responses announce a length that reads back as the size of their body |
| CaptivePortal.OptionLength | src/ob_captive_portal.c:55 | one rendered option takes twice the SSID length plus 26 bytes |
| CaptivePortal.OptionsLength | src/ob_captive_portal.c:115-142 | the allocation counted for the list is one byte per SSID more than the rendered options |
| CaptivePortal.OptionsAppend | src/ob_captive_portal.c:137-142 | the options of two lists concatenate in list order |
| CaptivePortal.AsWrittenAllocation | src/ob_captive_portal.c:121-141 | as written, the allocation holds the options and their NUL exactly when the list is non-empty |
| CaptivePortal.CorrectedAllocationFits | src/ob_captive_portal.c:121-141 | with one byte reserved for the NUL, the allocation always holds the options |
| CaptivePortal.OptionFitsScratch | src/ob_captive_portal.c:118 | an option for an SSID of at most 32 characters fits the scratch buffer |
| CaptivePortal.SetupParts | src/ob_captive_portal.c:168-198 | the setup page is sent as four parts: header, form start, options and form tail |
| CaptivePortal.SendOrFail | src/ob_captive_portal.c:168-198 | with no parts to send the result is -1 with nothing sent; otherwise the result is that of the last sendall |
| CaptivePortal.SendPartsComplete | src/ob_captive_portal.c:181-194 | when every send succeeds, the bytes sent are the parts in order and the result is 0 |
| CaptivePortal.SendPartsLastDecides | src/ob_captive_portal.c:181-194 | only the last sendall decides the result; earlier failures are logged and ignored |
| CaptivePortal.SendPartsNonPositive | src/ob_captive_portal.c:181-194 | the result of sending the parts is never positive |
| CaptivePortal.DisplaySetup | src/ob_captive_portal.c:157-203 | a missing options buffer or header returns -1 with nothing sent; otherwise the result is that of the last sendall |
| CaptivePortal.SetupSent | src/ob_captive_portal.c:173-194 | when every send succeeds the page returns 0 having sent header, start, options and tail in order |
| CaptivePortal.SetupContentLength | src/ob_captive_portal.c:173-194 | the sent page announces a Content-Length equal to what follows its blank line, which ends with start, options and tail |
| CaptivePortal.SetupPartsShape | src/ob_captive_portal.c:173-174 | the header is built for the length of start, options and tail together |
| CaptivePortal.HeaderAnnounces | src/ob_captive_portal.c:173-181 | a 200 header built for a body's length, followed by that body, announces its own length correctly |
| CaptivePortal.PostSetup | src/ob_captive_portal.c:214-251 | the body is read into the ssid/password attributes; a failed read writes nothing; otherwise both records are written, no other key changes, the home page is always sent, and reboot follows exactly when the result is non-negative. As written the password write alone decides the result; corrected, a failed SSID write does too |
| CaptivePortal.SetupFormRead | src/ob_captive_portal.c:87-100 | the setup form's ssid and password fields are read back into the two declared attributes |
| CaptivePortal.PostStoresCredentials | src/ob_captive_portal.c:217-227 | a submitted form stores the SSID in record (1,0) and the password in (1,1), mirrors both when a mirror is set, and reboots; an empty SSID or password is written as no bytes, which deletes its record, so it reads back as missing |
| CaptivePortal.AsWrittenRebootsWithoutSsid | src/ob_captive_portal.c:217-249 | as written, a failed SSID write is overwritten by the PSK write's result, so the handler returns a non-negative result and the device still reboots with the SSID record unchanged |
| CaptivePortal.CorrectedSsidFailureStops | src/ob_captive_portal.c:209-226 | corrected, a failed SSID write is returned as the handler's result, and the device does not reboot |
| CaptivePortal.PostedCredentialsStartStation | src/ob_wifi.c:508-543 | after a credentials POST with a non-empty SSID and password, the next start-up connects as a station, falling back to the AP only if the connection fails; with an empty SSID or password it starts the AP again |
| CaptivePortal.CpInitRegisters | src/ob_captive_portal.c:257-268 | `ob_cp_init` registers `/setwifi.html` titled "Wifi setup" with both handlers and the CAPTIVE_PORTAL flag, which makes it the root page while an AP is up |
| CaptivePortal.CpInitRoutes | src/ob_captive_portal.c:257-268 | after `ob_cp_init`, GET / shows the setup page and POST /setwifi.html reaches its POST handler |
| CaptivePortal.RoutesToSetup | src/ob_web_server.c:424-485 | a captive root page with both handlers receives GET / and POSTs to its path |
| CaptivePortal.FirstCaptiveIsRoot | src/ob_web_server.c:427-445 | a page flagged only CAPTIVE_PORTAL at the head of the list is the root page while an AP is up |
| NvsData.Pack | include/ob_nvs_data.h:30-35 | as written the domain is the key's low byte and the id the high byte; corrected it is `domain << 8 \| id` |
| NvsData.PackRoundTrip | include/ob_nvs_data.h:30-35 | unpacking a packed key gives back the (domain, id) pair |
| NvsData.UnpackRoundTrip | include/ob_nvs_data.h:30-35 | packing an unpacked key gives back the key |
| NvsData.PackInjective | include/ob_nvs_data.h:64-77 | distinct (domain, id) pairs get distinct keys, in either packing |
| NvsData.PackingsDiffer | include/ob_nvs_data.h:64-77 | the two packings agree only when domain equals id |
| NvsData.Init | src/ob_nvs_data.c:74-112 | init returns 0 or -1, marks itself done exactly on success, and once done returns 0 without mounting again |
| NvsData.InitIdempotent | src/ob_nvs_data.c:74-112 | after a successful init, a second init returns 0 whatever the flash does |
| NvsData.Read | src/ob_nvs_data.c:118-129 | a read succeeds exactly when there is no fault and the key is present, returning the record's length and its first len bytes; otherwise it returns the fault or -ENOENT |
| NvsData.Write | src/ob_nvs_data.c:134-150 | a write either fails with the fault and leaves the store alone, or stores the data under the packed key, a write of no bytes deleting the record; the mirror is called exactly on success, with the same arguments |
| NvsData.ReadAfterWrite | include/ob_nvs_data.h:92-104 | reading a record just written returns the written bytes, or -ENOENT after a write of no bytes |
| NvsData.WriteLeavesOthers | src/ob_nvs_data.c:134-150 | a write changes no other (domain, id) record |
| NvsData.Register | src/ob_nvs_data.c:152-173 | a domain already present returns -EEXIST; otherwise allocation failure returns -ENOMEM, and success appends the domain with its id count and returns 0; the registry changes only on success |
| NvsData.RegisterIds | src/ob_nvs_data.c:152-173 | the list walk computes the reference registration, and never returns -EIO |
| NvsData.RegisterKeepsDistinct | src/ob_nvs_data.c:152-173 | registration keeps the registered domains pairwise distinct |
| NvsData.RegisterTwice | src/ob_nvs_data.c:155-158 | registering a domain a second time returns -EEXIST and changes nothing |
| NvsData.Probe | src/ob_nvs_data.c:189-194 | the domain-0 pass reaches the first id whose read fails, because the record is missing or the read faults; every earlier id is present and reads without a fault |
| NvsData.ResetDomainErases | src/ob_nvs_data.c:178-202 | one domain's pass deletes exactly its ids up to where the pass stops (for domain 0, the first missing or faulting read), except keys whose delete fails |
| NvsData.ResetErases | src/ob_nvs_data.c:178-202 | factory reset removes exactly the reference set of registered keys, judged on the store before it and the domain-0 read faults, except keys whose delete fails |
| NvsData.ResetKeepsUnregistered | src/ob_nvs_data.c:178-202 | records of unregistered domains survive a factory reset unchanged |
| NvsData.ErasedDomains | src/ob_nvs_data.c:178-202 | every key reset erases belongs to a registered domain |
| NvsData.RegisteredIdsErased | src/ob_nvs_data.c:178-202 | every id below the count of a registered non-zero domain is erased |
| NvsData.AsWrittenResetMissesExternalIds | src/ob_nvs_data.c:189-194 | as written, records at ids 0 and 1 lose only id 0, because the probe for (0, 1) reads id 0x100 |
| NvsData.CorrectedResetErasesExternalIds | src/ob_nvs_data.c:178-202 | with the documented packing, records at consecutive ids from 0 are all erased, up to the first whose read faults and except failed deletes |
| NvsData.ErasedZeroReadable | src/ob_nvs_data.c:189-194 | a domain-0 key the reset erases comes after ids whose reads all succeeded |
| NvsData.ReadFaultKeepsLaterIds | src/ob_nvs_data.c:189-194 | a read fault at domain-0 id i ends the pass: every domain-0 record from i on survives unchanged |
| SsidList.Clear | src/ob_wifi.c:211-217 | clearing leaves a valid, empty list |
| SsidList.FindMatch | src/ob_wifi.c:173-179 | the list walk finds a match exactly when some stored SSID agrees with the new one on its first len bytes |
| SsidList.Add | src/ob_wifi.c:169-206 | adding keeps the list well formed: head is null exactly when tail is, tail is the last node, no cycles |
| SsidList.LinkedChain | src/ob_wifi.c:198-204 | linking a node at the tail keeps the list well formed and appends its SSID to the list's contents |
| SsidList.AddItems | src/ob_wifi.c:169-206 | a seen SSID or a failed allocation leaves the list unchanged; otherwise the copy of len bytes is appended at the tail |
| SsidList.StoredMatches | src/ob_wifi.c:173-196 | a stored copy matches the SSID it was made from |
| SsidList.AddIdempotent | src/ob_wifi.c:169-206 | adding the same SSID twice changes nothing the second time |
| SsidList.AddKeepsDistinct | src/ob_wifi.c:169-206 | adding keeps the stored SSIDs pairwise distinct |
| SsidList.OnScanEvent | src/ob_wifi.c:318-330 | scan results only add to the list; scan done hands the callback the list as it stands, when there is one, then empties it |
| SsidList.AddAll | src/ob_wifi.c:318-322 | a run of scan results keeps the list well formed |
| SsidList.CorrectedScanIsFirstSeen | src/ob_wifi.c:169-206 | with exact matching, a scan leaves the list holding each SSID once, in first-seen order |
| SsidList.AsWrittenDropsPrefix | src/ob_wifi.c:173-179 | as written, "ab" after "abc" is dropped as a match, while the corrected list keeps both |
| Wifi.MacString | src/ob_wifi.c:97-105 | the MAC string is 17 characters and fills the 18-byte buffer with its NUL |
| Wifi.MacStringLayout | src/ob_wifi.c:97-105 | the MAC string is the six octets in two hex digits each, separated by colons |
| Wifi.MacRoundTrip | src/ob_wifi.c:97-105 | parsing a MAC string gives back the six octets |
| Wifi.ParseRoundTrip | src/ob_wifi.c:97-105 | printing a parsed MAC string gives back the string |
| Wifi.ApSuffix | src/ob_wifi.c:487-494 | the suffix is always six characters |
| Wifi.ApSuffixOctets | src/ob_wifi.c:487-494 | the suffix is the hex of the last three MAC octets |
| Wifi.ApSsid | src/ob_wifi.c:483-496 | the AP SSID starts with the configured prefix, and overruns exactly when it reaches 32 characters |
| Wifi.ApSsidIdentifiesDevice | src/ob_wifi.c:483-496 | for a short enough prefix the AP SSID is the prefix plus six hex digits that decode to the last three MAC octets |
| Wifi.ApSsidFits | src/ob_wifi.c:483-496 | the AP SSID overruns exactly when the prefix is longer than 25 characters |
| Wifi.Init | src/ob_wifi.c:426-553 | start-up succeeds exactly when NVS initialises and the WiFi domain registers; it then starts the AP exactly when there is no preconfiguration and the SSID or PSK read fails, and otherwise connects, falling back to the AP when connect fails |
| Wifi.InitTwiceFails | src/ob_wifi.c:440-446 | a second start-up fails because the WiFi domain is already registered |
| Wifi.ResetStartsAp | src/ob_wifi.c:508-536 | after a factory reset with the WiFi domain registered, whatever domain-0 reads fault, the next start-up starts the AP |
| Wifi.Connect | src/ob_wifi.c:732-790 | connect returns -1 without an interface or before init; otherwise it returns 0 exactly when one of the first 20 attempts succeeds, else the last attempt's result |
| Wifi.ApEnable | src/ob_wifi.c:636-729 | a successful AP enable sets mHasAp and gives the semaphore; a failure leaves mHasAp as it was |
| Wifi.ApDisable | src/ob_wifi.c:595-627 | as written, disabling the AP never clears mHasAp; corrected, a successful disable clears it |
| Wifi.Deinit | src/ob_wifi.c:555-575 | deinit always clears the init flag, and leaves mHasAp as written |
| Wifi.Scan | src/ob_wifi.c:577-593 | a scan before init returns -1 and changes nothing; otherwise it empties the SSID list and returns 0 |
| Wifi.AsWrittenHasApSticky | src/ob_wifi.c:595-627 | as written, once mHasAp is set no sequence of events clears it |
| Wifi.HasApNeedsEnable | src/ob_wifi.c:724 | mHasAp becomes true only through a successful AP enable |
| Wifi.AsWrittenHasApAfterDisable | src/ob_wifi.c:595-627 | after enable then disable, the AP still reads as up as written, and as down when corrected |
| Bluetooth.Visited | src/onboarding_bluetooth.c:76-136 | the walk visits at most OBB_MAX entries |
| Bluetooth.Invocations | src/onboarding_bluetooth.c:76-136 | the walk makes at most one call per visited mode, each with the requested hook |
| Bluetooth.ForeachObb | src/onboarding_bluetooth.c:76-136 | the loop makes exactly the calls of the reference fan-out: modes in array order, up to the first NULL or OBB_MAX entries, each only when it has the hook |
| Bluetooth.WalkStep | src/onboarding_bluetooth.c:76-136 | each visited mode contributes its call, if any, in order |
| Bluetooth.WalkEnd | src/onboarding_bluetooth.c:76-136 | the walk stopping at a NULL or at OBB_MAX has made every call of the fan-out |
| Bluetooth.InvocationsCons | src/onboarding_bluetooth.c:76-136 | the first mode's call comes before the rest's |
| Bluetooth.NullEndsWalk | src/onboarding_bluetooth.c:76-136 | entries after a NULL are never visited |
| Bluetooth.Configured | src/onboarding_bluetooth.c:44-54 | every configuration of the mode table ends in a NULL the walk reaches |
| Bluetooth.ConfiguredFanout | src/onboarding_bluetooth.c:44-54 | a hook fans out to the BLE mode, then to the GATT mode, each only when configured with that hook |
| Bluetooth.VisitedShift | src/onboarding_bluetooth.c:44-54 | a mode ahead of the table's NULL is visited first |
| Bluetooth.Machine | src/onboarding_bluetooth.c:141-188 | the state machine only ever moves to SCAN_STOP, ADV_START or WAITING, reschedules exactly when it moves, after 5 s from SCAN_START and at once otherwise |
| Bluetooth.MachineMoves | src/onboarding_bluetooth.c:141-188 | the state changes exactly in SCAN_START, SCAN_STOP, CONNECT_CREATE, ADV_START and ADV_STOP; WAITING and CONNECT_CANCEL call nothing |
| Bluetooth.AdvStartWaits | src/onboarding_bluetooth.c:168-186 | ADV_START runs adv_start and reaches WAITING in one step; WAITING is a fixpoint |
| Bluetooth.SettlesInThree | src/onboarding_bluetooth.c:141-188 | from any state, three runs of the machine reach a state it no longer leaves, and WAITING whenever the start was a moving state |
| Bluetooth.DisconnectRestartsAdvertising | src/onboarding_bluetooth.c:253-259 | from any state a disconnection makes no callback and sets ADV_START, and the run it schedules makes the modes' adv_start callbacks and leaves the machine waiting |
| Bluetooth.OnlyAdvertisingReachable | src/onboarding_bluetooth.c:141-259 | from ADV_START, disconnects and work runs reach only ADV_START or WAITING |
| Bluetooth.BluetoothInit | src/onboarding_bluetooth.c:355-378 | init returns bt_enable's code, and starts the machine in ADV_START exactly when it is 0 |
| Bluetooth.EnableCallback | src/onboarding_bluetooth.c:330-349 | a failed enable calls no mode; a successful one makes exactly the `foreach_obb` fan-out of the init hooks |
| Bluetooth.GattStartup | src/onboarding_bluetooth_gatt.c:270-275 | with the GATT mode alone, start-up calls its init and then its adv_start, and settles in WAITING |

## Left out

- Sockets, listener threads and kernel work queues. This covers `setup`, `process_tcp4/6`, thread creation, `start_listener` beyond slot initialisation, `init_web_server` with its TLS credentials, and start and stop. Only the receive and send outcomes feeding the logic are modelled.
- Concurrency. One request is handled at a time. The shared `content_length` field, the two listeners sharing slot arrays and the semaphore hand-offs are out of scope.
- Semaphores and blocking waits (`wifi_ap_sem`, the connect and deinit semaphores, `scan_done_sem`, `k_msleep`). Out of scope because they are scheduling, not logic.
- The flash driver. `nvs_mount`, `nvs_read`, `nvs_write` and `nvs_delete` are a map plus fault parameters; the reads the factory reset makes for domain 0 fault on a given set of keys.
- net_mgmt requests, DHCP, IPv4 and Ethernet handlers, LEDs and `sys_reboot`. Out of scope because they are foreign calls; reboot is a result flag.
- The hostname read under `CONFIG_NET_HOSTNAME_DYNAMIC`. It does not affect the AP-versus-station decision.
- Copying the preconfigured SSID and PSK. Preconfiguration is a boolean input.
- The Golioth PSK fields of the setup form. They are compiled only with `CONFIG_ONBOARDING_OTA_GOLIOTH`.
- src/onboarding_bluetooth_gatt.c apart from its mode table. It is BT stack callbacks and JSON library calls. The bodies of mode callbacks are left out too; a callback is a recorded call.
- BT connection, security, pairing and identity callbacks. They only log.
- `adv_timeout`. It is compiled only without GATT and is never called.
- src/ob_shell.c, src/ob_certs.c and src/ob_log.c are not part of this model.
- Logging and `putchar` side effects.
- Freeing the SSID list nodes, and the options buffer not being reset to NULL after `free`. Memory is not modelled beyond allocation success or failure.
- Integer widths. The model does not wrap: Content-Length folding is unbounded and lengths are natural numbers. `Responses.Header200ContentLength` assumes the total fits an `int`.
- WebPages.Register: as written, a title of 32 characters or more is read on through the four bytes of `flags`; when none of them is 0 the read goes on into `content_length`. That field is 0 at registration, which ends the read, but a later POST changes it; the model keeps the title as read at registration.
- Bluetooth.Visited: states only the bound on entries visited. What the walk calls is stated by `ForeachObb` against `Fanout`.

## Findings

| source | as written | input that shows it | evidently intended | confidence | as-written member | corrected member |
|---|---|---|---|---|---|---|
| src/ob_web_server.c:613-640 | `create_menu` charges 19 bytes plus path and title per page, but appends 21 | two pages each with 40 characters of path and title | a charge that covers what is appended, so the menu fits 256 bytes | not executed | Responses.AsWrittenMenuOverrun | Responses.CorrectedMenuFits |
| src/ob_web_server.c:81-84 | the fixed 404 and 500 responses write `Content-Length=162` and `Content-Length=199` | any 404 or 500 reply: the header name lacks ": " and the bodies are 156 and 180 bytes | `Content-Length: ` with the body's size | not executed | Responses.AsWrittenErrorLengths | Responses.CorrectedErrorLength |
| src/ob_web_server.c:1028-1029 | `strncpy` into `pathname[32]` and `title[32]` leaves no NUL when the path or title has 32 characters or more | a 32-character path with the title "T": the page is read as the path followed by "T" | keep both strings NUL-terminated inside their arrays; the corrected registration refuses one that does not fit | not executed | WebPages.AsWrittenUnterminatedPath | WebPages.CorrectedRegisterKeepsNames |
| src/ob_web_server.c:362-370 | the request path is copied into `filename[32]` with no bound | `GET ` followed by a 32-character path and a space | the path truncated to 31 characters and a NUL | not executed | RequestScanner.AsWrittenOverrun | RequestScanner.CorrectedNeverOverruns |
| src/ob_web_server.c:468-472 | POST routing checks `get_callback` and then calls `post_callback` | a POST to a page registered with a GET handler and no POST handler | check the POST callback before calling it | not executed | Dispatcher.AsWrittenNullPostCallback | Dispatcher.CorrectedPostHasCallback |
| src/ob_web_server.c:544 | on '=' the name is terminated at `index`, which may be 32 | a 32-character attribute name followed by '=' | terminate within the 32-byte name buffer | not executed | PostForm.AsWrittenNameOverrun | PostForm.CorrectedNeverOverruns |
| src/ob_web_server.c:571-580 | value bytes are written with no check against the 65-byte buffer | a 65-character value | truncate the value to 64 characters and a NUL | not executed | PostForm.AsWrittenValueOverrun | PostForm.CorrectedValueTruncated |
| src/ob_web_server.c:518-534 | a retried receive still counts against the content length | two EAGAIN results before a `name=value\r\n` body of exactly that length | retries do not consume body bytes | not executed | PostForm.AsWrittenRetriesUnterminated | PostForm.CorrectedRetriesInvisible |
| src/ob_nvs_data.c:189-194 | the domain-0 probe reads (0, i), which the union packs as id `i << 8` | records at ids 0 and 1: only id 0 is deleted | the documented `domain << 8 \| id` packing, so the probe walks ids 0, 1, 2, … | not executed | NvsData.AsWrittenResetMissesExternalIds | NvsData.CorrectedResetErasesExternalIds |
| src/ob_captive_portal.c:121-141 | the allocation leaves no room for the NUL when the SSID list is empty | a scan that finds no network: `malloc(0)`, a `memset` of 0 bytes, and the `strcat` loop never runs, so `strlen(content_wifi_body_ssid)` at line 173 reads a buffer that holds no NUL | one byte more for the NUL | not executed | CaptivePortal.AsWrittenAllocation | CaptivePortal.CorrectedAllocationFits |
| src/ob_captive_portal.c:218-226 | the PSK write's result overwrites a failed SSID write's in `rc`, though the function documents -1 on error | an SSID write that fails followed by a PSK write that succeeds: the handler returns a non-negative result and reboots without the SSID record | return the failed SSID write's result and do not reboot | not executed | CaptivePortal.AsWrittenRebootsWithoutSsid | CaptivePortal.CorrectedSsidFailureStops |
| src/ob_wifi.c:173-179 | the duplicate check compares only the new SSID's length | "ab" scanned after "abc" is dropped | drop only an exact duplicate | not executed | SsidList.AsWrittenDropsPrefix | SsidList.CorrectedScanIsFirstSeen |
| src/ob_wifi.c:595-627 | `ob_wifi_ap_disable` never clears `mHasAp` | enable the AP, then disable it: `ob_wifi_HasAP()` still reports true | clear `mHasAp` when the AP is disabled | not executed | Wifi.AsWrittenHasApAfterDisable | Wifi.ApDisable |

=== FILE: bluetooth.dfy ===
/**
 The Bluetooth onboarding driver: a work item that runs a nine-state
 machine, and a fan-out that calls the matching callback of every
 configured onboarding mode (plain BLE advertising, a GATT service).

 Each mode is a table of nine optional callbacks. The firmware keeps the
 configured modes in a NULL-terminated array and walks at most `OBB_MAX`
 entries of it. The model records which callbacks were invoked, in order,
 instead of running them; what a callback does is not part of this model.
 */
module Bluetooth {
  import opened CText

  /** `ble_state`. */
  datatype BleState =
    | Disconnected
    | ScanStart
    | ScanStop
    | ConnectCreate
    | ConnectCancel
    | AdvStart
    | AdvStop
    | Connected
    | Waiting

  /** `obb_mode_type_t`: which callback of a mode to invoke. */
  datatype Hook =
    | OnInit
    | OnAdvStart
    | OnAdvStop
    | OnScanStart
    | OnScanStop
    | OnConnect
    | OnConnected
    | OnDisconnect
    | OnDisconnected

  /** An `obb_mode_t`: `hooks` holds the callbacks that are not NULL. */
  datatype ObbMode = ObbMode(id: nat, hooks: set<Hook>)

  /** One callback invocation: the mode it belongs to and which callback it was. */
  datatype Call = Call(mode: nat, hook: Hook)

  const OBB_MAX: nat := 4

  /** `SCAN_TIMEOUT`, in milliseconds. */
  const SCAN_TIMEOUT_MS: nat := 5000

  /** The delay of a `k_work_reschedule`. */
  datatype Delay = NoWait | Millis(ms: nat)

  // ---------------------------------------------------------------------
  // foreach_obb.

  /**
   The array entries the walk reaches: from index `i`, the modes before
   the first NULL, and none at index `OBB_MAX` or beyond.
   */
  function Visited(modes: seq<Option<ObbMode>>, i: nat): (r: seq<ObbMode>)
    ensures |r| + i <= OBB_MAX || r == []
    decreases OBB_MAX - i
  {
    if i >= OBB_MAX || i >= |modes| || modes[i].None? then []
    else [modes[i].value] + Visited(modes, i + 1)
  }

  /** The selected callback of each visited mode, in array order, skipping those that are NULL. */
  function Invocations(ms: seq<ObbMode>, h: Hook): (r: seq<Call>)
    ensures |r| <= |ms|
    ensures forall j | 0 <= j < |r| :: r[j].hook == h
    decreases |ms|
  {
    if |ms| == 0 then []
    else (if h in ms[0].hooks then [Call(ms[0].id, h)] else []) + Invocations(ms[1..], h)
  }

  /** What `foreach_obb(h)` invokes. */
  function Fanout(modes: seq<Option<ObbMode>>, h: Hook): seq<Call> {
    Invocations(Visited(modes, 0), h)
  }

  /**
   The walk never reads past the array: it holds at least `OBB_MAX`
   entries, or a NULL ends the walk before its end.
   */
  predicate Readable(modes: seq<Option<ObbMode>>) {
    ReadableFrom(modes, 0)
  }

  /** From index `i` on, the walk stays inside the array. */
  predicate ReadableFrom(modes: seq<Option<ObbMode>>, i: nat) {
    |modes| >= OBB_MAX || exists j | i <= j < |modes| :: modes[j].None?
  }

  /** `foreach_obb`, as the loop is written: at most `OBB_MAX` entries, stopping at the first NULL. */
  method ForeachObb(modes: seq<Option<ObbMode>>, h: Hook) returns (calls: seq<Call>)
    requires Readable(modes)
    ensures calls == Fanout(modes, h)
  {
    calls := [];
    var i := 0;
    WalkStart(modes, h);
    while i < OBB_MAX
      invariant i <= OBB_MAX && ReadableFrom(modes, i)
      invariant Accounted(modes, i, h, calls)
      decreases OBB_MAX - i
    {
      WalkInBounds(modes, i);
      var cb := modes[i];
      if cb.Some? {
        WalkStep(modes, i, h, calls);
        StillReadable(modes, i);
        calls := calls + (if h in cb.value.hooks then [Call(cb.value.id, h)] else []);
      } else {
        WalkEnd(modes, i, h, calls);
        return;
      }
      i := i + 1;
    }
    WalkEnd(modes, i, h, calls);
  }

  /** The calls made before index `i`, followed by what the walk makes from `i` on, are the whole fan-out. */
  predicate Accounted(modes: seq<Option<ObbMode>>, i: nat, h: Hook, calls: seq<Call>) {
    calls + Invocations(Visited(modes, i), h) == Fanout(modes, h)
  }

  lemma WalkStart(modes: seq<Option<ObbMode>>, h: Hook)
    ensures Accounted(modes, 0, h, [])
  {
    assert [] + Fanout(modes, h) == Fanout(modes, h);
  }

  /** The walk stops at index `OBB_MAX` or at a NULL entry, having invoked everything it reaches. */
  lemma WalkEnd(modes: seq<Option<ObbMode>>, i: nat, h: Hook, calls: seq<Call>)
    requires i == OBB_MAX || (i < |modes| && modes[i].None?)
    requires Accounted(modes, i, h, calls)
    ensures calls == Fanout(modes, h)
  {
    assert Visited(modes, i) == [];
    assert calls + [] == calls;
  }

  /** Where the walk may still go, the array has an entry. */
  lemma WalkInBounds(modes: seq<Option<ObbMode>>, i: nat)
    requires ReadableFrom(modes, i) && i < OBB_MAX
    ensures i < |modes|
  {
  }

  /** Passing a non-NULL entry keeps the rest of the walk inside the array. */
  lemma StillReadable(modes: seq<Option<ObbMode>>, i: nat)
    requires ReadableFrom(modes, i) && i < |modes| && modes[i].Some?
    ensures ReadableFrom(modes, i + 1)
  {
  }

  /** Visiting a non-NULL entry appends its callback, if it has the selected one. */
  lemma WalkStep(modes: seq<Option<ObbMode>>, i: nat, h: Hook, calls: seq<Call>)
    requires i < OBB_MAX && i < |modes| && modes[i].Some?
    requires Accounted(modes, i, h, calls)
    ensures Accounted(modes, i + 1, h, calls + (if h in modes[i].value.hooks then [Call(modes[i].value.id, h)] else []))
  {
    var m := modes[i].value;
    var c := if h in m.hooks then [Call(m.id, h)] else [];
    assert Visited(modes, i) == [m] + Visited(modes, i + 1);
    InvocationsCons(m, Visited(modes, i + 1), h);
    ConcatAssoc(calls, c, Invocations(Visited(modes, i + 1), h));
  }

  lemma InvocationsCons(m: ObbMode, ms: seq<ObbMode>, h: Hook)
    ensures Invocations([m] + ms, h) == (if h in m.hooks then [Call(m.id, h)] else []) + Invocations(ms, h)
  {
    assert ([m] + ms)[0] == m && ([m] + ms)[1..] == ms;
  }

  /** Entries after the first NULL are never reached. */
  lemma {:induction false} NullEndsWalk(modes: seq<Option<ObbMode>>, i: nat, j: nat, rest: seq<Option<ObbMode>>)
    requires i <= j < |modes| && modes[j].None?
    ensures Visited(modes + rest, i) == Visited(modes, i)
    decreases j - i
  {
    if i < OBB_MAX && i < j {
      assert (modes + rest)[i] == modes[i];
      NullEndsWalk(modes, i + 1, j, rest);
    } else if i < OBB_MAX {
      assert (modes + rest)[i] == modes[i];
    }
  }

  /**
   The array the firmware configures: the BLE mode when BLE advertising is
   built in, the GATT mode when the GATT service is, then NULL.
   */
  function Configured(ble: Option<ObbMode>, gatt: Option<ObbMode>): (r: seq<Option<ObbMode>>)
    requires ble.Some? ==> ble.value.id == 0
    requires gatt.Some? ==> gatt.value.id == 1
    ensures Readable(r)
  {
    var r := (if ble.Some? then [ble] else []) + (if gatt.Some? then [gatt] else []) + [None];
    assert r[|r| - 1].None?;
    r
  }

  /** On the configured array the fan-out calls the BLE mode's callback, then the GATT mode's, each only if present. */
  lemma ConfiguredFanout(ble: Option<ObbMode>, gatt: Option<ObbMode>, h: Hook)
    requires ble.Some? ==> ble.value.id == 0
    requires gatt.Some? ==> gatt.value.id == 1
    ensures Fanout(Configured(ble, gatt), h)
         == (if ble.Some? && h in ble.value.hooks then [Call(0, h)] else [])
          + (if gatt.Some? && h in gatt.value.hooks then [Call(1, h)] else [])
  {
    var modes := Configured(ble, gatt);
    var tail := (if gatt.Some? then [gatt] else []) + [None];
    var gs := if gatt.Some? then [gatt.value] else [];
    assert Visited(tail, 0) == gs by {
      if gatt.Some? {
        assert tail == [gatt, None];
        assert Visited(tail, 1) == [];
      }
    }
    if gatt.Some? {
      InvocationsCons(gatt.value, [], h);
    }
    if ble.Some? {
      assert modes == [ble] + tail;
      VisitedShift(ble.value, tail);
      InvocationsCons(ble.value, gs, h);
    } else {
      assert modes == tail;
    }
  }

  /** A mode in front of a walk of fewer than `OBB_MAX` entries is visited first. */
  lemma VisitedShift(m: ObbMode, tail: seq<Option<ObbMode>>)
    requires 1 <= |tail| <= 2 && tail[|tail| - 1].None?
    ensures Visited([Some(m)] + tail, 0) == [m] + Visited(tail, 0)
  {
    var modes := [Some(m)] + tail;
    assert modes[1..] == tail;
    if |tail| == 1 {
      assert Visited(modes, 1) == [] && Visited(tail, 0) == [];
    } else {
      assert modes[1] == tail[0] && modes[2] == tail[1];
      assert Visited(modes, 2) == [] && Visited(tail, 1) == [];
    }
  }

  // ---------------------------------------------------------------------
  // ble_state_machine.

  /** One run of the work item: the state it leaves, the callbacks it made, and the reschedule it asked for. */
  datatype WorkResult = WorkResult(state: BleState, calls: seq<Call>, resched: Option<Delay>)

  /** `ble_state_machine`. `Connected` runs its callbacks and falls through to `ConnectCancel`'s `break`. */
  function Machine(modes: seq<Option<ObbMode>>, s: BleState): (r: WorkResult)
    ensures r.state in {s, ScanStop, AdvStart, Waiting}
    ensures r.resched.Some? <==> r.state != s
    ensures r.resched.Some? ==> r.resched == Some(if s == ScanStart then Millis(SCAN_TIMEOUT_MS) else NoWait)
  {
    match s
    case Disconnected => WorkResult(s, Fanout(modes, OnDisconnected), None)
    case ScanStart => WorkResult(ScanStop, Fanout(modes, OnScanStart), Some(Millis(SCAN_TIMEOUT_MS)))
    case ConnectCreate =>
      WorkResult(AdvStart, Fanout(modes, OnDisconnect) + Fanout(modes, OnDisconnected), Some(NoWait))
    case ScanStop => WorkResult(AdvStart, Fanout(modes, OnScanStop), Some(NoWait))
    case AdvStart => WorkResult(Waiting, Fanout(modes, OnAdvStart), Some(NoWait))
    case AdvStop => WorkResult(AdvStart, Fanout(modes, OnAdvStop), Some(NoWait))
    case Connected => WorkResult(s, Fanout(modes, OnConnected), None)
    case ConnectCancel => WorkResult(s, [], None)
    case Waiting => WorkResult(s, [], None)
  }

  /** The states the machine stays in and does not reschedule itself from. */
  predicate Quiet(s: BleState) {
    s == Disconnected || s == Connected || s == ConnectCancel || s == Waiting
  }

  /** A run of the work item changes the state exactly when it was not quiet, and the callbacks it makes all belong to that state. */
  lemma MachineMoves(modes: seq<Option<ObbMode>>, s: BleState)
    ensures Machine(modes, s).state != s <==> !Quiet(s)
    ensures s == Waiting || s == ConnectCancel ==> Machine(modes, s).calls == []
  {
  }

  /** Advertising starts with the modes' `adv_start` callbacks and the machine then waits. */
  lemma AdvStartWaits(modes: seq<Option<ObbMode>>)
    ensures Machine(modes, AdvStart) == WorkResult(Waiting, Fanout(modes, OnAdvStart), Some(NoWait))
    ensures Machine(modes, Waiting) == WorkResult(Waiting, [], None)
  {
  }

  /** The work item keeps rescheduling itself until the state is quiet; this takes at most three runs and ends waiting. */
  function Settle(modes: seq<Option<ObbMode>>, s: BleState, fuel: nat): (r: BleState)
    decreases fuel
  {
    if fuel == 0 || Quiet(s) then s else Settle(modes, Machine(modes, s).state, fuel - 1)
  }

  lemma SettlesInThree(modes: seq<Option<ObbMode>>, s: BleState)
    ensures Quiet(Settle(modes, s, 3))
    ensures !Quiet(s) ==> Settle(modes, s, 3) == Waiting
  {
  }

  // ---------------------------------------------------------------------
  // Events from the Bluetooth stack and start-up.

  /** What can happen to the machine: its work item runs, or the stack reports a disconnection. */
  datatype Event = WorkRuns | PeerDisconnected

  /** `disconnected`: back to advertising at once, without any callback. */
  function OnEvent(modes: seq<Option<ObbMode>>, s: BleState, e: Event): (r: WorkResult)
    ensures e == PeerDisconnected ==> r == WorkResult(AdvStart, [], Some(NoWait))
    ensures e == WorkRuns ==> r == Machine(modes, s)
  {
    match e
    case WorkRuns => Machine(modes, s)
    case PeerDisconnected => WorkResult(AdvStart, [], Some(NoWait))
  }

  function Run(modes: seq<Option<ObbMode>>, s: BleState, evs: seq<Event>): BleState
    decreases |evs|
  {
    if |evs| == 0 then s else OnEvent(modes, Run(modes, s, evs[..|evs| - 1]), evs[|evs| - 1]).state
  }

  /**
   From the state `bluetooth_init` sets, every sequence of work runs and
   disconnections leaves the machine advertising or waiting: it never
   scans, connects or stops advertising.
   */
  lemma {:induction false} OnlyAdvertisingReachable(modes: seq<Option<ObbMode>>, evs: seq<Event>)
    ensures Run(modes, AdvStart, evs) == AdvStart || Run(modes, AdvStart, evs) == Waiting
    decreases |evs|
  {
    if |evs| > 0 {
      OnlyAdvertisingReachable(modes, evs[..|evs| - 1]);
      AdvStartWaits(modes);
    }
  }

  /**
   Whatever the machine was doing, a disconnection sets it to ADV_START
   without making a callback, and the work run it schedules then makes
   the modes' `adv_start` callbacks and leaves it waiting.
   */
  lemma DisconnectRestartsAdvertising(modes: seq<Option<ObbMode>>, s: BleState, evs: seq<Event>)
    ensures OnEvent(modes, Run(modes, s, evs), PeerDisconnected).calls == []
    ensures Run(modes, s, evs + [PeerDisconnected]) == AdvStart
    ensures OnEvent(modes, Run(modes, s, evs + [PeerDisconnected]), WorkRuns)
         == WorkResult(Waiting, Fanout(modes, OnAdvStart), Some(NoWait))
  {
    assert (evs + [PeerDisconnected])[..|evs|] == evs;
    AdvStartWaits(modes);
  }

  /** Result of `bluetooth_init`: the return code, and the state it started the machine in. */
  datatype InitResult = InitResult(rc: int, started: Option<BleState>)

  /** `bluetooth_init`, given what `bt_enable` returns. */
  function BluetoothInit(enableRc: int): (r: InitResult)
    ensures r.rc == enableRc
    ensures r.started.Some? <==> enableRc == 0
    ensures r.started.Some? ==> r.started.value == AdvStart
  {
    if enableRc != 0 then InitResult(enableRc, None) else InitResult(0, Some(AdvStart))
  }

  /** `bt_enable_callback`: on success every mode's `init` callback runs; on failure none does. */
  function EnableCallback(modes: seq<Option<ObbMode>>, rc: int): (r: seq<Call>)
    ensures rc != 0 ==> r == []
    ensures rc == 0 ==> r == Fanout(modes, OnInit)
    ensures forall j | 0 <= j < |r| :: r[j].hook == OnInit
  {
    if rc != 0 then [] else Fanout(modes, OnInit)
  }

  /** The GATT mode's callback table: `init`, `adv_start`, `adv_stop` and `connected`. */
  const GATT_MODE: ObbMode := ObbMode(1, {OnInit, OnAdvStart, OnAdvStop, OnConnected})

  /**
   With only the GATT mode configured, a successful start-up initialises
   it, and the first run of the work item starts its advertising and
   leaves the machine waiting.
   */
  lemma GattStartup()
    ensures var modes := Configured(None, Some(GATT_MODE));
      && BluetoothInit(0).started == Some(AdvStart)
      && EnableCallback(modes, 0) == [Call(1, OnInit)]
      && Machine(modes, AdvStart) == WorkResult(Waiting, [Call(1, OnAdvStart)], Some(NoWait))
  {
    ConfiguredFanout(None, Some(GATT_MODE), OnInit);
    ConfiguredFanout(None, Some(GATT_MODE), OnAdvStart);
  }
}

=== FILE: captive_portal.dfy ===
/**
 The captive portal: the Wi-Fi setup page `/setwifi.html` offered while
 the device runs its own access point. Its GET lists the networks of the
 last scan as `<option>` elements between a fixed start and tail; its POST
 takes `ssid` and `password`, stores them in the non-volatile store and
 reboots the device.
 */
module CaptivePortal {
  import opened CText
  import SocketIo
  import WebPages
  import Responses
  import PostForm
  import NvsData
  import Dispatcher
  import RequestScanner
  import Wifi

  const SETUP_PATH: seq<char> := "/setwifi.html"
  const SETUP_TITLE: seq<char> := "Wifi setup"

  /** The body up to the options: a text/plain form posting to the setup page, and the `ssid` select. */
  const BODY_START: seq<char> := "<form method=\"post\" enctype=\"text/plain\" action=\"/setwifi.html\"><div><label for=\"ssid\">Select a SSID:</label><select name=\"ssid\" id=\"ssid\"> "

  /** The body after the options: the `password` input and the submit button (the build without Golioth credentials). */
  const BODY_TAIL: seq<char> := "</select></div><div><label for=\"pass\">Password (8 characters minimum):</label><input type=\"password\" id=\"pass\" name=\"password\" minlength=\"8\" required /></div><input type=\"submit\" value=\"Configure\" /></form></body></html>\r\n\r\n"

  /** `sizeof(option_fmt)`: the 30 characters of `<option value="%s">%s</option>` and the NUL. */
  const OPTION_FMT_SIZE: nat := 31

  /** The scratch buffer each option is formatted into. */
  const SCRATCH_SIZE: nat := 2 * Wifi.WIFI_SSID_MAX_LEN + OPTION_FMT_SIZE

  // ---------------------------------------------------------------------
  // The option list built when a scan completes.

  /** `option_fmt` applied to one SSID. */
  function OptionOf(s: seq<char>): seq<char> {
    "<option value=\"" + s + "\">" + s + "</option>"
  }

  /** The options of the scanned SSIDs, in list order. */
  function Options(ssids: seq<seq<char>>): seq<char>
    decreases |ssids|
  {
    if |ssids| == 0 then [] else Options(ssids[..|ssids| - 1]) + OptionOf(CStr(ssids[|ssids| - 1]))
  }

  /** The first loop of `client_scan_done`: `2 * strlen(ssid) + sizeof(option_fmt) - 4` per SSID. */
  function Charge(ssids: seq<seq<char>>): nat
    decreases |ssids|
  {
    if |ssids| == 0 then 0 else Charge(ssids[..|ssids| - 1]) + 2 * |CStr(ssids[|ssids| - 1])| + OPTION_FMT_SIZE - 4
  }

  /** The bytes allocated for the options: as written the charge alone, corrected one more for the NUL. */
  function AllocSize(mode: Mode, ssids: seq<seq<char>>): nat {
    if mode == AsWritten then Charge(ssids) else Charge(ssids) + 1
  }

  datatype OptionBuffer = OptionBuffer(size: nat, text: seq<char>)

  /** The text and its NUL lie inside the allocation. */
  predicate Fits(b: OptionBuffer) {
    |b.text| < b.size
  }

  /**
   `client_scan_done`: allocate the charged size (`allocOk` is the outcome
   of `malloc`; on failure nothing is built and the waiting page is not
   released) and concatenate the options into it.
   */
  function ScanDone(mode: Mode, ssids: seq<seq<char>>, allocOk: bool): (r: Option<OptionBuffer>) {
    if allocOk then Some(OptionBuffer(AllocSize(mode, ssids), Options(ssids))) else None
  }

  /** One option takes twice its SSID and 26 characters of markup. */
  lemma OptionLength(s: seq<char>)
    ensures |OptionOf(s)| == 2 * |s| + OPTION_FMT_SIZE - 5
  {
  }

  /** The charge exceeds the options' length by one byte per SSID. */
  lemma {:induction false} OptionsLength(ssids: seq<seq<char>>)
    ensures |Options(ssids)| + |ssids| == Charge(ssids)
    decreases |ssids|
  {
    if |ssids| > 0 {
      OptionsLength(ssids[..|ssids| - 1]);
      OptionLength(CStr(ssids[|ssids| - 1]));
    }
  }

  /** The options of two lists one after the other are the options of the joined list. */
  lemma {:induction false} OptionsAppend(a: seq<seq<char>>, b: seq<seq<char>>)
    ensures Options(a + b) == Options(a) + Options(b)
    decreases |b|
  {
    if |b| == 0 {
      assert a + b == a;
    } else {
      var b' := b[..|b| - 1];
      var x := b[|b| - 1];
      assert a + b == (a + b') + [x];
      assert b == b' + [x];
      OptionsAppend(a, b');
      OptionsSnoc(a + b', x);
      OptionsSnoc(b', x);
      ConcatAssoc(Options(a), Options(b'), OptionOf(CStr(x)));
    }
  }

  lemma OptionsSnoc(s: seq<seq<char>>, x: seq<char>)
    ensures Options(s + [x]) == Options(s) + OptionOf(CStr(x))
  {
    var t := s + [x];
    assert t[..|t| - 1] == s;
    assert t[|t| - 1] == x;
  }


  /**
   As written the options and their NUL fit the allocation exactly when
   the scan found something: an empty scan allocates nothing, and the page
   then reads a string that has no terminator.
   */
  lemma AsWrittenAllocation(ssids: seq<seq<char>>)
    ensures Fits(ScanDone(AsWritten, ssids, true).value) <==> |ssids| > 0
  {
    OptionsLength(ssids);
  }

  /** Corrected, the allocation always holds the options and their NUL. */
  lemma CorrectedAllocationFits(ssids: seq<seq<char>>)
    ensures Fits(ScanDone(Corrected, ssids, true).value)
  {
    OptionsLength(ssids);
  }

  /** Each formatted option and its NUL fit the scratch buffer. */
  lemma OptionFitsScratch(s: seq<char>)
    requires |CStr(s)| <= Wifi.WIFI_SSID_MAX_LEN
    ensures |OptionOf(CStr(s))| < SCRATCH_SIZE
  {
    OptionLength(CStr(s));
  }

  // ---------------------------------------------------------------------
  // The GET handler.

  datatype Display = Display(rc: int, sent: seq<char>, blocked: bool)

  /**
   The parts sent one after another with `sendall`, each with its socket
   results; a failed part does not stop the next, and the result is that
   of the last part.
   */
  function SendParts(parts: seq<seq<char>>, oracles: seq<seq<int>>): (r: Display)
    requires |oracles| == |parts|
    decreases |parts|
  {
    if |parts| == 0 then Display(0, [], false)
    else
      var o := SocketIo.SendAll(parts[0], oracles[0]);
      if o.blocked then Display(0, o.sent, true)
      else if |parts| == 1 then Display(o.rc, o.sent, false)
      else
        var rest := SendParts(parts[1..], oracles[1..]);
        Display(rest.rc, o.sent + rest.sent, rest.blocked)
  }

  function Concat(parts: seq<seq<char>>): seq<char>
    decreases |parts|
  {
    if |parts| == 0 then [] else parts[0] + Concat(parts[1..])
  }

  /** Every part went out whole. */
  predicate AllSent(parts: seq<seq<char>>, oracles: seq<seq<int>>)
    requires |oracles| == |parts|
  {
    forall i | 0 <= i < |parts| :: SocketIo.SendAll(parts[i], oracles[i]).rc == 0 && !SocketIo.SendAll(parts[i], oracles[i]).blocked
  }

  /** When every part goes out whole, the bytes sent are the parts in order and the result is 0. */
  lemma {:induction false} SendPartsComplete(parts: seq<seq<char>>, oracles: seq<seq<int>>)
    requires |oracles| == |parts| && AllSent(parts, oracles)
    ensures SendParts(parts, oracles) == Display(0, Concat(parts), false)
    decreases |parts|
  {
    if |parts| > 1 {
      assert AllSent(parts[1..], oracles[1..]) by {
        forall i | 0 <= i < |parts| - 1
          ensures SocketIo.SendAll(parts[1..][i], oracles[1..][i]).rc == 0 && !SocketIo.SendAll(parts[1..][i], oracles[1..][i]).blocked
        {
          assert parts[1..][i] == parts[i + 1] && oracles[1..][i] == oracles[i + 1];
        }
      }
      SendPartsComplete(parts[1..], oracles[1..]);
    } else if |parts| == 1 {
      assert SocketIo.SendAll(parts[0], oracles[0]).rc == 0;
      assert Concat(parts) == parts[0] + Concat(parts[1..]);
    }
  }

  /** Only the last part decides the result: earlier failures are not reported. */
  lemma {:induction false} SendPartsLastDecides(parts: seq<seq<char>>, oracles: seq<seq<int>>)
    requires |oracles| == |parts| && |parts| > 0
    requires !SendParts(parts, oracles).blocked
    ensures SendParts(parts, oracles).rc == SocketIo.SendAll(parts[|parts| - 1], oracles[|parts| - 1]).rc
    decreases |parts|
  {
    if |parts| > 1 {
      SendPartsLastDecides(parts[1..], oracles[1..]);
    }
  }

  /**
   The header and the three body parts of the setup page, the options
   read up to their NUL; `None` when there are no options or `CreateHeader200`
   fails.
   */
  function SetupParts(mode: Mode, pages: seq<WebPages.Page>, options: Option<OptionBuffer>): (r: Option<seq<seq<char>>>)
    ensures r.Some? ==> |r.value| == 4
  {
    if options.None? then None
    else
      var text := CStr(options.value.text);
      match Responses.Header200(mode, pages, |BODY_START + text + BODY_TAIL|, SETUP_TITLE)
      case None => None
      case Some(h) => Some([h, BODY_START, text, BODY_TAIL])
  }

  /** The parts sent when there are any, else the handler's -1. */
  function SendOrFail(parts: Option<seq<seq<char>>>, oracles: seq<seq<int>>): (r: Display)
    requires parts.Some? ==> |oracles| == |parts.value|
    ensures parts.None? ==> r == Display(-1, [], false)
    ensures parts.Some? && |parts.value| > 0 && !r.blocked ==> r.rc == SocketIo.SendAll(parts.value[|parts.value| - 1], oracles[|parts.value| - 1]).rc
  {
    match parts
    case None => Display(-1, [], false)
    case Some(ps) =>
      SendPartsNonPositive(ps, oracles);
      if |ps| > 0 && !SendParts(ps, oracles).blocked then
        SendPartsLastDecides(ps, oracles);
        SendParts(ps, oracles)
      else SendParts(ps, oracles)
  }

  /** `display_wifi_setup_page` once the scan has completed: -1 without options or header, else the last send's result. */
  function DisplaySetup(mode: Mode, pages: seq<WebPages.Page>, options: Option<OptionBuffer>, oracles: seq<seq<int>>): (r: Display)
    requires |oracles| == 4
    ensures SetupParts(mode, pages, options).None? ==> r == Display(-1, [], false)
    ensures SetupParts(mode, pages, options).Some? && !r.blocked ==> r.rc == SocketIo.SendAll(SetupParts(mode, pages, options).value[3], oracles[3]).rc
  {
    SendOrFail(SetupParts(mode, pages, options), oracles)
  }

  lemma {:induction false} SendPartsNonPositive(parts: seq<seq<char>>, oracles: seq<seq<int>>)
    requires |oracles| == |parts|
    ensures SendParts(parts, oracles).rc <= 0
    decreases |parts|
  {
    if |parts| > 1 {
      SendPartsNonPositive(parts[1..], oracles[1..]);
    }
  }

  /** `sent` is a 200 header whose Content-Length counts exactly what follows its blank line, ending in `body`. */
  ghost predicate Announces(sent: seq<char>, body: seq<char>) {
    exists n: nat, head: seq<char> ::
      && sent == Responses.HTTP_OK + "Content-Length: " + Decimal(n) + "\r\n" + Responses.CONTENT_TYPE + head + body
      && n == |head + body|
  }

  lemma AnnouncesBody(h: seq<char>, body: seq<char>, n: nat, head: seq<char>)
    requires h == Responses.HTTP_OK + "Content-Length: " + Decimal(n) + "\r\n" + Responses.CONTENT_TYPE + head
    requires n == |head| + |body|
    ensures Announces(h + body, body)
  {
    assert |head + body| == n;
    assert h + body == Responses.HTTP_OK + "Content-Length: " + Decimal(n) + "\r\n" + Responses.CONTENT_TYPE + head + body;
  }

  lemma ConcatFour(a: seq<char>, b: seq<char>, c: seq<char>, d: seq<char>)
    ensures Concat([a, b, c, d]) == a + (b + c + d)
  {
    var ps := [a, b, c, d];
    assert ps[1..][1..][1..][1..] == [];
    assert Concat(ps[3..]) == d;
    assert Concat(ps[2..]) == c + d;
    assert Concat(ps[1..]) == b + (c + d);
  }

  /** When every part goes out, the page is sent whole and the handler returns 0. */
  lemma SetupSent(mode: Mode, pages: seq<WebPages.Page>, options: Option<OptionBuffer>, oracles: seq<seq<int>>)
    requires |oracles| == 4
    requires SetupParts(mode, pages, options).Some? && AllSent(SetupParts(mode, pages, options).value, oracles)
    ensures var r := DisplaySetup(mode, pages, options, oracles);
      r.rc == 0 && !r.blocked && r.sent == Concat(SetupParts(mode, pages, options).value)
  {
    SendPartsComplete(SetupParts(mode, pages, options).value, oracles);
  }

  /**
   The setup page announces its own length: when every part goes out,
   the bytes sent are a 200 header whose Content-Length counts exactly
   what follows its blank line — the page head and menu, then the start,
   the options and the tail.
   */
  lemma SetupContentLength(mode: Mode, pages: seq<WebPages.Page>, options: Option<OptionBuffer>, oracles: seq<seq<int>>)
    requires |oracles| == 4
    requires SetupParts(mode, pages, options).Some? && AllSent(SetupParts(mode, pages, options).value, oracles)
    requires |BODY_START| + |CStr(options.value.text)| + |BODY_TAIL| + |Responses.CONTENT_HEAD| + |SETUP_TITLE|
             + |Responses.CONTENT_HEAD_TAIL| + |Responses.Menu(mode, pages).value| <= Responses.INT_MAX
    ensures var r := DisplaySetup(mode, pages, options, oracles);
      r.rc == 0 && !r.blocked && Announces(r.sent, BODY_START + CStr(options.value.text) + BODY_TAIL)
  {
    var parts := SetupParts(mode, pages, options).value;
    var body := BODY_START + CStr(options.value.text) + BODY_TAIL;
    SetupPartsShape(mode, pages, options);
    SetupSent(mode, pages, options, oracles);
    ConcatFour(parts[0], parts[1], parts[2], parts[3]);
    assert parts == [parts[0], parts[1], parts[2], parts[3]];
    HeaderAnnounces(mode, pages, body);
  }

  lemma SetupPartsShape(mode: Mode, pages: seq<WebPages.Page>, options: Option<OptionBuffer>)
    requires SetupParts(mode, pages, options).Some?
    ensures var text := CStr(options.value.text);
      var h := Responses.Header200(mode, pages, |BODY_START + text + BODY_TAIL|, SETUP_TITLE);
      && h.Some?
      && SetupParts(mode, pages, options).value == [h.value, BODY_START, text, BODY_TAIL]
  {
  }

  lemma SetupTitleText()
    ensures CStr(SETUP_TITLE) == SETUP_TITLE
  {
    SetupTitleNulFree();
    CStrOfNulFree(SETUP_TITLE);
  }

  lemma SetupTitleNulFree()
    ensures NulFree(SETUP_TITLE)
  {
  }

  /** The setup page's header, followed by a body of the length it was given, announces that body. */
  lemma HeaderAnnounces(mode: Mode, pages: seq<WebPages.Page>, body: seq<char>)
    requires Responses.Header200(mode, pages, |body|, SETUP_TITLE).Some?
    requires |body| + |Responses.CONTENT_HEAD| + |SETUP_TITLE| + |Responses.CONTENT_HEAD_TAIL| + |Responses.Menu(mode, pages).value| <= Responses.INT_MAX
    ensures Announces(Responses.Header200(mode, pages, |body|, SETUP_TITLE).value + body, body)
  {
    SetupTitleText();
    var h := Responses.Header200(mode, pages, |body|, SETUP_TITLE).value;
    Responses.Header200ContentLength(mode, pages, |body|, SETUP_TITLE);
    var n: nat, head: seq<char> :| h == Responses.HTTP_OK + "Content-Length: " + Decimal(n) + "\r\n" + Responses.CONTENT_TYPE + head
                                   && n == |head| + |body|;
    AnnouncesBody(h, body, n, head);
  }

  // ---------------------------------------------------------------------
  // The POST handler.

  /** `wifi_setup_attrib`: the two attributes of the setup form with their current value buffers. */
  function SetupAttrs(ssidBuf: seq<char>, passBuf: seq<char>): seq<PostForm.Attr> {
    [PostForm.Attr("ssid", ssidBuf), PostForm.Attr("password", passBuf)]
  }

  /** A C string's bytes as written to the store. */
  function CharBytes(s: seq<char>): (r: seq<Byte>)
    ensures |r| == |s|
  {
    seq(|s|, i requires 0 <= i < |s| => (s[i] as int) % 0x100)
  }

  datatype PostResult = PostResult(
    rc: int,
    form: PostForm.Outcome,
    store: NvsData.Store,
    mirrored: seq<NvsData.MirrorCall>,
    home: WebPages.HomeOutcome,
    reboot: bool)

  function MirrorOf(w: NvsData.WriteResult): seq<NvsData.MirrorCall> {
    if w.mirrored.Some? then [w.mirrored.value] else []
  }

  /**
   `post_wifi_setup_page`: extract the form; only if that succeeds write
   the SSID to (1, 0) and the password to (1, 1), each by its C string.
   The home page is shown in every case, and the device reboots when the
   result is not negative. As written that result is the password
   write's, which overwrites a failed SSID write's; corrected, a failed
   SSID write is the result.
   */
  function PostSetup(mode: Mode, ssidBuf: seq<char>, passBuf: seq<char>, contentLength: int, ev: seq<SocketIo.RecvOutcome>,
                     store: NvsData.Store, mirror: bool, ssidFault: Option<int>, pskFault: Option<int>,
                     pages: seq<WebPages.Page>, homeRc: int): (r: PostResult)
    requires ssidFault.Some? ==> ssidFault.value < 0
    requires pskFault.Some? ==> pskFault.value < 0
    ensures r.form == PostForm.Run(mode, PostForm.Start(SetupAttrs(ssidBuf, passBuf)), contentLength, ev)
    ensures r.home == WebPages.DisplayHome(pages, homeRc)
    ensures r.reboot <==> r.rc >= 0
    ensures r.form.rc < 0 ==> r.rc == r.form.rc && r.store == store && r.mirrored == []
    ensures r.form.rc >= 0 && mode == AsWritten ==> (r.reboot <==> pskFault.None?)
    ensures r.form.rc >= 0 && mode == Corrected ==> (r.reboot <==> ssidFault.None? && pskFault.None?)
    ensures r.form.rc >= 0 && mode == Corrected && ssidFault.Some? ==> r.rc == ssidFault.value
    ensures forall k: NvsData.Key | k != NvsData.Pack(mode, Wifi.NVS_DOMAIN_WIFI, Wifi.NVS_ID_WIFI_SSID)
                                    && k != NvsData.Pack(mode, Wifi.NVS_DOMAIN_WIFI, Wifi.NVS_ID_WIFI_PSK) ::
              (k in r.store <==> k in store) && (k in store ==> r.store[k] == store[k])
  {
    var form := PostForm.Run(mode, PostForm.Start(SetupAttrs(ssidBuf, passBuf)), contentLength, ev);
    var home := WebPages.DisplayHome(pages, homeRc);
    if form.rc < 0 then PostResult(form.rc, form, store, [], home, false)
    else
      var ssid := CStr(form.st.attrs[0].value);
      var psk := CStr(form.st.attrs[1].value);
      var w1 := NvsData.Write(mode, store, mirror, Wifi.NVS_DOMAIN_WIFI, Wifi.NVS_ID_WIFI_SSID, CharBytes(ssid), ssidFault);
      var w2 := NvsData.Write(mode, w1.store, mirror, Wifi.NVS_DOMAIN_WIFI, Wifi.NVS_ID_WIFI_PSK, CharBytes(psk), pskFault);
      var rc := if mode == Corrected && w1.rc < 0 then w1.rc else w2.rc;
      PostResult(rc, form, w2.store, MirrorOf(w1) + MirrorOf(w2), home, rc >= 0)
  }

  /** The two fields of the setup form, in the order the page's form submits them. */
  function SetupBody(ssid: seq<char>, psk: seq<char>): seq<char> {
    PostForm.Encode([PostForm.Field("ssid", ssid), PostForm.Field("password", psk)])
  }

  /** Reading the setup body leaves the submitted SSID and password in the two attribute buffers. */
  lemma SetupFormRead(mode: Mode, ssidBuf: seq<char>, passBuf: seq<char>, ssid: seq<char>, psk: seq<char>)
    requires PostForm.ValueText(ssid) && |ssid| < PostForm.VALUE_BUFFER_SIZE
    requires PostForm.ValueText(psk) && |psk| < PostForm.VALUE_BUFFER_SIZE
    ensures var body := SetupBody(ssid, psk);
      var form := PostForm.Run(mode, PostForm.Start(SetupAttrs(ssidBuf, passBuf)), |body|, SocketIo.Bytes(body));
      && form.rc == 0 && |form.st.attrs| == 2
      && CStr(form.st.attrs[0].value) == ssid && CStr(form.st.attrs[1].value) == psk
  {
    var attrs := SetupAttrs(ssidBuf, passBuf);
    var fs := [PostForm.Field("ssid", ssid), PostForm.Field("password", psk)];
    SetupFieldsOk(ssidBuf, passBuf, ssid, psk);
    PostForm.FormRoundTrip(mode, attrs, fs);
    SetupSubmitted(ssidBuf, passBuf, ssid, psk);
  }

  /** The setup form's two fields are ones the handler's attributes accept. */
  lemma SetupFieldsOk(ssidBuf: seq<char>, passBuf: seq<char>, ssid: seq<char>, psk: seq<char>)
    requires PostForm.ValueText(ssid) && |ssid| < PostForm.VALUE_BUFFER_SIZE
    requires PostForm.ValueText(psk) && |psk| < PostForm.VALUE_BUFFER_SIZE
    ensures var attrs := SetupAttrs(ssidBuf, passBuf);
      var fs := [PostForm.Field("ssid", ssid), PostForm.Field("password", psk)];
      PostForm.AttrsOk(attrs) && forall i | 0 <= i < |fs| :: PostForm.FieldOk(attrs, fs[i])
  {
    var attrs := SetupAttrs(ssidBuf, passBuf);
    var fs := [PostForm.Field("ssid", ssid), PostForm.Field("password", psk)];
    assert "ssid" != "password";
    assert PostForm.AttrsOk(attrs);
    assert PostForm.Named(attrs, "ssid") by {
      assert attrs[0].name == "ssid";
    }
    assert PostForm.Named(attrs, "password") by {
      assert attrs[1].name == "password";
    }
  }

  /** The values the setup form submits for its two attributes. */
  lemma SetupSubmitted(ssidBuf: seq<char>, passBuf: seq<char>, ssid: seq<char>, psk: seq<char>)
    ensures var attrs := SetupAttrs(ssidBuf, passBuf);
      var fs := [PostForm.Field("ssid", ssid), PostForm.Field("password", psk)];
      PostForm.Submitted(attrs, fs)[0] == ssid && PostForm.Submitted(attrs, fs)[1] == psk
  {
    var attrs := SetupAttrs(ssidBuf, passBuf);
    var fs := [PostForm.Field("ssid", ssid), PostForm.Field("password", psk)];
    assert "ssid" != "password";
    assert PostForm.Submitted(attrs, fs)[0] == ssid by {
      assert fs[..1] == [PostForm.Field("ssid", ssid)];
      assert PostForm.LastValue(fs, "ssid", CStr(ssidBuf)) == PostForm.LastValue(fs[..1], "ssid", CStr(ssidBuf));
    }
  }

  /**
   The setup round trip: a body `ssid=S` CR LF `password=P` CR LF,
   received whole with its length as Content-Length, stores S and P so
   that they read back, mirrors both writes when a mirror is set, and
   reboots. An empty S or P is written as no bytes, which deletes its
   record: it then reads back as missing.
   */
  lemma PostStoresCredentials(mode: Mode, ssidBuf: seq<char>, passBuf: seq<char>, ssid: seq<char>, psk: seq<char>,
                              store: NvsData.Store, mirror: bool, pages: seq<WebPages.Page>, homeRc: int)
    requires PostForm.ValueText(ssid) && |ssid| < PostForm.VALUE_BUFFER_SIZE
    requires PostForm.ValueText(psk) && |psk| < PostForm.VALUE_BUFFER_SIZE
    ensures var body := SetupBody(ssid, psk);
      var r := PostSetup(mode, ssidBuf, passBuf, |body|, SocketIo.Bytes(body), store, mirror, None, None, pages, homeRc);
      && r.reboot
      && NvsData.Read(mode, r.store, Wifi.NVS_DOMAIN_WIFI, Wifi.NVS_ID_WIFI_SSID, |ssid|, None)
           == (if |ssid| == 0 then NvsData.ReadResult(-SocketIo.ENOENT, []) else NvsData.ReadResult(|ssid|, CharBytes(ssid)))
      && NvsData.Read(mode, r.store, Wifi.NVS_DOMAIN_WIFI, Wifi.NVS_ID_WIFI_PSK, |psk|, None)
           == (if |psk| == 0 then NvsData.ReadResult(-SocketIo.ENOENT, []) else NvsData.ReadResult(|psk|, CharBytes(psk)))
      && (mirror ==> r.mirrored == [NvsData.MirrorCall(Wifi.NVS_DOMAIN_WIFI, Wifi.NVS_ID_WIFI_SSID, CharBytes(ssid)),
                                    NvsData.MirrorCall(Wifi.NVS_DOMAIN_WIFI, Wifi.NVS_ID_WIFI_PSK, CharBytes(psk))])
  {
    SetupFormRead(mode, ssidBuf, passBuf, ssid, psk);
    NvsData.PackInjective(mode, Wifi.NVS_DOMAIN_WIFI, Wifi.NVS_ID_WIFI_SSID, Wifi.NVS_DOMAIN_WIFI, Wifi.NVS_ID_WIFI_PSK);
  }

  /**
   As written, a failed SSID write does not stop the reboot: the password
   write's result overwrites it, so the device restarts without its SSID
   record.
   */
  lemma AsWrittenRebootsWithoutSsid(ssidBuf: seq<char>, passBuf: seq<char>, contentLength: int, ev: seq<SocketIo.RecvOutcome>,
                                    store: NvsData.Store, mirror: bool, e: int, pages: seq<WebPages.Page>, homeRc: int)
    requires e < 0
    requires PostForm.Run(AsWritten, PostForm.Start(SetupAttrs(ssidBuf, passBuf)), contentLength, ev).rc >= 0
    ensures var r := PostSetup(AsWritten, ssidBuf, passBuf, contentLength, ev, store, mirror, Some(e), None, pages, homeRc);
      var k := NvsData.Pack(AsWritten, Wifi.NVS_DOMAIN_WIFI, Wifi.NVS_ID_WIFI_SSID);
      r.reboot && r.rc >= 0 && (k in r.store <==> k in store) && (k in store ==> r.store[k] == store[k])
  {
    NvsData.PackInjective(AsWritten, Wifi.NVS_DOMAIN_WIFI, Wifi.NVS_ID_WIFI_SSID, Wifi.NVS_DOMAIN_WIFI, Wifi.NVS_ID_WIFI_PSK);
  }

  /**
   Corrected, a failed SSID write is the handler's result: it is
   returned, the device does not reboot, and the SSID record is as it was.
   */
  lemma CorrectedSsidFailureStops(ssidBuf: seq<char>, passBuf: seq<char>, contentLength: int, ev: seq<SocketIo.RecvOutcome>,
                                  store: NvsData.Store, mirror: bool, e: int, pskFault: Option<int>,
                                  pages: seq<WebPages.Page>, homeRc: int)
    requires e < 0 && (pskFault.Some? ==> pskFault.value < 0)
    requires PostForm.Run(Corrected, PostForm.Start(SetupAttrs(ssidBuf, passBuf)), contentLength, ev).rc >= 0
    ensures var r := PostSetup(Corrected, ssidBuf, passBuf, contentLength, ev, store, mirror, Some(e), pskFault, pages, homeRc);
      var k := NvsData.Pack(Corrected, Wifi.NVS_DOMAIN_WIFI, Wifi.NVS_ID_WIFI_SSID);
      r.rc == e && !r.reboot && (k in r.store <==> k in store) && (k in store ==> r.store[k] == store[k])
  {
    NvsData.PackInjective(Corrected, Wifi.NVS_DOMAIN_WIFI, Wifi.NVS_ID_WIFI_SSID, Wifi.NVS_DOMAIN_WIFI, Wifi.NVS_ID_WIFI_PSK);
  }

  /**
   After the setup form is posted and the device reboots, start-up finds
   the credentials and joins the network as a station instead of starting
   the access point again. An empty SSID or password deletes its record
   instead, and the access point starts again.
   */
  lemma PostedCredentialsStartStation(mode: Mode, ssidBuf: seq<char>, passBuf: seq<char>, ssid: seq<char>, psk: seq<char>,
                                      store: NvsData.Store, mirror: bool, pages: seq<WebPages.Page>, homeRc: int,
                                      nvs: Wifi.NvsPlatform, boot: seq<NvsData.DomainIds>, connectRc: int)
    requires PostForm.ValueText(ssid) && |ssid| < PostForm.VALUE_BUFFER_SIZE
    requires PostForm.ValueText(psk) && |psk| < PostForm.VALUE_BUFFER_SIZE
    requires var body := SetupBody(ssid, psk);
      var r := PostSetup(mode, ssidBuf, passBuf, |body|, SocketIo.Bytes(body), store, mirror, None, None, pages, homeRc);
      Wifi.Init(mode, nvs, boot, true, r.store, None, None, false, connectRc).rc == 0
    ensures var body := SetupBody(ssid, psk);
      var r := PostSetup(mode, ssidBuf, passBuf, |body|, SocketIo.Bytes(body), store, mirror, None, None, pages, homeRc);
      Wifi.Init(mode, nvs, boot, true, r.store, None, None, false, connectRc).start
        == Some(if |ssid| == 0 || |psk| == 0 then Wifi.StartAp
                else if connectRc < 0 then Wifi.StationThenAp else Wifi.Station)
  {
    PostStoresCredentials(mode, ssidBuf, passBuf, ssid, psk, store, mirror, pages, homeRc);
  }

  // ---------------------------------------------------------------------
  // Registration.

  /** `ob_cp_init`: register the setup page as the captive portal page. */
  function CpInit(mode: Mode, pages: seq<WebPages.Page>, allocOk: bool): WebPages.Registered {
    WebPages.Register(mode, pages, SETUP_PATH, SETUP_TITLE, Some(WebPages.WifiSetupGet), Some(WebPages.WifiSetupPost),
                      WebPages.PAGE_IS_CAPTIVE_PORTAL, allocOk)
  }

  /**
   Once registered, the setup page heads the list with its path, title,
   both callbacks and the captive-portal flag, so it is the page `/`
   stands for in access-point mode.
   */
  lemma CpInitRegisters(mode: Mode, pages: seq<WebPages.Page>)
    requires forall j | 0 <= j < |pages| :: !WebPages.SamePath(SETUP_PATH, pages[j].path)
    ensures var r := CpInit(mode, pages, true);
      && r.rc == 0 && r.pages[0].path == SETUP_PATH && r.pages[0].title == SETUP_TITLE
      && r.pages[0].getCallback == Some(WebPages.WifiSetupGet) && r.pages[0].postCallback == Some(WebPages.WifiSetupPost)
      && WebPages.RootPage(r.pages, true) == Some(0)
  {
    CStrOfNulFree(SETUP_PATH);
    SetupTitleText();
    RegisterFresh(mode, pages, SETUP_PATH, SETUP_TITLE, Some(WebPages.WifiSetupGet), Some(WebPages.WifiSetupPost),
                  WebPages.PAGE_IS_CAPTIVE_PORTAL);
    FirstCaptiveIsRoot(CpInit(mode, pages, true).pages);
  }

  /** A fresh page whose path and title fit is stored as given at the head of the list. */
  lemma RegisterFresh(mode: Mode, pages: seq<WebPages.Page>, path: seq<char>, title: seq<char>,
                      g: Option<WebPages.Handler>, p: Option<WebPages.Handler>, flags: bv32)
    requires forall j | 0 <= j < |pages| :: !WebPages.SamePath(path, pages[j].path)
    requires CStr(path) == path && |path| < WebPages.MAX_WEB_PATH_NAME_LEN
    requires CStr(title) == title && |title| < WebPages.MAX_WEB_TITLE_LEN
    ensures var r := WebPages.Register(mode, pages, path, title, g, p, flags, true);
      && r.rc == 0 && |r.pages| > 0 && r.pages[0].path == path && r.pages[0].title == title
      && r.pages[0].getCallback == g && r.pages[0].postCallback == p && r.pages[0].flags == flags
  {
  }

  lemma FirstCaptiveIsRoot(ps: seq<WebPages.Page>)
    requires |ps| > 0 && ps[0].flags == WebPages.PAGE_IS_CAPTIVE_PORTAL
    ensures WebPages.RootPage(ps, true) == Some(0)
  {
    assert WebPages.HasFlag(ps[0], WebPages.PAGE_IS_CAPTIVE_PORTAL);
  }

  /** A GET of `/` in access-point mode runs the setup page's GET callback, and a POST of the setup path its POST callback. */
  lemma CpInitRoutes(mode: Mode, pages: seq<WebPages.Page>)
    requires forall j | 0 <= j < |pages| :: !WebPages.SamePath(SETUP_PATH, pages[j].path)
    ensures var r := CpInit(mode, pages, true);
      && Dispatcher.Route(mode, r.pages, true, RequestScanner.Get, "/") == Dispatcher.CallGet(0, false)
      && Dispatcher.Route(mode, r.pages, true, RequestScanner.Post, SETUP_PATH) == Dispatcher.CallPost(0)
  {
    CpInitRegisters(mode, pages);
    var ps := CpInit(mode, pages, true).pages;
    CStrOfNulFree(SETUP_PATH);
    WebPages.PathMatchesMeaning(ps[0], SETUP_PATH);
    RoutesToSetup(mode, ps);
  }

  lemma RoutesToSetup(mode: Mode, ps: seq<WebPages.Page>)
    requires WebPages.RootPage(ps, true) == Some(0) && ps[0].getCallback.Some? && ps[0].postCallback.Some?
    requires WebPages.PathMatches(ps[0], SETUP_PATH)
    ensures Dispatcher.Route(mode, ps, true, RequestScanner.Get, "/") == Dispatcher.CallGet(0, false)
    ensures Dispatcher.Route(mode, ps, true, RequestScanner.Post, SETUP_PATH) == Dispatcher.CallPost(0)
  {
    CStrOfNulFree("/");
    assert Dispatcher.Postable(mode, ps[0], SETUP_PATH);
  }
}

=== FILE: cstring.dfy ===
/**
 C-string semantics shared by every component of the onboarding firmware.

 A fixed-size `char` array is modelled as the sequence of characters that
 were written into it; positions past the end of the sequence read as NUL
 (the arrays are zero-initialised or explicitly terminated by the code).
 The string a C routine such as `strlen` or `strncmp` sees in a buffer is
 everything before its first NUL.
 */
module CText {

  datatype Option<T> = None | Some(value: T)

  /**
   How a write past the end of a fixed-size array is treated: `AsWritten`
   keeps the source's behaviour (the write happens and is recorded),
   `Corrected` truncates and keeps the array terminated.
   */
  datatype Mode = AsWritten | Corrected

  const NUL: char := '\0'

  /** No character of `s` is NUL: `s` is the content of a C string. */
  predicate NulFree(s: seq<char>) {
    forall i | 0 <= i < |s| :: s[i] != NUL
  }

  /** Character at position `i` of a NUL-padded buffer. */
  function At(s: seq<char>, i: nat): char {
    if i < |s| then s[i] else NUL
  }

  /** The first `n` characters of `s` (all of `s` when it is shorter). */
  function Take<T>(s: seq<T>, n: nat): (r: seq<T>)
    ensures |r| == if n < |s| then n else |s|
    ensures r <= s
  {
    if n < |s| then s[..n] else s
  }

  /** The C string held in buffer `s`: the longest NUL-free prefix of `s`. */
  function CStr(s: seq<char>): (r: seq<char>)
    ensures r <= s
    ensures NulFree(r)
    ensures |r| < |s| ==> s[|r|] == NUL
  {
    if |s| == 0 || s[0] == NUL then [] else [s[0]] + CStr(s[1..])
  }

  lemma CStrOfNulFree(s: seq<char>)
    requires NulFree(s)
    ensures CStr(s) == s
  {
  }

  /** A terminated buffer: the content, its NUL, then anything. */
  lemma {:induction false} CStrTerminated(s: seq<char>, rest: seq<char>)
    requires NulFree(s)
    ensures CStr(s + [NUL] + rest) == s
    decreases |s|
  {
    if |s| > 0 {
      assert (s + [NUL] + rest)[1..] == s[1..] + [NUL] + rest;
      CStrTerminated(s[1..], rest);
    }
  }

  /**
   Writing character `c` at index `k` of a buffer (`buf[k] = c`): positions
   between the old end and `k` read as NUL, as they did before the write.
   */
  function Put(buf: seq<char>, k: nat, c: char): (r: seq<char>)
    ensures |r| == if k < |buf| then |buf| else k + 1
    ensures r[k] == c
    ensures forall j | 0 <= j < |r| && j != k :: r[j] == At(buf, j)
  {
    if k < |buf| then buf[k := c]
    else buf + seq(k - |buf|, _ => NUL) + [c]
  }

  /**
   `strncmp(a, b, n) == 0` on two NUL-padded buffers: at most `n`
   characters are compared and the comparison stops at a common NUL.
   */
  function StrNCmpEq(a: seq<char>, b: seq<char>, n: nat): bool
    decreases n
  {
    if n == 0 then true
    else if At(a, 0) != At(b, 0) then false
    else if At(a, 0) == NUL then true
    else StrNCmpEq(a[1..], b[1..], n - 1)
  }

  lemma TakeCons(c: char, s: seq<char>, n: nat)
    requires n > 0
    ensures Take([c] + s, n) == [c] + Take(s, n - 1)
  {
  }

  /** `strncmp` compares the first `n` characters of the two C strings. */
  lemma {:induction false} StrNCmpEqMeaning(a: seq<char>, b: seq<char>, n: nat)
    ensures StrNCmpEq(a, b, n) <==> Take(CStr(a), n) == Take(CStr(b), n)
    decreases n
  {
    if n == 0 {
    } else if At(a, 0) != At(b, 0) {
      if At(a, 0) == NUL {
        assert CStr(a) == [];
        assert |Take(CStr(b), n)| > 0;
      } else if At(b, 0) == NUL {
        assert CStr(b) == [];
        assert |Take(CStr(a), n)| > 0;
      } else {
        assert Take(CStr(a), n)[0] == a[0];
        assert Take(CStr(b), n)[0] == b[0];
      }
    } else if At(a, 0) == NUL {
      assert CStr(a) == [] && CStr(b) == [];
    } else {
      StrNCmpEqMeaning(a[1..], b[1..], n - 1);
      assert CStr(a) == [a[0]] + CStr(a[1..]);
      assert CStr(b) == [b[0]] + CStr(b[1..]);
      TakeCons(a[0], CStr(a[1..]), n);
      TakeCons(b[0], CStr(b[1..]), n);
    }
  }

  /**
   `strncmp(p, b, strlen(p)) == 0` holds exactly when the C string `p` is a
   prefix of the C string in `b`: the page-path match of the dispatcher.
   */
  lemma PrefixMatch(p: seq<char>, b: seq<char>)
    requires NulFree(p)
    ensures StrNCmpEq(p, b, |p|) <==> p <= CStr(b)
  {
    StrNCmpEqMeaning(p, b, |p|);
    CStrOfNulFree(p);
    assert Take(CStr(p), |p|) == p;
    if p <= CStr(b) {
      assert Take(CStr(b), |p|) == p;
    }
  }

  /** A NUL-free string is a prefix of the C string in a buffer exactly when it is a prefix of the buffer. */
  lemma {:induction false} PrefixOfCStr(p: seq<char>, b: seq<char>)
    requires NulFree(p)
    ensures p <= CStr(b) <==> p <= b
    decreases |p|
  {
    if |p| > 0 && |b| > 0 && b[0] != NUL {
      PrefixOfCStr(p[1..], b[1..]);
      assert CStr(b) == [b[0]] + CStr(b[1..]);
      assert p <= b <==> p[0] == b[0] && p[1..] <= b[1..];
      assert p <= CStr(b) <==> p[0] == b[0] && p[1..] <= CStr(b[1..]);
    }
  }

  /** `strncmp(p, b, strlen(p)) == 0` for a literal `p`: the buffer starts with `p`. */
  lemma LiteralMatch(p: seq<char>, b: seq<char>)
    requires NulFree(p)
    ensures StrNCmpEq(p, b, |p|) <==> p <= b
  {
    PrefixMatch(p, b);
    PrefixOfCStr(p, b);
  }

  /** For C strings shorter than `n`, `strncmp(a, b, n) == 0` is plain equality. */
  lemma BoundedEquality(a: seq<char>, b: seq<char>, n: nat)
    requires NulFree(a) && NulFree(b)
    requires |a| < n && |b| < n
    ensures StrNCmpEq(a, b, n) <==> a == b
  {
    StrNCmpEqMeaning(a, b, n);
    CStrOfNulFree(a);
    CStrOfNulFree(b);
  }

  /** `strncpy(dst, src, n)` into an `n`-byte array, read back as a buffer. */
  function StrNCpy(src: seq<char>, n: nat): (r: seq<char>)
    ensures NulFree(r) && |r| <= n
    ensures r <= CStr(src)
    ensures |r| < n ==> r == CStr(src)
  {
    Take(CStr(src), n)
  }

  // ---------------------------------------------------------------------
  // Decimal numerals (the `%d` conversion and the digit fold of the
  // Content-Length scanner).

  predicate IsDigit(c: char) {
    '0' <= c <= '9'
  }

  function DigitValue(c: char): nat
    requires IsDigit(c)
  {
    (c as int - '0' as int) as nat
  }

  function DigitChar(d: nat): (c: char)
    requires d < 10
    ensures IsDigit(c) && DigitValue(c) == d
  {
    ('0' as int + d) as char
  }

  /** `%d` of a non-negative value. */
  function Decimal(n: nat): (s: seq<char>)
    ensures |s| >= 1
    ensures forall i | 0 <= i < |s| :: IsDigit(s[i])
    ensures n < 10 <==> |s| == 1
  {
    if n < 10 then [DigitChar(n)] else Decimal(n / 10) + [DigitChar(n % 10)]
  }

  /** Left-to-right fold `acc = acc * 10 + digit`, skipping non-digits. */
  function FoldDigits(acc: int, s: seq<char>): int
    decreases |s|
  {
    if |s| == 0 then acc
    else FoldDigits(if IsDigit(s[0]) then acc * 10 + DigitValue(s[0]) else acc, s[1..])
  }

  lemma {:induction false} FoldDigitsSnoc(acc: int, s: seq<char>, c: char)
    requires IsDigit(c)
    ensures FoldDigits(acc, s + [c]) == FoldDigits(acc, s) * 10 + DigitValue(c)
    decreases |s|
  {
    if |s| == 0 {
      assert s + [c] == [c];
      assert ([c])[1..] == [];
    } else {
      assert (s + [c])[1..] == s[1..] + [c];
      FoldDigitsSnoc(if IsDigit(s[0]) then acc * 10 + DigitValue(s[0]) else acc, s[1..], c);
    }
  }

  function Pow10(k: nat): nat {
    if k == 0 then 1 else 10 * Pow10(k - 1)
  }

  /**
   Folding a numeral written by `%d` onto an accumulator shifts the
   accumulator left by the numeral's width and adds its value.
   */
  lemma {:induction false} DecimalFolds(acc: int, n: nat)
    ensures FoldDigits(acc, Decimal(n)) == acc * Pow10(|Decimal(n)|) + n
    decreases n
  {
    if n < 10 {
      var s := Decimal(n);
      assert s == [DigitChar(n)];
      assert s[1..] == [];
    } else {
      var hi := Decimal(n / 10);
      DecimalFolds(acc, n / 10);
      FoldDigitsSnoc(acc, hi, DigitChar(n % 10));
      assert Decimal(n) == hi + [DigitChar(n % 10)];
      assert Pow10(|hi| + 1) == 10 * Pow10(|hi|);
      calc {
        FoldDigits(acc, Decimal(n));
        FoldDigits(acc, hi) * 10 + n % 10;
        (acc * Pow10(|hi|) + n / 10) * 10 + n % 10;
        acc * (10 * Pow10(|hi|)) + (n / 10) * 10 + n % 10;
        acc * Pow10(|Decimal(n)|) + n;
      }
    }
  }

  /** Round trip: reading back a `%d` numeral yields the number. */
  lemma DecimalRoundTrip(n: nat)
    ensures FoldDigits(0, Decimal(n)) == n
  {
    DecimalFolds(0, n);
  }

  // ---------------------------------------------------------------------
  // Lower-case hexadecimal (`%02x`).

  type Byte = b: nat | b < 256

  function HexDigit(d: nat): (c: char)
    requires d < 16
  {
    if d < 10 then ('0' as int + d) as char else ('a' as int + d - 10) as char
  }

  function HexValue(c: char): (v: nat)
    ensures v < 16
  {
    if '0' <= c <= '9' then (c as int - '0' as int) as nat
    else if 'a' <= c <= 'f' then (c as int - 'a' as int + 10) as nat
    else 0
  }

  /** `%02x` of one byte. */
  function Hex2(b: Byte): (s: seq<char>)
    ensures |s| == 2
    ensures HexValue(s[0]) * 16 + HexValue(s[1]) == b
    ensures s[0] != ':' && s[1] != ':'
  {
    [HexDigit(b / 16), HexDigit(b % 16)]
  }

  // ---------------------------------------------------------------------
  // Sequences.

  lemma ConcatAssoc<T>(p: seq<T>, q: seq<T>, r: seq<T>)
    ensures p + q + r == p + (q + r)
  {
  }
}

=== FILE: dispatcher.dfy ===
/**
 The connection side of the web server: the table of accepted
 connections, and what one connection does once its request head has
 been read (pick the page, run its callback, send 404 or 500, close).

 Page callbacks are not run here: the dispatcher names the callback it
 calls and the callback's return value is a parameter.
 */
module Dispatcher {
  import opened CText
  import opened SocketIo
  import opened RequestScanner
  import opened WebPages
  import opened Responses

  // ---------------------------------------------------------------------
  // Accepted connections: one slot per handler thread, negative when free.

  /** `start_listener`: every slot starts free (-1). */
  function FreshSlots(handlers: nat): (r: seq<int>)
    ensures |r| == handlers
    ensures forall j | 0 <= j < handlers :: r[j] < 0
  {
    seq(handlers, _ => -1)
  }

  /** Index of the first free slot, if any. */
  function FirstFree(accepted: seq<int>): (r: Option<nat>)
    ensures r.Some? ==> r.value < |accepted| && accepted[r.value] < 0
    ensures r.Some? ==> forall j | 0 <= j < r.value :: accepted[j] >= 0
    ensures r.None? <==> forall j | 0 <= j < |accepted| :: accepted[j] >= 0
    decreases |accepted|
  {
    if |accepted| == 0 then None
    else if accepted[0] < 0 then Some(0)
    else match FirstFree(accepted[1..])
      case None => None
      case Some(k) => Some(k + 1)
  }

  /** `get_free_slot`: the first free slot, or -1 when every slot is taken. */
  method GetFreeSlot(accepted: seq<int>) returns (slot: int)
    ensures -1 <= slot < |accepted|
    ensures slot == -1 <==> forall j | 0 <= j < |accepted| :: accepted[j] >= 0
    ensures slot >= 0 ==> accepted[slot] < 0 && forall j | 0 <= j < slot :: accepted[j] >= 0
    ensures slot == (if FirstFree(accepted).None? then -1 else FirstFree(accepted).value)
  {
    var i := 0;
    while i < |accepted|
      invariant 0 <= i <= |accepted|
      invariant forall j | 0 <= j < i :: accepted[j] >= 0
    {
      if accepted[i] < 0 {
        return i;
      }
      i := i + 1;
    }
    return -1;
  }

  /**
   What `process_tcp` did with one `accept` result: its return value, the
   slot table afterwards, the slot the new connection got (a handler
   thread is started for it), and whether the new socket was closed at
   once for want of a slot.
   */
  datatype Accepted = Accepted(rc: int, accepted: seq<int>, slot: Option<nat>, refused: bool)

  /**
   `process_tcp`: `client` is the result of `zsock_accept` and `errno`
   the error number it left. A failed accept returns `-errno`; a full
   table closes the new socket and returns 0; otherwise the socket is
   stored in the first free slot.
   */
  function ProcessTcp(accepted: seq<int>, client: int, errno: int): (r: Accepted)
    ensures |r.accepted| == |accepted|
    ensures client < 0 ==> r == Accepted(-errno, accepted, None, false)
    ensures client >= 0 ==> r.rc == 0 && (r.refused <==> r.slot.None?)
    ensures r.refused ==> r.accepted == accepted && forall j | 0 <= j < |accepted| :: accepted[j] >= 0
    ensures r.slot.Some? ==> r.slot.value < |accepted| && accepted[r.slot.value] < 0 && r.accepted[r.slot.value] == client
    ensures forall j | 0 <= j < |accepted| && (r.slot.None? || j != r.slot.value) :: r.accepted[j] == accepted[j]
  {
    if client < 0 then Accepted(-errno, accepted, None, false)
    else match FirstFree(accepted)
      case None => Accepted(0, accepted, None, true)
      case Some(k) => Accepted(0, accepted[k := client], Some(k), false)
  }

  /** The end of `client_conn_handler`: its slot is marked free again. */
  function Release(accepted: seq<int>, slot: nat): (r: seq<int>)
    requires slot < |accepted|
    ensures |r| == |accepted| && r[slot] < 0
    ensures forall j | 0 <= j < |accepted| && j != slot :: r[j] == accepted[j]
  {
    accepted[slot := -1]
  }

  /** Number of slots holding a connection. */
  function Active(accepted: seq<int>): (n: nat)
    ensures n <= |accepted|
    decreases |accepted|
  {
    if |accepted| == 0 then 0 else (if accepted[0] >= 0 then 1 else 0) + Active(accepted[1..])
  }

  lemma {:induction false} ActiveUpdate(accepted: seq<int>, k: nat, v: int)
    requires k < |accepted|
    ensures Active(accepted[k := v]) + (if accepted[k] >= 0 then 1 else 0) == Active(accepted) + (if v >= 0 then 1 else 0)
    decreases |accepted|
  {
    if k > 0 {
      assert accepted[k := v][1..] == accepted[1..][k - 1 := v];
      ActiveUpdate(accepted[1..], k - 1, v);
    } else {
      assert accepted[k := v][1..] == accepted[1..];
    }
  }

  /**
   Accepting never disturbs a live connection: a new connection takes a
   free slot, so the number of live connections grows by exactly one, and
   releasing its slot brings it back down.
   */
  lemma AcceptThenRelease(accepted: seq<int>, client: int, errno: int)
    requires client >= 0
    ensures var r := ProcessTcp(accepted, client, errno);
      && (r.slot.Some? ==> Active(r.accepted) == Active(accepted) + 1)
      && (r.slot.Some? ==> Active(Release(r.accepted, r.slot.value)) == Active(accepted))
      && (r.slot.None? ==> Active(accepted) == |accepted|)
  {
    var r := ProcessTcp(accepted, client, errno);
    if r.slot.Some? {
      var k := r.slot.value;
      ActiveUpdate(accepted, k, client);
      ActiveUpdate(r.accepted, k, -1);
    } else {
      FullTable(accepted);
    }
  }

  lemma {:induction false} FullTable(accepted: seq<int>)
    requires forall j | 0 <= j < |accepted| :: accepted[j] >= 0
    ensures Active(accepted) == |accepted|
    decreases |accepted|
  {
    if |accepted| > 0 {
      FullTable(accepted[1..]);
    }
  }

  // ---------------------------------------------------------------------
  // Choosing the page.

  /** What the dispatcher does with a finished request head. */
  datatype Plan =
    | CallGet(page: nat, check500: bool)   // run the page's GET callback; `check500`: send 500 if it fails
    | CallPost(page: nat)                  // store the Content-Length in the page and run its POST callback
    | Respond404
    | NoResponse                           // not a GET or POST: just close

  /**
   The page test of the POST branch. As written the branch requires the
   page to have a GET callback and then calls its POST callback; the
   corrected test requires the callback it calls.
   */
  predicate Postable(mode: Mode, p: Page, target: seq<char>) {
    PathMatches(p, target) && (if mode == AsWritten then p.getCallback.Some? else p.postCallback.Some?)
  }

  /**
   The `switch` of `client_conn_handler`. A GET of a one-character target
   is a request for `/`: the first page carrying the captive-portal flag
   (access-point mode) or the home-page flag is shown if it has a GET
   callback, and its result is not checked. Any other GET, and a POST, go
   to the first page whose path is a prefix of the target.
   */
  function Route(mode: Mode, pages: seq<Page>, hasAp: bool, m: Method, filename: seq<char>): (r: Plan)
    ensures m == Unknown <==> r == NoResponse
    ensures r.CallGet? ==> m == Get && r.page < |pages| && pages[r.page].getCallback.Some?
    ensures r.CallGet? ==> (r.check500 <==> |CStr(filename)| != 1)
    ensures m == Get && |CStr(filename)| == 1 ==>
      (r.CallGet? <==> RootPage(pages, hasAp).Some? && pages[RootPage(pages, hasAp).value].getCallback.Some?)
    ensures m == Get && |CStr(filename)| == 1 && r.CallGet? ==> r.page == RootPage(pages, hasAp).value
    ensures m == Get && |CStr(filename)| != 1 && r.CallGet? ==>
      PathMatches(pages[r.page], filename) && forall j | 0 <= j < r.page :: !PathMatches(pages[j], filename) || pages[j].getCallback.None?
    ensures m == Get && |CStr(filename)| != 1 ==>
      (r == Respond404 <==> forall j | 0 <= j < |pages| :: !PathMatches(pages[j], filename) || pages[j].getCallback.None?)
    ensures r.CallPost? ==> m == Post && r.page < |pages| && Postable(mode, pages[r.page], filename)
    ensures r.CallPost? ==> forall j | 0 <= j < r.page :: !Postable(mode, pages[j], filename)
    ensures m == Post ==> (r == Respond404 <==> forall j | 0 <= j < |pages| :: !Postable(mode, pages[j], filename))
  {
    match m
    case Unknown => NoResponse
    case Get =>
      if |CStr(filename)| == 1 then
        (match RootPage(pages, hasAp)
         case Some(k) => if pages[k].getCallback.Some? then CallGet(k, false) else Respond404
         case None => Respond404)
      else
        (match HandlerPage(pages, filename)
         case Some(k) => CallGet(k, true)
         case None => Respond404)
    case Post =>
      match FirstWhere(pages, (p: Page) => Postable(mode, p, filename))
      case Some(k) => CallPost(k)
      case None => Respond404
  }

  /** What is sent after the callback, if anything. */
  datatype Reply = NoReply | Reply404 | Reply500 | NullCallback

  predicate ValidPlan(plan: Plan, pages: seq<Page>) {
    (plan.CallGet? || plan.CallPost?) ==> plan.page < |pages|
  }

  /**
   After the callback returned `rc`: a failed checked GET or POST sends
   the 500 response, a missing page the 404 response. Calling a POST
   callback that was never registered is a call through a NULL pointer.
   */
  function Finish(pages: seq<Page>, plan: Plan, rc: int): (r: Reply)
    requires ValidPlan(plan, pages)
    ensures r == Reply404 <==> plan == Respond404
    ensures r == Reply500 <==> ((plan.CallGet? && plan.check500) || (plan.CallPost? && pages[plan.page].postCallback.Some?)) && rc < 0
    ensures r == NullCallback <==> plan.CallPost? && pages[plan.page].postCallback.None?
  {
    match plan
    case CallGet(_, check500) => if check500 && rc < 0 then Reply500 else NoReply
    case CallPost(k) =>
      if pages[k].postCallback.None? then NullCallback
      else if rc < 0 then Reply500 else NoReply
    case Respond404 => Reply404
    case NoResponse => NoReply
  }

  /** The bytes the server itself sends for a reply (callbacks send their own pages). */
  function ReplyText(mode: Mode, r: Reply): seq<char> {
    match r
    case Reply404 => ErrorResponse(mode, NotFound)
    case Reply500 => ErrorResponse(mode, ServerError)
    case _ => []
  }

  // ---------------------------------------------------------------------
  // One connection.

  /** A finished connection: how the head ended, the plan, the page list afterwards and the reply. */
  datatype Handled = Handled(scan: ScanState, end: End, plan: Plan, pages: seq<Page>, reply: Reply)

  /**
   `client_conn_handler` for the receive trace `ev`: scan the head, route
   it, record the Content-Length in a page that is POSTed to, and finish
   with the callback's result `rc`. `None` while the trace has not ended
   the head (the thread is still blocked in `zsock_recv`). The socket is
   closed and the slot released in every other case.
   */
  function HandleConnection(mode: Mode, pages: seq<Page>, hasAp: bool, ev: seq<RecvOutcome>, rc: int): (r: Option<Handled>)
    ensures r.None? <==> Run(mode, Init, ev).end == Pending
    ensures r.Some? ==> r.value.scan == Run(mode, Init, ev).scan && r.value.end == Run(mode, Init, ev).end
    ensures r.Some? ==> r.value.plan == Route(mode, pages, hasAp, r.value.scan.pageType, r.value.scan.filename)
    ensures r.Some? ==> |r.value.pages| == |pages| && ValidPlan(r.value.plan, pages)
    ensures r.Some? && r.value.plan.CallPost? ==>
      r.value.pages[r.value.plan.page] == pages[r.value.plan.page].(contentLength := r.value.scan.ls.length)
    ensures r.Some? ==> forall j | 0 <= j < |pages| && !(r.value.plan.CallPost? && r.value.plan.page == j) :: r.value.pages[j] == pages[j]
  {
    var res := Run(mode, Init, ev);
    if res.end == Pending then None
    else
      var s := res.scan;
      var plan := Route(mode, pages, hasAp, s.pageType, s.filename);
      var pages' := if plan.CallPost? then pages[plan.page := pages[plan.page].(contentLength := s.ls.length)] else pages;
      Some(Handled(s, res.end, plan, pages', Finish(pages, plan, rc)))
  }

  /** A head that is still open leaves the connection waiting, whatever the callbacks would return. */
  lemma WaitsForHead(mode: Mode, pages: seq<Page>, hasAp: bool, b: seq<char>, rc: int)
    requires TermRun(0, b).Some?
    ensures HandleConnection(mode, pages, hasAp, Bytes(b), rc).None?
  {
    ScanOpen(mode, b);
  }

  /** Retried receives (`EAGAIN`, `EINTR`) change nothing about what a connection does. */
  lemma RetriesChangeNothing(mode: Mode, pages: seq<Page>, hasAp: bool, ev: seq<RecvOutcome>, rc: int)
    ensures HandleConnection(mode, pages, hasAp, WithoutRetries(ev), rc) == HandleConnection(mode, pages, hasAp, ev, rc)
  {
    RetriesInvisible(mode, Init, ev);
  }

  /** The request head `b + [c]` whose last byte completes the blank line, with a short, closed GET target. */
  predicate ShortGet(b: seq<char>, c: char) {
    && TermRun(0, b).Some? && TermRun(0, b + [c]) == None
    && MethodOf(b + [c]) == Get && RequestScanner.Closed(b + [c])
    && NulFree(Target(b + [c])) && |Target(b + [c])| < WebPages.MAX_WEB_PATH_NAME_LEN - 1
  }

  lemma ShortGetFilename(mode: Mode, b: seq<char>, c: char, rest: seq<RecvOutcome>)
    requires ShortGet(b, c)
    ensures var r := Run(mode, Init, Bytes(b + [c]) + rest);
      && r.end == HeaderEnd && r.scan.pageType == Get
      && CStr(r.scan.filename) == Target(b + [c])
  {
    ScanEnds(mode, b, c, rest);
    var t := Target(b + [c]);
    var s := Run(mode, Init, Bytes(b + [c]) + rest).scan;
    assert Take(t, WebPages.MAX_WEB_PATH_NAME_LEN - 1) == t;
    assert s.filename == t + [NUL];
    CStrTerminated(t, []);
    assert t + [NUL] + [] == t + [NUL];
  }

  /**
   End to end, for a GET of a target of 2 to 30 characters: the
   connection runs the GET callback of a page exactly when some page
   with a GET callback has a path that starts the target, and it is the
   first such page; otherwise it answers 404.
   */
  lemma GetServesPrefixPage(mode: Mode, pages: seq<Page>, hasAp: bool, b: seq<char>, c: char,
                            rest: seq<RecvOutcome>, rc: int)
    requires ShortGet(b, c) && |Target(b + [c])| != 1
    requires forall j | 0 <= j < |pages| :: NulFree(pages[j].path)
    ensures var h := HandleConnection(mode, pages, hasAp, Bytes(b + [c]) + rest, rc);
      var t := Target(b + [c]);
      && h.Some? && h.value.end == HeaderEnd && h.value.pages == pages
      && (h.value.plan.CallGet? <==> exists j | 0 <= j < |pages| :: pages[j].path <= t && pages[j].getCallback.Some?)
      && (h.value.plan.CallGet? ==> pages[h.value.plan.page].path <= t && h.value.plan.check500)
      && (h.value.plan.CallGet? ==> forall j | 0 <= j < h.value.plan.page :: !(pages[j].path <= t) || pages[j].getCallback.None?)
      && (!h.value.plan.CallGet? ==> h.value.plan == Respond404 && h.value.reply == Reply404)
  {
    ShortGetFilename(mode, b, c, rest);
    var filename := Run(mode, Init, Bytes(b + [c]) + rest).scan.filename;
    forall j | 0 <= j < |pages|
      ensures PathMatches(pages[j], filename) <==> pages[j].path <= Target(b + [c])
    {
      PathMatchesMeaning(pages[j], filename);
    }
  }

  /**
   A GET of any one-character target, not only `/`, shows the root page:
   the captive-portal page in access-point mode, the home page otherwise,
   and a failing callback is not answered with 500.
   */
  lemma SingleCharacterIsRoot(mode: Mode, pages: seq<Page>, hasAp: bool, b: seq<char>, c: char,
                              rest: seq<RecvOutcome>, rc: int)
    requires ShortGet(b, c) && |Target(b + [c])| == 1
    ensures var h := HandleConnection(mode, pages, hasAp, Bytes(b + [c]) + rest, rc);
      && h.Some?
      && (h.value.plan.CallGet? <==> RootPage(pages, hasAp).Some? && pages[RootPage(pages, hasAp).value].getCallback.Some?)
      && (h.value.plan.CallGet? ==> h.value.plan.page == RootPage(pages, hasAp).value && h.value.reply == NoReply)
  {
    ShortGetFilename(mode, b, c, rest);
  }

  /** For targets short enough not to overrun `filename`, the as-written and corrected scanners route alike. */
  lemma ModesAgreeOnShortGet(pages: seq<Page>, hasAp: bool, b: seq<char>, c: char, rest: seq<RecvOutcome>, rc: int)
    requires ShortGet(b, c)
    ensures var w := HandleConnection(AsWritten, pages, hasAp, Bytes(b + [c]) + rest, rc);
      var k := HandleConnection(Corrected, pages, hasAp, Bytes(b + [c]) + rest, rc);
      w.Some? && k.Some? && w.value.plan == k.value.plan && w.value.reply == k.value.reply
  {
    ShortGetFilename(AsWritten, b, c, rest);
    ShortGetFilename(Corrected, b, c, rest);
    var fw := Run(AsWritten, Init, Bytes(b + [c]) + rest).scan.filename;
    var fk := Run(Corrected, Init, Bytes(b + [c]) + rest).scan.filename;
    RouteDependsOnCStr(pages, hasAp, fw, fk);
  }

  /** Routing a GET looks only at the C string in `filename`. */
  lemma RouteDependsOnCStr(pages: seq<Page>, hasAp: bool, f: seq<char>, g: seq<char>)
    requires CStr(f) == CStr(g)
    ensures Route(AsWritten, pages, hasAp, Get, f) == Route(Corrected, pages, hasAp, Get, g)
  {
    forall j | 0 <= j < |pages|
      ensures PathMatches(pages[j], f) <==> PathMatches(pages[j], g)
    {
      StrNCmpEqMeaning(pages[j].path, f, |CStr(pages[j].path)|);
      StrNCmpEqMeaning(pages[j].path, g, |CStr(pages[j].path)|);
    }
  }

  /**
   As written, a POST to a page registered with a GET callback and no
   POST callback calls through a NULL pointer; corrected, such a page is
   skipped and the POST is answered with 404.
   */
  lemma AsWrittenNullPostCallback(target: seq<char>)
    requires NulFree(target) && |target| > 0
    ensures var p := Page(target, target, 0, 0, Some(External(0)), None);
      && Route(AsWritten, [p], false, Post, target) == CallPost(0)
      && Finish([p], CallPost(0), 0) == NullCallback
  {
    var p := Page(target, target, 0, 0, Some(External(0)), None);
    PathMatchesMeaning(p, target);
    CStrOfNulFree(target);
    assert Postable(AsWritten, p, target);
  }

  /** Corrected, no request ever calls a POST callback that was not registered. */
  lemma CorrectedPostHasCallback(pages: seq<Page>, hasAp: bool, m: Method, filename: seq<char>, rc: int)
    ensures Finish(pages, Route(Corrected, pages, hasAp, m, filename), rc) != NullCallback
  {
  }
}

=== FILE: nvs_data.dfy ===
/**
 The non-volatile store of the onboarding component: records named by a
 (domain, id) byte pair packed into the 16-bit id of the flash file
 system, a registry of the domains whose ids a factory reset erases, and
 the mount done once at start-up.

 The flash file system itself is a map from 16-bit ids to byte strings;
 a flash fault is an explicit `fault` parameter carrying the negative code
 the file system would return.
 */
module NvsData {
  import opened CText
  import SocketIo

  /** A 16-bit id of the flash file system. */
  type Key = k: nat | k < 0x1_0000

  type Store = map<Key, seq<Byte>>

  /**
   `nvs_id_t` overlays the pair `{ domain, id }` on a 16-bit id. As
   written the overlay is that of the little-endian targets the firmware
   runs on: `domain` is the low byte. Corrected it is the packing the
   header documents, `domain << 8 | id`.
   */
  function Pack(mode: Mode, domain: Byte, id: Byte): (k: Key)
    ensures mode == AsWritten ==> k % 0x100 == domain && k / 0x100 == id
    ensures mode == Corrected ==> k / 0x100 == domain && k % 0x100 == id
  {
    if mode == AsWritten then domain + 0x100 * id else 0x100 * domain + id
  }

  /** The pair a 16-bit id stands for. */
  function Unpack(mode: Mode, k: Key): (r: (Byte, Byte))
  {
    if mode == AsWritten then (k % 0x100, k / 0x100) else (k / 0x100, k % 0x100)
  }

  lemma PackRoundTrip(mode: Mode, domain: Byte, id: Byte)
    ensures Unpack(mode, Pack(mode, domain, id)) == (domain, id)
  {
  }

  lemma UnpackRoundTrip(mode: Mode, k: Key)
    ensures Pack(mode, Unpack(mode, k).0, Unpack(mode, k).1) == k
  {
  }

  /** Distinct pairs never share a record. */
  lemma PackInjective(mode: Mode, d1: Byte, i1: Byte, d2: Byte, i2: Byte)
    ensures Pack(mode, d1, i1) == Pack(mode, d2, i2) <==> d1 == d2 && i1 == i2
  {
    PackRoundTrip(mode, d1, i1);
    PackRoundTrip(mode, d2, i2);
  }

  /** The two packings give the same id only for pairs whose domain and id coincide. */
  lemma PackingsDiffer(domain: Byte, id: Byte)
    ensures Pack(AsWritten, domain, id) == Pack(Corrected, domain, id) <==> domain == id
  {
  }

  // ---------------------------------------------------------------------
  // Mount.

  datatype InitResult = InitResult(rc: int, inited: bool, mounted: bool)

  /**
   `ob_nvs_data_init`: nothing to do once mounted; otherwise the device
   must be ready, its page information readable and the mount must
   succeed, each failure giving -1. `mounted` records that `nvs_mount`
   was called.
   */
  function Init(inited: bool, deviceReady: bool, pageInfoRc: int, mountRc: int): (r: InitResult)
    ensures r.rc == 0 || r.rc == -1
    ensures r.rc == 0 <==> r.inited
    ensures inited ==> r == InitResult(0, true, false)
    ensures !inited ==> (r.mounted <==> deviceReady && pageInfoRc == 0)
    ensures !inited ==> (r.inited <==> deviceReady && pageInfoRc == 0 && mountRc == 0)
  {
    if inited then InitResult(0, true, false)
    else if !deviceReady || pageInfoRc != 0 then InitResult(-1, false, false)
    else if mountRc != 0 then InitResult(-1, false, true)
    else InitResult(0, true, true)
  }

  /** A second initialisation after a successful one succeeds without mounting again, whatever the hardware says. */
  lemma InitIdempotent(inited: bool, ready: bool, info: int, mount: int, ready2: bool, info2: int, mount2: int)
    requires Init(inited, ready, info, mount).rc == 0
    ensures Init(Init(inited, ready, info, mount).inited, ready2, info2, mount2) == InitResult(0, true, false)
  {
  }

  // ---------------------------------------------------------------------
  // Read and write.

  datatype ReadResult = ReadResult(rc: int, data: seq<Byte>)

  /**
   `ob_nvs_data_read`: read the record of (domain, id) into a buffer of
   `len` bytes, returning the file system's result: the record's length,
   `-ENOENT` for a missing record, or the fault.
   */
  function Read(mode: Mode, store: Store, domain: Byte, id: Byte, len: nat, fault: Option<int>): (r: ReadResult)
    requires fault.Some? ==> fault.value < 0
    ensures r.rc >= 0 <==> fault.None? && Pack(mode, domain, id) in store
    ensures r.rc >= 0 ==> r.rc == |store[Pack(mode, domain, id)]| && r.data == Take(store[Pack(mode, domain, id)], len)
    ensures fault.Some? ==> r.rc == fault.value
    ensures fault.None? && Pack(mode, domain, id) !in store ==> r.rc == -SocketIo.ENOENT
  {
    var k := Pack(mode, domain, id);
    if fault.Some? then ReadResult(fault.value, [])
    else if k !in store then ReadResult(-SocketIo.ENOENT, [])
    else ReadResult(|store[k]|, Take(store[k], len))
  }

  /** The call made to the mirror callback after a write. */
  datatype MirrorCall = MirrorCall(domain: Byte, id: Byte, data: seq<Byte>)

  datatype WriteResult = WriteResult(rc: int, store: Store, mirrored: Option<MirrorCall>)

  /**
   `ob_nvs_data_write`: write the record of (domain, id), replacing any
   record there, and return the file system's result (0 when the record
   already held these bytes, their number otherwise, or the fault). The
   flash file system reads a write of no bytes as a delete (`nvs_delete`
   is that write): the record is removed and 0 returned. When a mirror
   callback is set (`mirror`) it is called after a write that did not
   fail.
   */
  function Write(mode: Mode, store: Store, mirror: bool, domain: Byte, id: Byte, data: seq<Byte>,
                 fault: Option<int>): (r: WriteResult)
    requires fault.Some? ==> fault.value < 0
    ensures r.rc < 0 <==> fault.Some?
    ensures r.rc < 0 ==> r.store == store && r.rc == fault.value
    ensures r.rc >= 0 && |data| > 0 ==> r.store == store[Pack(mode, domain, id) := data]
    ensures r.rc >= 0 && |data| == 0 ==> r.store == store - {Pack(mode, domain, id)}
    ensures r.rc >= 0 ==> r.rc == 0 || r.rc == |data|
    ensures r.mirrored.Some? <==> mirror && r.rc >= 0
    ensures r.mirrored.Some? ==> r.mirrored.value == MirrorCall(domain, id, data)
  {
    var k := Pack(mode, domain, id);
    if fault.Some? then WriteResult(fault.value, store, None)
    else if |data| == 0 then
      WriteResult(0, store - {k}, if mirror then Some(MirrorCall(domain, id, data)) else None)
    else
      var rc := if k in store && store[k] == data then 0 else |data|;
      WriteResult(rc, store[k := data], if mirror then Some(MirrorCall(domain, id, data)) else None)
  }

  /** A record reads back as written; after a write of no bytes it is missing. */
  lemma ReadAfterWrite(mode: Mode, store: Store, mirror: bool, domain: Byte, id: Byte, data: seq<Byte>)
    ensures var w := Write(mode, store, mirror, domain, id, data, None);
      Read(mode, w.store, domain, id, |data|, None)
        == if |data| == 0 then ReadResult(-SocketIo.ENOENT, []) else ReadResult(|data|, data)
  {
  }

  /** A write leaves every other (domain, id) pair as it was. */
  lemma WriteLeavesOthers(mode: Mode, store: Store, mirror: bool, domain: Byte, id: Byte, data: seq<Byte>,
                          fault: Option<int>, d2: Byte, i2: Byte, len: nat)
    requires fault.Some? ==> fault.value < 0
    requires (d2, i2) != (domain, id)
    ensures var w := Write(mode, store, mirror, domain, id, data, fault);
      Read(mode, w.store, d2, i2, len, None) == Read(mode, store, d2, i2, len, None)
  {
    PackInjective(mode, domain, id, d2, i2);
  }

  // ---------------------------------------------------------------------
  // The domain registry.

  /** A `nvs_record_data_t`: a domain and the number of ids it uses, from 0. */
  datatype DomainIds = DomainIds(domain: Byte, num: Byte)

  /** The registry's fixed head: domain 0 with 255 ids, for records written outside the onboarding code. */
  const HEAD: DomainIds := DomainIds(0, 0xff)

  predicate DistinctDomains(reg: seq<DomainIds>) {
    forall i, j | 0 <= i < j < |reg| :: reg[i].domain != reg[j].domain
  }

  predicate Registers(reg: seq<DomainIds>, domain: Byte) {
    exists j | 0 <= j < |reg| :: reg[j].domain == domain
  }

  datatype Registered = Registered(rc: int, reg: seq<DomainIds>)

  /**
   `ob_nvs_data_register_ids`: a domain already present is refused with
   `-EEXIST`; otherwise it is appended with `num`, or `-ENOMEM` when the
   allocation fails.
   */
  function Register(reg: seq<DomainIds>, domain: Byte, num: Byte, allocOk: bool): (r: Registered)
    ensures r.rc == -SocketIo.EEXIST <==> Registers(reg, domain)
    ensures r.rc == -SocketIo.ENOMEM <==> !Registers(reg, domain) && !allocOk
    ensures r.rc == 0 <==> !Registers(reg, domain) && allocOk
    ensures r.rc == 0 ==> r.reg == reg + [DomainIds(domain, num)]
    ensures r.rc != 0 ==> r.reg == reg
  {
    if Registers(reg, domain) then Registered(-SocketIo.EEXIST, reg)
    else if !allocOk then Registered(-SocketIo.ENOMEM, reg)
    else Registered(0, reg + [DomainIds(domain, num)])
  }

  /**
   The list walk of `ob_nvs_data_register_ids`: from the head, refuse a
   record of the same domain, and at the last record append. The `-EIO`
   after the loop is not reached, the list never being empty.
   */
  method RegisterIds(reg: seq<DomainIds>, domain: Byte, num: Byte, allocOk: bool) returns (rc: int, reg': seq<DomainIds>)
    requires |reg| > 0
    ensures Registered(rc, reg') == Register(reg, domain, num, allocOk)
    ensures rc != -SocketIo.EIO
  {
    var i := 0;
    while i < |reg|
      invariant 0 <= i < |reg|
      invariant forall j | 0 <= j < i :: reg[j].domain != domain
      decreases |reg| - i
    {
      if reg[i].domain == domain {
        return -SocketIo.EEXIST, reg;
      }
      if i == |reg| - 1 {
        if !allocOk {
          return -SocketIo.ENOMEM, reg;
        }
        return 0, reg + [DomainIds(domain, num)];
      }
      i := i + 1;
    }
    assert false;
    return -SocketIo.EIO, reg;
  }

  /** Registration keeps the domains distinct. */
  lemma RegisterKeepsDistinct(reg: seq<DomainIds>, domain: Byte, num: Byte, allocOk: bool)
    requires DistinctDomains(reg)
    ensures DistinctDomains(Register(reg, domain, num, allocOk).reg)
  {
  }

  /** Registering a domain a second time is refused and changes nothing. */
  lemma RegisterTwice(reg: seq<DomainIds>, domain: Byte, num: Byte, num2: Byte, alloc2: bool)
    requires Register(reg, domain, num, true).rc == 0
    ensures var once := Register(reg, domain, num, true).reg;
      Register(once, domain, num2, alloc2) == Registered(-SocketIo.EEXIST, once)
  {
    var once := Register(reg, domain, num, true).reg;
    assert once[|reg|].domain == domain;
  }

  // ---------------------------------------------------------------------
  // Factory reset.

  /** `nvs_delete`: a key whose deletion fails (`fails`) stays, any other goes. */
  function Delete(store: Store, k: Key, fails: set<Key>): Store {
    if k in fails then store else store - {k}
  }

  /**
   One registered domain's pass of `ob_nvs_data_factory_reset`, from id
   `i`: each id below `num` is deleted in turn. For domain 0 each id is
   first read, and the pass stops at the first whose read fails: the
   record is missing, or reading it faults (`readFails`). A failed
   deletion does not stop the pass.
   */
  function ResetDomain(mode: Mode, store: Store, r: DomainIds, i: nat, readFails: set<Key>, fails: set<Key>): Store
    decreases 0x100 - i
  {
    if i >= r.num as nat then store
    else if r.domain == 0 && !Readable(mode, store, readFails, i) then store
    else ResetDomain(mode, Delete(store, Pack(mode, r.domain, i), fails), r, i + 1, readFails, fails)
  }

  /** `ob_nvs_data_factory_reset`: the pass of each registered domain, from the head. */
  function Reset(mode: Mode, reg: seq<DomainIds>, store: Store, readFails: set<Key>, fails: set<Key>): Store
    decreases |reg|
  {
    if |reg| == 0 then store
    else Reset(mode, reg[1..], ResetDomain(mode, store, reg[0], 0, readFails, fails), readFails, fails)
  }

  // The reference: which keys the reset erases, judged on the store before it.

  /**
   Whether `ob_nvs_data_read(0, i, …)` succeeds: the record is there and
   reading it does not fault.
   */
  predicate Readable(mode: Mode, store: Store, readFails: set<Key>, i: nat)
    requires i < 0x100
  {
    Pack(mode, 0, i) in store && Pack(mode, 0, i) !in readFails
  }

  /** For domain 0, the first id from `i` below `num` whose read fails (`num` when none does). */
  function Probe(mode: Mode, store: Store, readFails: set<Key>, num: Byte, i: nat): (p: nat)
    ensures i <= num as nat ==> i <= p <= num as nat
    ensures forall j | i <= j < p && j < 0x100 :: Pack(mode, 0, j) in store && Pack(mode, 0, j) !in readFails
    ensures p < num as nat ==> Pack(mode, 0, p) !in store || Pack(mode, 0, p) in readFails
    decreases 0x100 - i
  {
    if i >= num as nat then num as nat
    else if !Readable(mode, store, readFails, i) then i
    else Probe(mode, store, readFails, num, i + 1)
  }

  /** The keys of `domain` with ids in `lo .. hi - 1`. */
  function Span(mode: Mode, domain: Byte, lo: nat, hi: nat): set<Key> {
    set j: Byte | lo <= j < hi :: Pack(mode, domain, j)
  }

  /** The end of the ids a registered domain's pass from `i` covers. */
  function Reach(mode: Mode, store: Store, readFails: set<Key>, r: DomainIds, i: nat): nat {
    if r.domain == 0 then Probe(mode, store, readFails, r.num, i) else r.num as nat
  }

  function Erased(mode: Mode, reg: seq<DomainIds>, store: Store, readFails: set<Key>): set<Key>
    decreases |reg|
  {
    if |reg| == 0 then {} else Span(mode, reg[0].domain, 0, Reach(mode, store, readFails, reg[0], 0)) + Erased(mode, reg[1..], store, readFails)
  }

  /** `store` without the keys of `gone`. */
  function Remove(store: Store, gone: set<Key>): (r: Store)
    ensures forall k :: k in r <==> k in store && k !in gone
  {
    map k | k in store && k !in gone :: store[k]
  }

  /** Two stores that agree on which domain-0 ids from `lo` have records. */
  predicate ZeroAgree(mode: Mode, s1: Store, s2: Store, lo: nat) {
    forall j: Byte | lo <= j :: Pack(mode, 0, j) in s1 <==> Pack(mode, 0, j) in s2
  }

  lemma {:induction false} ProbeAgree(mode: Mode, s1: Store, s2: Store, readFails: set<Key>, num: Byte, i: nat)
    requires ZeroAgree(mode, s1, s2, i)
    ensures Probe(mode, s1, readFails, num, i) == Probe(mode, s2, readFails, num, i)
    decreases 0x100 - i
  {
    if i < num as nat {
      ProbeAgree(mode, s1, s2, readFails, num, i + 1);
    }
  }

  lemma SpanStep(mode: Mode, domain: Byte, i: nat, hi: nat)
    requires i < hi && i < 0x100
    ensures Span(mode, domain, i, hi) == {Pack(mode, domain, i)} + Span(mode, domain, i + 1, hi)
  {
    var a := Span(mode, domain, i, hi);
    var b := {Pack(mode, domain, i)} + Span(mode, domain, i + 1, hi);
    forall k | k in a ensures k in b {
      var j: Byte :| i <= j < hi && k == Pack(mode, domain, j);
    }
    forall k | k in b ensures k in a {
      if k != Pack(mode, domain, i) {
        var j: Byte :| i + 1 <= j < hi && k == Pack(mode, domain, j);
      }
    }
  }

  lemma RemoveDelete(store: Store, k: Key, rest: set<Key>, fails: set<Key>)
    ensures Remove(Delete(store, k, fails), rest - fails) == Remove(store, ({k} + rest) - fails)
  {
  }

  /** Deleting the domain-0 id the pass has just read leaves the rest of the probe as it was. */
  lemma ProbeAfterDelete(mode: Mode, store: Store, readFails: set<Key>, num: Byte, i: nat, fails: set<Key>)
    requires i < num as nat && Readable(mode, store, readFails, i)
    ensures Probe(mode, Delete(store, Pack(mode, 0, i), fails), readFails, num, i + 1) == Probe(mode, store, readFails, num, i)
  {
    var store' := Delete(store, Pack(mode, 0, i), fails);
    forall j: Byte | i + 1 <= j ensures Pack(mode, 0, j) in store' <==> Pack(mode, 0, j) in store {
      PackInjective(mode, 0, i, 0, j);
    }
    ProbeAgree(mode, store', store, readFails, num, i + 1);
  }

  /** One domain's pass erases exactly the ids it covers, less the failed deletions. */
  lemma {:induction false} ResetDomainErases(mode: Mode, store: Store, r: DomainIds, i: nat, readFails: set<Key>, fails: set<Key>)
    requires i <= r.num as nat
    ensures ResetDomain(mode, store, r, i, readFails, fails) == Remove(store, Span(mode, r.domain, i, Reach(mode, store, readFails, r, i)) - fails)
    decreases 0x100 - i
  {
    if i >= r.num as nat || (r.domain == 0 && !Readable(mode, store, readFails, i)) {
      ResetDomainStops(mode, store, r, i, readFails, fails);
    } else {
      var store' := Delete(store, Pack(mode, r.domain, i), fails);
      ResetDomainErases(mode, store', r, i + 1, readFails, fails);
      ResetDomainStep(mode, store, r, i, readFails, fails);
    }
  }

  lemma ResetDomainStops(mode: Mode, store: Store, r: DomainIds, i: nat, readFails: set<Key>, fails: set<Key>)
    requires i <= r.num as nat
    requires i >= r.num as nat || (r.domain == 0 && !Readable(mode, store, readFails, i))
    ensures ResetDomain(mode, store, r, i, readFails, fails) == Remove(store, Span(mode, r.domain, i, Reach(mode, store, readFails, r, i)) - fails)
  {
    assert Span(mode, r.domain, i, Reach(mode, store, readFails, r, i)) == {};
    assert Remove(store, {}) == store;
  }

  /** A step of the pass: deleting id `i` and continuing from `i + 1`. */
  lemma ResetDomainStep(mode: Mode, store: Store, r: DomainIds, i: nat, readFails: set<Key>, fails: set<Key>)
    requires i < r.num as nat && (r.domain != 0 || Readable(mode, store, readFails, i))
    requires var store' := Delete(store, Pack(mode, r.domain, i), fails);
      ResetDomain(mode, store', r, i + 1, readFails, fails) == Remove(store', Span(mode, r.domain, i + 1, Reach(mode, store', readFails, r, i + 1)) - fails)
    ensures ResetDomain(mode, store, r, i, readFails, fails) == Remove(store, Span(mode, r.domain, i, Reach(mode, store, readFails, r, i)) - fails)
  {
    var k := Pack(mode, r.domain, i);
    var store' := Delete(store, k, fails);
    var hi := Reach(mode, store, readFails, r, i);
    ReachStep(mode, store, readFails, r, i, fails);
    RemoveSpanStep(mode, store, r.domain, i, hi, fails);
    assert ResetDomain(mode, store, r, i, readFails, fails) == ResetDomain(mode, store', r, i + 1, readFails, fails);
  }

  /** Deleting the id the pass is on leaves where it ends unchanged, and that end lies beyond it. */
  lemma ReachStep(mode: Mode, store: Store, readFails: set<Key>, r: DomainIds, i: nat, fails: set<Key>)
    requires i < r.num as nat && (r.domain != 0 || Readable(mode, store, readFails, i))
    ensures Reach(mode, Delete(store, Pack(mode, r.domain, i), fails), readFails, r, i + 1) == Reach(mode, store, readFails, r, i)
    ensures i < Reach(mode, store, readFails, r, i)
  {
    if r.domain == 0 {
      ProbeAfterDelete(mode, store, readFails, r.num, i, fails);
    }
  }

  lemma RemoveSpanStep(mode: Mode, store: Store, domain: Byte, i: nat, hi: nat, fails: set<Key>)
    requires i < hi && i < 0x100
    ensures Remove(Delete(store, Pack(mode, domain, i), fails), Span(mode, domain, i + 1, hi) - fails)
         == Remove(store, Span(mode, domain, i, hi) - fails)
  {
    SpanStep(mode, domain, i, hi);
    RemoveDelete(store, Pack(mode, domain, i), Span(mode, domain, i + 1, hi), fails);
  }

  predicate HasZero(reg: seq<DomainIds>) {
    exists j | 0 <= j < |reg| :: reg[j].domain == 0
  }

  lemma {:induction false} ErasedAgree(mode: Mode, reg: seq<DomainIds>, s1: Store, s2: Store, readFails: set<Key>)
    requires HasZero(reg) ==> ZeroAgree(mode, s1, s2, 0)
    ensures Erased(mode, reg, s1, readFails) == Erased(mode, reg, s2, readFails)
    decreases |reg|
  {
    if |reg| > 0 {
      if reg[0].domain == 0 {
        ProbeAgree(mode, s1, s2, readFails, reg[0].num, 0);
      }
      assert HasZero(reg[1..]) ==> HasZero(reg) by {
        if HasZero(reg[1..]) {
          var j :| 0 <= j < |reg[1..]| && reg[1..][j].domain == 0;
          assert reg[j + 1].domain == 0;
        }
      }
      ErasedAgree(mode, reg[1..], s1, s2, readFails);
    }
  }

  /**
   The factory reset erases exactly the ids of the registered domains —
   all `num` of each domain but 0, and for domain 0 those before the first
   record that is missing or whose read faults — less the deletions that
   fail; every other record, and every value, stays.
   */
  lemma {:induction false} ResetErases(mode: Mode, reg: seq<DomainIds>, store: Store, readFails: set<Key>, fails: set<Key>)
    requires DistinctDomains(reg)
    ensures Reset(mode, reg, store, readFails, fails) == Remove(store, Erased(mode, reg, store, readFails) - fails)
    decreases |reg|
  {
    if |reg| == 0 {
      assert Remove(store, {}) == store;
    } else {
      var r := reg[0];
      var a := Span(mode, r.domain, 0, Reach(mode, store, readFails, r, 0));
      var store1 := ResetDomain(mode, store, r, 0, readFails, fails);
      ResetDomainErases(mode, store, r, 0, readFails, fails);
      ResetErases(mode, reg[1..], store1, readFails, fails);
      if HasZero(reg[1..]) {
        var j :| 0 <= j < |reg[1..]| && reg[1..][j].domain == 0;
        assert reg[j + 1].domain == 0;
        OtherDomainKeepsZero(mode, store, r, readFails, fails);
      }
      ErasedAgree(mode, reg[1..], store1, store, readFails);
      RemoveTwice(store, a, Erased(mode, reg[1..], store, readFails), fails);
    }
  }

  /** The pass of a domain other than 0 leaves every domain-0 record where it was. */
  lemma OtherDomainKeepsZero(mode: Mode, store: Store, r: DomainIds, readFails: set<Key>, fails: set<Key>)
    requires r.domain != 0
    ensures ZeroAgree(mode, ResetDomain(mode, store, r, 0, readFails, fails), store, 0)
  {
    ResetDomainErases(mode, store, r, 0, readFails, fails);
  }

  lemma RemoveTwice(store: Store, a: set<Key>, b: set<Key>, fails: set<Key>)
    ensures Remove(Remove(store, a - fails), b - fails) == Remove(store, (a + b) - fails)
  {
  }

  /** A record of a domain that is not registered survives the factory reset, unlike what the header promises. */
  lemma ResetKeepsUnregistered(mode: Mode, reg: seq<DomainIds>, store: Store, readFails: set<Key>, fails: set<Key>, domain: Byte, id: Byte)
    requires DistinctDomains(reg) && !Registers(reg, domain) && Pack(mode, domain, id) in store
    ensures var after := Reset(mode, reg, store, readFails, fails);
      Pack(mode, domain, id) in after && after[Pack(mode, domain, id)] == store[Pack(mode, domain, id)]
  {
    ResetErases(mode, reg, store, readFails, fails);
    if Pack(mode, domain, id) in Erased(mode, reg, store, readFails) {
      ErasedDomains(mode, reg, store, readFails, domain, id);
    }
  }

  lemma {:induction false} ErasedDomains(mode: Mode, reg: seq<DomainIds>, store: Store, readFails: set<Key>, domain: Byte, id: Byte)
    requires Pack(mode, domain, id) in Erased(mode, reg, store, readFails)
    ensures Registers(reg, domain)
    decreases |reg|
  {
    var k := Pack(mode, domain, id);
    if k in Span(mode, reg[0].domain, 0, Reach(mode, store, readFails, reg[0], 0)) {
      var q: Byte :| 0 <= q < Reach(mode, store, readFails, reg[0], 0) && k == Pack(mode, reg[0].domain, q);
      PackInjective(mode, domain, id, reg[0].domain, q);
    } else {
      assert k in Erased(mode, reg[1..], store, readFails);
      ErasedDomains(mode, reg[1..], store, readFails, domain, id);
      var j :| 0 <= j < |reg[1..]| && reg[1..][j].domain == domain;
      assert reg[j + 1].domain == domain;
    }
  }

  /** Every id below `num` of a registered domain other than 0 is among the erased keys. */
  lemma {:induction false} RegisteredIdsErased(mode: Mode, reg: seq<DomainIds>, store: Store, readFails: set<Key>, j: nat, id: Byte)
    requires j < |reg| && reg[j].domain != 0 && id < reg[j].num
    ensures Pack(mode, reg[j].domain, id) in Erased(mode, reg, store, readFails)
    decreases j
  {
    if j == 0 {
      assert Pack(mode, reg[0].domain, id) in Span(mode, reg[0].domain, 0, Reach(mode, store, readFails, reg[0], 0));
    } else {
      RegisteredIdsErased(mode, reg[1..], store, readFails, j - 1, id);
    }
  }

  /**
   As written, the domain-0 pass reads (0, i), which on the little-endian
   overlay is the id `0x100 * i`: records some other code wrote at the
   consecutive ids 0 and 1 lose only id 0, because id `0x100` is missing.
   */
  lemma AsWrittenResetMissesExternalIds(a: seq<Byte>, b: seq<Byte>)
    ensures var store: Store := map[0 := a, 1 := b];
      Reset(AsWritten, [HEAD], store, {}, {}) == map[1 := b]
  {
    var store: Store := map[0 := a, 1 := b];
    assert Pack(AsWritten, 0, 0) == 0 && Pack(AsWritten, 0, 1) == 0x100;
    var s1 := Delete(store, 0, {});
    assert s1 == map[1 := b];
    assert ResetDomain(AsWritten, store, HEAD, 0, {}, {}) == ResetDomain(AsWritten, s1, HEAD, 1, {}, {});
    assert ResetDomain(AsWritten, s1, HEAD, 1, {}, {}) == s1;
    assert Reset(AsWritten, [HEAD], store, {}, {}) == Reset(AsWritten, [], s1, {}, {});
  }

  /**
   Corrected, with `domain << 8 | id`, records at the consecutive ids
   0 .. n - 1 are all erased, whatever else the registry holds, up to
   the first whose read faults.
   */
  lemma CorrectedResetErasesExternalIds(reg: seq<DomainIds>, store: Store, readFails: set<Key>, fails: set<Key>, n: nat)
    requires DistinctDomains(reg) && |reg| > 0 && reg[0] == HEAD && n <= 0xff
    requires forall j: Key | j < n :: j in store
    ensures forall j: Key | j < n && j !in fails && (forall q: Key | q <= j :: q !in readFails) ::
      j !in Reset(Corrected, reg, store, readFails, fails)
  {
    ResetErases(Corrected, reg, store, readFails, fails);
    var p := Probe(Corrected, store, readFails, 0xff, 0);
    forall j: Key | j < n && j !in fails && (forall q: Key | q <= j :: q !in readFails)
      ensures j in Erased(Corrected, reg, store, readFails)
    {
      assert j == Pack(Corrected, 0, j);
      assert j in Span(Corrected, 0, 0, p);
    }
  }

  /** A domain-0 key the reset erases was preceded only by ids whose read succeeded. */
  lemma {:induction false} ErasedZeroReadable(mode: Mode, reg: seq<DomainIds>, store: Store, readFails: set<Key>, id: Byte, q: Byte)
    requires Pack(mode, 0, id) in Erased(mode, reg, store, readFails) && q <= id
    ensures Pack(mode, 0, q) !in readFails
    decreases |reg|
  {
    var k := Pack(mode, 0, id);
    if k in Span(mode, reg[0].domain, 0, Reach(mode, store, readFails, reg[0], 0)) {
      var j: Byte :| 0 <= j < Reach(mode, store, readFails, reg[0], 0) && k == Pack(mode, reg[0].domain, j);
      PackInjective(mode, 0, id, reg[0].domain, j);
    } else {
      assert k in Erased(mode, reg[1..], store, readFails);
      ErasedZeroReadable(mode, reg[1..], store, readFails, id, q);
    }
  }

  /**
   A read fault at domain-0 id `i` ends that domain's pass there: every
   domain-0 record from `i` on survives the factory reset unchanged.
   */
  lemma ReadFaultKeepsLaterIds(mode: Mode, reg: seq<DomainIds>, store: Store, readFails: set<Key>, fails: set<Key>, i: Byte, id: Byte)
    requires DistinctDomains(reg) && Pack(mode, 0, i) in readFails && i <= id && Pack(mode, 0, id) in store
    ensures var after := Reset(mode, reg, store, readFails, fails);
      Pack(mode, 0, id) in after && after[Pack(mode, 0, id)] == store[Pack(mode, 0, id)]
  {
    ResetErases(mode, reg, store, readFails, fails);
    if Pack(mode, 0, id) in Erased(mode, reg, store, readFails) {
      ErasedZeroReadable(mode, reg, store, readFails, id, i);
    }
  }
}

=== FILE: page_registry.dfy ===
/**
 The web server's page registry: a list of pages, newest first, each with
 a path, a title, flag bits and GET/POST callbacks. Callbacks are named
 rather than called; the dispatcher decides which one runs and the caller
 supplies its result.
 */
module WebPages {
  import opened CText

  const MAX_WEB_PATH_NAME_LEN: nat := 32
  const MAX_WEB_TITLE_LEN: nat := 32

  const PAGE_IS_HOME_PAGE: bv32 := 0x01
  const PAGE_IS_CAPTIVE_PORTAL: bv32 := 0x02

  /** The callbacks the firmware registers; other components' pages are `External`. */
  datatype Handler = WifiSetupGet | WifiSetupPost | External(id: nat)

  /**
   A `web_page_t`. `path` and `title` are the C strings the server reads
   from the `pathname` and `title` arrays (see `Register`).
   */
  datatype Page = Page(
    path: seq<char>,
    title: seq<char>,
    flags: bv32,
    contentLength: int,
    getCallback: Option<Handler>,
    postCallback: Option<Handler>)

  /** `wp->flags & flag`. */
  predicate HasFlag(p: Page, flag: bv32) {
    p.flags & flag != 0
  }

  /** The path comparison used when registering: `strncmp(a, b, MAX_WEB_PATH_NAME_LEN) == 0`. */
  predicate SamePath(a: seq<char>, b: seq<char>) {
    StrNCmpEq(a, b, MAX_WEB_PATH_NAME_LEN)
  }

  /** Index of the first page (from the head) that satisfies `p`, if any. */
  function FirstWhere(pages: seq<Page>, p: Page -> bool): (r: Option<nat>)
    ensures r.Some? ==> r.value < |pages| && p(pages[r.value])
    ensures r.Some? ==> forall j | 0 <= j < r.value :: !p(pages[j])
    ensures r.None? <==> forall j | 0 <= j < |pages| :: !p(pages[j])
    decreases |pages|
  {
    if |pages| == 0 then None
    else if p(pages[0]) then Some(0)
    else match FirstWhere(pages[1..], p)
      case None => None
      case Some(k) => Some(k + 1)
  }

  /** No two pages share a path under the registration comparison. */
  predicate DistinctPaths(pages: seq<Page>) {
    forall i, j | 0 <= i < j < |pages| :: !SamePath(pages[i].path, pages[j].path)
  }

  datatype Registered = Registered(rc: int, pages: seq<Page>)

  /**
   The four bytes of an `int` field as they lie in memory, least
   significant first, read as characters.
   */
  function IntBytes(v: bv32): (r: seq<char>)
    ensures |r| == 4
  {
    var n := v as int;
    [(n % 256) as char, (n / 256 % 256) as char, (n / 65536 % 256) as char, (n / 16777216) as char]
  }

  /**
   The string C reads from an `n`-byte array filled by
   `strncpy(array, src, n)`. A copy shorter than the array keeps its NUL
   inside; a full one has none, and the read runs on into `next`, the
   string that starts right after the array.
   */
  function ArrayRead(src: seq<char>, n: nat, next: seq<char>): (r: seq<char>)
    ensures NulFree(next) ==> NulFree(r)
    ensures Take(r, n) == Take(CStr(src), n)
    ensures |CStr(src)| < n ==> r == CStr(src)
    ensures |CStr(src)| >= n ==> r == CStr(src)[..n] + next
  {
    var copy := StrNCpy(src, n);
    if |copy| < n then copy else copy + next
  }

  /** A path and title that leave room for their NULs in `pathname[32]` and `title[32]`. */
  predicate Fits(path: seq<char>, title: seq<char>) {
    |CStr(path)| < MAX_WEB_PATH_NAME_LEN && |CStr(title)| < MAX_WEB_TITLE_LEN
  }

  /**
   A freshly allocated page. `title` is followed in memory by `flags` and
   then by `content_length`, which is 0 here, so a read past the title
   stops within the flag bytes or at the first byte of `content_length`.
   */
  function NewPage(path: seq<char>, title: seq<char>, getCallback: Option<Handler>,
                   postCallback: Option<Handler>, flags: bv32): Page
  {
    var titleRead := ArrayRead(title, MAX_WEB_TITLE_LEN, CStr(IntBytes(flags)));
    Page(ArrayRead(path, MAX_WEB_PATH_NAME_LEN, titleRead), titleRead, flags, 0, getCallback, postCallback)
  }

  /**
   `ob_ws_register_web_page`: a path already registered is a successful
   no-op; otherwise a new page with `strncpy` copies of the path and title,
   the flags, a zero content length and both callbacks is put at the head
   of the list. `allocOk` is the outcome of `malloc`. A page's `path` and
   `title` are the strings the server later reads from its arrays: as
   written, a path or title of 32 characters or more fills its array with
   no NUL, and the read runs on into the field after it. Corrected, such
   a path or title is refused with -1.
   */
  function Register(mode: Mode, pages: seq<Page>, path: seq<char>, title: seq<char>,
                    getCallback: Option<Handler>, postCallback: Option<Handler>,
                    flags: bv32, allocOk: bool): (r: Registered)
    ensures (exists j | 0 <= j < |pages| :: SamePath(path, pages[j].path)) ==> r == Registered(0, pages)
    ensures (forall j | 0 <= j < |pages| :: !SamePath(path, pages[j].path)) && !allocOk ==> r == Registered(-1, pages)
    ensures (forall j | 0 <= j < |pages| :: !SamePath(path, pages[j].path)) && mode == Corrected && !Fits(path, title) ==>
      r == Registered(-1, pages)
    ensures (forall j | 0 <= j < |pages| :: !SamePath(path, pages[j].path)) && allocOk && (mode == AsWritten || Fits(path, title)) ==>
      && r.rc == 0 && |r.pages| == |pages| + 1 && r.pages[1..] == pages
      && r.pages[0].flags == flags && r.pages[0].contentLength == 0
      && r.pages[0].getCallback == getCallback && r.pages[0].postCallback == postCallback
      && NulFree(r.pages[0].path) && NulFree(r.pages[0].title)
      && Take(r.pages[0].path, MAX_WEB_PATH_NAME_LEN) == Take(CStr(path), MAX_WEB_PATH_NAME_LEN)
      && Take(r.pages[0].title, MAX_WEB_TITLE_LEN) == Take(CStr(title), MAX_WEB_TITLE_LEN)
      && (|CStr(path)| < MAX_WEB_PATH_NAME_LEN ==> r.pages[0].path == CStr(path))
      && (|CStr(title)| < MAX_WEB_TITLE_LEN ==> r.pages[0].title == CStr(title))
      && (|CStr(path)| >= MAX_WEB_PATH_NAME_LEN ==>
            r.pages[0].path == CStr(path)[..MAX_WEB_PATH_NAME_LEN] + r.pages[0].title)
      && (|CStr(title)| >= MAX_WEB_TITLE_LEN ==>
            r.pages[0].title == CStr(title)[..MAX_WEB_TITLE_LEN] + CStr(IntBytes(flags)))
  {
    match FirstWhere(pages, (q: Page) => SamePath(path, q.path))
    case Some(_) => Registered(0, pages)
    case None =>
      if !allocOk || (mode == Corrected && !Fits(path, title)) then Registered(-1, pages)
      else Registered(0, [NewPage(path, title, getCallback, postCallback, flags)] + pages)
  }

  /**
   A path read from a page compares under `strncmp(.., 32)` exactly as
   the path it was registered from: only the array's 32 characters take
   part.
   */
  lemma SamePathStored(path: seq<char>, stored: seq<char>, other: seq<char>)
    requires NulFree(stored) && Take(stored, MAX_WEB_PATH_NAME_LEN) == Take(CStr(path), MAX_WEB_PATH_NAME_LEN)
    ensures SamePath(stored, other) <==> SamePath(path, other)
  {
    StrNCmpEqMeaning(stored, other, MAX_WEB_PATH_NAME_LEN);
    StrNCmpEqMeaning(path, other, MAX_WEB_PATH_NAME_LEN);
    CStrOfNulFree(stored);
  }

  lemma SamePathSymmetric(a: seq<char>, b: seq<char>)
    ensures SamePath(a, b) <==> SamePath(b, a)
  {
    StrNCmpEqMeaning(a, b, MAX_WEB_PATH_NAME_LEN);
    StrNCmpEqMeaning(b, a, MAX_WEB_PATH_NAME_LEN);
  }

  /** Registration keeps the paths distinct, whatever the caller passes. */
  lemma RegisterKeepsDistinct(mode: Mode, pages: seq<Page>, path: seq<char>, title: seq<char>,
                              getCallback: Option<Handler>, postCallback: Option<Handler>,
                              flags: bv32, allocOk: bool)
    requires DistinctPaths(pages)
    ensures DistinctPaths(Register(mode, pages, path, title, getCallback, postCallback, flags, allocOk).pages)
  {
    var r := Register(mode, pages, path, title, getCallback, postCallback, flags, allocOk);
    if r.pages != pages {
      forall j | 0 < j < |r.pages|
        ensures !SamePath(r.pages[0].path, r.pages[j].path)
      {
        SamePathStored(path, r.pages[0].path, r.pages[j].path);
        assert r.pages[j] == pages[j - 1];
      }
    }
  }

  /** Registering the same path again changes nothing and succeeds. */
  lemma RegisterIdempotent(mode: Mode, pages: seq<Page>, path: seq<char>, title: seq<char>,
                           getCallback: Option<Handler>, postCallback: Option<Handler>,
                           flags: bv32, title2: seq<char>, get2: Option<Handler>,
                           post2: Option<Handler>, flags2: bv32, alloc2: bool)
    requires Register(mode, pages, path, title, getCallback, postCallback, flags, true).rc == 0
    ensures var once := Register(mode, pages, path, title, getCallback, postCallback, flags, true).pages;
      Register(mode, once, path, title2, get2, post2, flags2, alloc2) == Registered(0, once)
  {
    var once := Register(mode, pages, path, title, getCallback, postCallback, flags, true).pages;
    if once != pages {
      SamePathStored(path, once[0].path, path);
      SamePathSymmetric(path, once[0].path);
      StrNCmpEqMeaning(path, path, MAX_WEB_PATH_NAME_LEN);
      assert SamePath(path, once[0].path);
    }
  }

  /**
   As written, a path of exactly 32 characters fills `pathname` with no
   NUL: it is read back followed by its title, so its menu link carries
   the title and a GET of the path itself finds no page.
   */
  lemma AsWrittenUnterminatedPath(path: seq<char>, title: seq<char>, flags: bv32)
    requires NulFree(path) && |path| == MAX_WEB_PATH_NAME_LEN
    requires NulFree(title) && 0 < |title| < MAX_WEB_TITLE_LEN
    ensures var r := Register(AsWritten, [], path, title, Some(External(0)), None, flags, true);
      && r.rc == 0 && r.pages[0].path == path + title
      && HandlerPage(r.pages, path) == None
  {
    CStrOfNulFree(path);
    CStrOfNulFree(title);
    var r := Register(AsWritten, [], path, title, Some(External(0)), None, flags, true);
    PathMatchesMeaning(r.pages[0], path);
    assert !(r.pages[0].path <= path);
  }

  /**
   As written, a title of exactly 32 characters fills `title` with no NUL:
   on a home page it is read back followed by the flag byte 0x01.
   */
  lemma AsWrittenUnterminatedTitle(path: seq<char>, title: seq<char>)
    requires NulFree(path) && |path| < MAX_WEB_PATH_NAME_LEN
    requires NulFree(title) && |title| == MAX_WEB_TITLE_LEN
    ensures var r := Register(AsWritten, [], path, title, Some(External(0)), None, PAGE_IS_HOME_PAGE, true);
      && r.rc == 0 && r.pages[0].title == title + [1 as char]
  {
    CStrOfNulFree(path);
    CStrOfNulFree(title);
    assert IntBytes(PAGE_IS_HOME_PAGE) == [1 as char, NUL, NUL, NUL];
    assert CStr(IntBytes(PAGE_IS_HOME_PAGE)) == [1 as char] by {
      assert IntBytes(PAGE_IS_HOME_PAGE)[1..] == [NUL, NUL, NUL];
    }
  }

  /**
   Corrected, registering a new path succeeds exactly when the path and
   title fit their arrays with their NULs, and the page is then read back
   with exactly that path and title, so a request for the path reaches it.
   */
  lemma CorrectedRegisterKeepsNames(pages: seq<Page>, path: seq<char>, title: seq<char>,
                                    getCallback: Option<Handler>, postCallback: Option<Handler>, flags: bv32)
    requires forall j | 0 <= j < |pages| :: !SamePath(path, pages[j].path)
    ensures var r := Register(Corrected, pages, path, title, getCallback, postCallback, flags, true);
      && (r.rc == 0 <==> Fits(path, title))
      && (r.rc == 0 ==>
            && r.pages[0].path == CStr(path) && r.pages[0].title == CStr(title)
            && |r.pages[0].path| < MAX_WEB_PATH_NAME_LEN && |r.pages[0].title| < MAX_WEB_TITLE_LEN
            && PathMatches(r.pages[0], path))
  {
    var r := Register(Corrected, pages, path, title, getCallback, postCallback, flags, true);
    if r.rc == 0 {
      PathMatchesMeaning(r.pages[0], path);
    }
  }

  // ---------------------------------------------------------------------
  // Look-ups made by the dispatcher and by the home-page display.

  /** The page `/` resolves to: the captive portal page in access-point mode, the home page otherwise. */
  function RootPage(pages: seq<Page>, hasAp: bool): (r: Option<nat>)
    ensures r.Some? ==> r.value < |pages| && HasFlag(pages[r.value], if hasAp then PAGE_IS_CAPTIVE_PORTAL else PAGE_IS_HOME_PAGE)
    ensures r.Some? ==> forall j | 0 <= j < r.value :: !HasFlag(pages[j], if hasAp then PAGE_IS_CAPTIVE_PORTAL else PAGE_IS_HOME_PAGE)
    ensures r.None? ==> forall j | 0 <= j < |pages| :: !HasFlag(pages[j], if hasAp then PAGE_IS_CAPTIVE_PORTAL else PAGE_IS_HOME_PAGE)
  {
    var flag := if hasAp then PAGE_IS_CAPTIVE_PORTAL else PAGE_IS_HOME_PAGE;
    FirstWhere(pages, (p: Page) => HasFlag(p, flag))
  }

  /**
   `strncmp(wp->pathname, filename, strlen(wp->pathname)) == 0`: the
   page's path is a prefix of the requested target.
   */
  predicate PathMatches(p: Page, target: seq<char>) {
    StrNCmpEq(p.path, target, |CStr(p.path)|)
  }

  /** For a stored path, the match is a prefix test on the target's C string. */
  lemma PathMatchesMeaning(p: Page, target: seq<char>)
    requires NulFree(p.path)
    ensures PathMatches(p, target) <==> p.path <= CStr(target)
  {
    CStrOfNulFree(p.path);
    PrefixMatch(p.path, target);
  }

  /**
   The page a GET or POST of `target` runs: the first whose path is a
   prefix of the target and that has a GET callback (a POST also requires
   a GET callback, and then runs the POST callback).
   */
  function HandlerPage(pages: seq<Page>, target: seq<char>): (r: Option<nat>)
    ensures r.Some? ==> r.value < |pages| && PathMatches(pages[r.value], target) && pages[r.value].getCallback.Some?
    ensures r.Some? ==> forall j | 0 <= j < r.value :: !PathMatches(pages[j], target) || pages[j].getCallback.None?
    ensures r.None? ==> forall j | 0 <= j < |pages| :: !PathMatches(pages[j], target) || pages[j].getCallback.None?
  {
    FirstWhere(pages, (p: Page) => PathMatches(p, target) && p.getCallback.Some?)
  }

  /** The page `ob_web_server_display_home` shows: the first home page that has a GET callback. */
  function HomePage(pages: seq<Page>): (r: Option<nat>)
    ensures r.Some? ==> r.value < |pages| && HasFlag(pages[r.value], PAGE_IS_HOME_PAGE) && pages[r.value].getCallback.Some?
    ensures r.None? <==> forall j | 0 <= j < |pages| :: !HasFlag(pages[j], PAGE_IS_HOME_PAGE) || pages[j].getCallback.None?
  {
    FirstWhere(pages, (p: Page) => HasFlag(p, PAGE_IS_HOME_PAGE) && p.getCallback.Some?)
  }

  datatype HomeOutcome = HomeOutcome(called: Option<nat>, sent404: bool, rc: int)

  /**
   `ob_web_server_display_home`: run the home page's GET callback and
   return its result, or send 404 and return -1 when there is none.
   */
  function DisplayHome(pages: seq<Page>, callbackRc: int): (r: HomeOutcome)
    ensures r.sent404 <==> r.called.None?
    ensures r.called.Some? ==> r.rc == callbackRc && r.called == HomePage(pages)
    ensures r.called.None? ==> r.rc == -1 && forall j | 0 <= j < |pages| :: !HasFlag(pages[j], PAGE_IS_HOME_PAGE) || pages[j].getCallback.None?
  {
    match HomePage(pages)
    case Some(k) => HomeOutcome(Some(k), false, callbackRc)
    case None => HomeOutcome(None, true, -1)
  }
}

=== FILE: post_extractor.dfy ===
/**
 `ob_ws_process_post`: read the body of a POST, `name=value` fields ended
 by CR or LF (the text/plain form encoding of section 4.10.21 of the
 WHATWG HTML Living Standard), and copy each value into the buffer of the
 attribute with that name.

 The C function keeps `index` and `value_start`; while a value is read
 `index - value_start` is the offset of the next value character, which
 the model keeps as `voff`.
 */
module PostForm {
  import opened CText
  import opened SocketIo

  const NAME_BUFFER_SIZE: nat := 32
  const VALUE_BUFFER_SIZE: nat := 65

  /** A `post_attributes_t`: the attribute's name and its value buffer (NUL-padded). */
  datatype Attr = Attr(name: seq<char>, value: seq<char>)

  datatype Extraction = Extraction(
    doName: bool,         // reading a name (true) or a value
    index: nat,           // characters stored in `name`
    name: seq<char>,      // the `name` buffer
    target: nat,          // the attribute whose buffer receives the value
    voff: nat,            // offset of the next value character
    attrs: seq<Attr>,
    overrun: bool)        // some write fell outside `name` or a value buffer

  /** While a value is read, `target` names an attribute. */
  type State = s: Extraction | s.doName || s.target < |s.attrs|
    witness Extraction(true, 0, [], 0, 0, [], false)

  function Start(attrs: seq<Attr>): State {
    Extraction(true, 0, [], 0, 0, attrs, false)
  }

  predicate IsEol(c: char) {
    c == '\r' || c == '\n'
  }

  /** Index of the first attribute whose name `strncmp(name, .., 32)` accepts. */
  function FindAttr(attrs: seq<Attr>, name: seq<char>): (r: Option<nat>)
    ensures r.Some? ==> r.value < |attrs| && StrNCmpEq(name, attrs[r.value].name, NAME_BUFFER_SIZE)
    ensures r.Some? ==> forall j | 0 <= j < r.value :: !StrNCmpEq(name, attrs[j].name, NAME_BUFFER_SIZE)
    ensures r.None? <==> forall j | 0 <= j < |attrs| :: !StrNCmpEq(name, attrs[j].name, NAME_BUFFER_SIZE)
    decreases |attrs|
  {
    if |attrs| == 0 then None
    else if StrNCmpEq(name, attrs[0].name, NAME_BUFFER_SIZE) then Some(0)
    else match FindAttr(attrs[1..], name)
      case None => None
      case Some(k) => Some(k + 1)
  }

  /**
   Characters a name may hold. As written a character is stored while
   `index < NAME_BUFFER_SIZE`, so the NUL after a 32-character name lands
   past the array; corrected, one place is kept for the NUL.
   */
  function NameLimit(mode: Mode): nat {
    if mode == AsWritten then NAME_BUFFER_SIZE else NAME_BUFFER_SIZE - 1
  }

  /** A name character: stored while there is room, dropped otherwise. */
  function NameChar(mode: Mode, s: State, c: char): (r: State)
    requires s.doName
    ensures r.attrs == s.attrs && r.doName && r.overrun == s.overrun
    ensures s.index < NameLimit(mode) ==> r.index == s.index + 1 && r.name == Put(s.name, s.index, c)
    ensures s.index >= NameLimit(mode) ==> r == s
  {
    if s.index < NameLimit(mode) then s.(name := Put(s.name, s.index, c), index := s.index + 1) else s
  }

  /** `name[index++] = '\0'` at the `=`. As written `index` may be 32: the write lands past the array. */
  function Terminate(s: State): (r: State)
    requires s.doName
    ensures r.doName && r.attrs == s.attrs && r.index == s.index + 1
    ensures r.name == Put(s.name, s.index, NUL)
    ensures r.overrun <==> s.overrun || s.index >= NAME_BUFFER_SIZE
  {
    s.(name := Put(s.name, s.index, NUL), index := s.index + 1, overrun := s.overrun || s.index >= NAME_BUFFER_SIZE)
  }

  /** `=`: terminate the name, look it up, and switch to the value; `None` for an unknown name. */
  function NameEnd(s: State): (r: Option<State>)
    requires s.doName
    ensures r.None? <==> FindAttr(s.attrs, Put(s.name, s.index, NUL)).None?
    ensures r.Some? ==> !r.value.doName && r.value.voff == 0 && r.value.attrs == s.attrs
    ensures r.Some? ==> r.value.target == FindAttr(s.attrs, Put(s.name, s.index, NUL)).value
    ensures r.Some? ==> (r.value.overrun <==> s.overrun || s.index >= NAME_BUFFER_SIZE)
  {
    var t := Terminate(s);
    match FindAttr(s.attrs, t.name)
    case None => None
    case Some(k) =>
      var s': State := t.(target := k, voff := 0, doName := false);
      Some(s')
  }

  /** Write `c` at `k` in the target attribute's value buffer. */
  function PutValue(s: State, k: nat, c: char): (r: State)
    requires !s.doName
    ensures |r.attrs| == |s.attrs| && r.doName == s.doName && r.target == s.target
    ensures r.attrs[s.target] == s.attrs[s.target].(value := Put(s.attrs[s.target].value, k, c))
    ensures forall j | 0 <= j < |s.attrs| && j != s.target :: r.attrs[j] == s.attrs[j]
    ensures r.overrun <==> s.overrun || k >= VALUE_BUFFER_SIZE
  {
    var a := s.attrs[s.target];
    s.(attrs := s.attrs[s.target := a.(value := Put(a.value, k, c))], overrun := s.overrun || k >= VALUE_BUFFER_SIZE)
  }

  /**
   A value character. As written it is stored with no bound; corrected,
   characters past the 64th are dropped so the NUL still fits.
   */
  function ValueChar(mode: Mode, s: State, c: char): (r: State)
    requires !s.doName
    ensures !r.doName && r.target == s.target && |r.attrs| == |s.attrs|
  {
    if mode == AsWritten || s.voff < VALUE_BUFFER_SIZE - 1 then PutValue(s, s.voff, c).(voff := s.voff + 1)
    else s
  }

  /** CR or LF after a value: terminate it and go back to reading a name. */
  function ValueEnd(mode: Mode, s: State): (r: State)
    requires !s.doName
    ensures r.doName && r.index == 0 && |r.attrs| == |s.attrs|
  {
    var k := if mode == AsWritten then s.voff else Min(s.voff, VALUE_BUFFER_SIZE - 1);
    PutValue(s, k, NUL).(doName := true, index := 0)
  }

  /** One body byte; `None` when the byte ends an unknown name (`-EINVAL`). */
  function Step(mode: Mode, s: State, c: char): (r: Option<State>)
    ensures r.None? ==> s.doName && c == '='
    ensures s.doName && IsEol(c) ==> r == Some(s)
    ensures r.Some? ==> |r.value.attrs| == |s.attrs|
  {
    if s.doName then
      if c == '=' then NameEnd(s)
      else if IsEol(c) then Some(s)
      else Some(NameChar(mode, s, c))
    else if IsEol(c) then Some(ValueEnd(mode, s))
    else Some(ValueChar(mode, s, c))
  }

  /** Result of `ob_ws_process_post`: `blocked` marks a trace that ran out before the loop ended. */
  datatype Outcome = Outcome(rc: int, st: State, rest: seq<RecvOutcome>, blocked: bool)

  /**
   The receive loop, `budget` being the page's `content_length`. As
   written every pass of the `for` loop counts against the budget,
   including one that only retries after `EAGAIN` or `EINTR`; corrected,
   only bytes count. A close ends the loop with 0, another error with
   `-errno`.
   */
  function Run(mode: Mode, s: State, budget: int, ev: seq<RecvOutcome>): (r: Outcome)
    ensures |r.rest| <= |ev|
    ensures r.blocked ==> r.rc == 0 && r.rest == []
    ensures |r.st.attrs| == |s.attrs|
    decreases |ev|
  {
    if budget <= 0 then Outcome(0, s, ev, false)
    else if |ev| == 0 then Outcome(0, s, [], true)
    else match ev[0]
      case Closed => Outcome(0, s, ev[1..], false)
      case Error(e) =>
        if Retryable(e) then
          Run(mode, s, if mode == AsWritten then budget - 1 else budget, ev[1..])
        else Outcome(-e, s, ev[1..], false)
      case Byte(c) =>
        match Step(mode, s, c)
        case None => Outcome(-EINVAL, Terminate(s), ev[1..], false)
        case Some(s') => Run(mode, s', budget - 1, ev[1..])
  }

  // ---------------------------------------------------------------------
  // Feeding bytes without receive events.

  /** The state after the bytes `t`, or `None` once one of them ends an unknown name. */
  function Feed(mode: Mode, s: State, t: seq<char>): Option<State>
    decreases |t|
  {
    if |t| == 0 then Some(s)
    else match Step(mode, s, t[0])
      case None => None
      case Some(s') => Feed(mode, s', t[1..])
  }

  lemma {:induction false} FeedAppend(mode: Mode, s: State, a: seq<char>, b: seq<char>)
    ensures Feed(mode, s, a + b) == (match Feed(mode, s, a) case None => None case Some(s') => Feed(mode, s', b))
    decreases |a|
  {
    if |a| == 0 {
      assert a + b == b;
    } else {
      assert (a + b)[0] == a[0];
      assert (a + b)[1..] == a[1..] + b;
      match Step(mode, s, a[0])
      case None =>
      case Some(s') => FeedAppend(mode, s', a[1..], b);
    }
  }

  /** With budget to spare and bytes to read, the receive loop is the byte feed. */
  lemma {:induction false} RunFeed(mode: Mode, s: State, t: seq<char>, extra: nat, rest: seq<RecvOutcome>)
    requires Feed(mode, s, t).Some?
    ensures Run(mode, s, |t| + extra, Bytes(t) + rest) == Run(mode, Feed(mode, s, t).value, extra, rest)
    decreases |t|
  {
    if |t| > 0 {
      var ev := Bytes(t) + rest;
      var s' := Step(mode, s, t[0]).value;
      assert Feed(mode, s, t) == Feed(mode, s', t[1..]);
      assert ev[1..] == Bytes(t[1..]) + rest && ev[0] == Byte(t[0]) by {
        assert Bytes(t) == [Byte(t[0])] + Bytes(t[1..]);
      }
      assert Run(mode, s, |t| + extra, ev) == Run(mode, s', |t| - 1 + extra, Bytes(t[1..]) + rest) by {
        RunByte(mode, s, |t| + extra, ev);
      }
      RunFeed(mode, s', t[1..], extra, rest);
    } else {
      assert Bytes(t) + rest == rest;
    }
  }

  lemma RunByte(mode: Mode, s: State, budget: int, ev: seq<RecvOutcome>)
    requires budget > 0 && |ev| > 0 && ev[0].Byte? && Step(mode, s, ev[0].c).Some?
    ensures Run(mode, s, budget, ev) == Run(mode, Step(mode, s, ev[0].c).value, budget - 1, ev[1..])
  {
  }

  /** `w` written over the start of `buf`. */
  function Overlay(buf: seq<char>, w: seq<char>): (r: seq<char>)
    ensures w <= r
  {
    if |w| >= |buf| then w else w + buf[|w|..]
  }

  lemma PutOverlay(buf: seq<char>, w: seq<char>, c: char)
    ensures Put(Overlay(buf, w), |w|, c) == Overlay(buf, w + [c])
  {
    var o := Overlay(buf, w);
    if |w| < |buf| {
      assert Put(o, |w|, c) == w + [c] + buf[|w| + 1..];
    } else {
      assert Put(o, |w|, c) == w + [c];
    }
  }

  /** A value written and terminated over an old buffer reads back as itself. */
  lemma CStrOverlay(buf: seq<char>, w: seq<char>)
    requires NulFree(w)
    ensures CStr(Overlay(buf, w + [NUL])) == w
  {
    var o := Overlay(buf, w + [NUL]);
    CStrTerminated(w, o[|w| + 1..]);
    assert o == w + [NUL] + o[|w| + 1..];
  }

  /** A character a name may hold in a field. */
  predicate NameText(w: seq<char>) {
    NulFree(w) && '=' !in w && '\r' !in w && '\n' !in w
  }

  /** A character a value may hold in a field. */
  predicate ValueText(v: seq<char>) {
    NulFree(v) && '\r' !in v && '\n' !in v
  }

  /** Name characters are stored one by one while there is room. */
  lemma {:induction false} FeedNameChars(mode: Mode, s: State, w: seq<char>)
    requires s.doName && s.index == 0 && NameText(w) && |w| <= NameLimit(mode)
    ensures Feed(mode, s, w).Some?
    ensures Feed(mode, s, w).value == s.(index := |w|, name := Overlay(s.name, w))
    decreases |w|
  {
    if |w| == 0 {
      assert Overlay(s.name, w) == s.name;
    } else {
      var w' := w[..|w| - 1];
      var c := w[|w| - 1];
      assert w == w' + [c];
      FeedNameChars(mode, s, w');
      FeedAppend(mode, s, w', [c]);
      var s1 := Feed(mode, s, w').value;
      PutOverlay(s.name, w', c);
      assert Step(mode, s1, c).Some? && Step(mode, s1, c).value == s.(index := |w|, name := Overlay(s.name, w));
      assert [c][1..] == [];
    }
  }

  /** Once the name buffer is full, further name characters are dropped and nothing changes. */
  lemma {:induction false} NameCharsDropped(mode: Mode, s: State, w: seq<char>)
    requires s.doName && s.index >= NameLimit(mode) && NameText(w)
    ensures Feed(mode, s, w) == Some(s)
    decreases |w|
  {
    if |w| > 0 {
      var w' := w[..|w| - 1];
      var c := w[|w| - 1];
      assert w == w' + [c];
      NameCharsDropped(mode, s, w');
      FeedAppend(mode, s, w', [c]);
      assert Step(mode, s, c) == Some(s);
      assert [c][1..] == [];
    }
  }

  /** Characters a value buffer takes before characters are dropped or written past its end. */
  function ValueLimit(mode: Mode): nat {
    if mode == AsWritten then VALUE_BUFFER_SIZE else VALUE_BUFFER_SIZE - 1
  }

  /** The state with the target attribute's value buffer replaced. */
  function SetValue(s: State, buf: seq<char>): (r: State)
    requires !s.doName
  {
    s.(attrs := s.attrs[s.target := s.attrs[s.target].(value := buf)])
  }

  /** Value characters are stored one by one from offset 0. */
  lemma {:induction false} FeedValueChars(mode: Mode, s: State, v: seq<char>)
    requires !s.doName && s.voff == 0 && ValueText(v) && |v| <= ValueLimit(mode)
    ensures Feed(mode, s, v).Some?
    ensures Feed(mode, s, v).value == SetValue(s, Overlay(s.attrs[s.target].value, v)).(voff := |v|)
    decreases |v|
  {
    if |v| == 0 {
      assert Overlay(s.attrs[s.target].value, v) == s.attrs[s.target].value;
      assert s.attrs[s.target := s.attrs[s.target]] == s.attrs;
    } else {
      var v' := v[..|v| - 1];
      var c := v[|v| - 1];
      assert v == v' + [c];
      FeedValueChars(mode, s, v');
      FeedAppend(mode, s, v', [c]);
      var s1 := Feed(mode, s, v').value;
      PutOverlay(s.attrs[s.target].value, v', c);
      assert s1.attrs[s.target].value == Overlay(s.attrs[s.target].value, v');
      assert Step(mode, s1, c).Some? && Step(mode, s1, c).value == SetValue(s, Overlay(s.attrs[s.target].value, v)).(voff := |v|);
      assert [c][1..] == [];
    }
  }

  // ---------------------------------------------------------------------
  // One field: a name, `=`, a value and CR LF.

  /** The attribute table the firmware passes: NUL-free names that fit `name` with its NUL, all distinct. */
  predicate AttrsOk(attrs: seq<Attr>) {
    && (forall j | 0 <= j < |attrs| :: NulFree(attrs[j].name) && |attrs[j].name| < NAME_BUFFER_SIZE)
    && (forall i, j | 0 <= i < j < |attrs| :: attrs[i].name != attrs[j].name)
  }

  predicate Named(attrs: seq<Attr>, w: seq<char>) {
    exists j | 0 <= j < |attrs| :: attrs[j].name == w
  }

  /** A terminated name in the `name` buffer matches an attribute exactly when it is that attribute's name. */
  lemma NameMatches(buf: seq<char>, w: seq<char>, a: seq<char>)
    requires NulFree(w) && |w| < NAME_BUFFER_SIZE && NulFree(a) && |a| < NAME_BUFFER_SIZE
    ensures StrNCmpEq(Overlay(buf, w + [NUL]), a, NAME_BUFFER_SIZE) <==> w == a
  {
    CStrOverlay(buf, w);
    CStrOfNulFree(a);
    StrNCmpEqMeaning(Overlay(buf, w + [NUL]), a, NAME_BUFFER_SIZE);
  }

  /** The look-up at `=` finds the attribute named `w`, and finds none when no attribute has that name. */
  lemma NameLookup(attrs: seq<Attr>, buf: seq<char>, w: seq<char>)
    requires AttrsOk(attrs) && NulFree(w) && |w| < NAME_BUFFER_SIZE
    ensures var r := FindAttr(attrs, Overlay(buf, w + [NUL]));
      && (r.None? <==> !Named(attrs, w))
      && (r.Some? ==> attrs[r.value].name == w)
  {
    forall j | 0 <= j < |attrs|
      ensures StrNCmpEq(Overlay(buf, w + [NUL]), attrs[j].name, NAME_BUFFER_SIZE) <==> attrs[j].name == w
    {
      NameMatches(buf, w, attrs[j].name);
    }
  }

  /** A known name and its `=`: the value of the attribute so named is read next. */
  lemma NameStage(mode: Mode, s: State, w: seq<char>)
    requires s.doName && s.index == 0 && AttrsOk(s.attrs)
    requires NameText(w) && |w| < NAME_BUFFER_SIZE && Named(s.attrs, w)
    ensures var r := Feed(mode, s, w + ['=']);
      && r.Some? && !r.value.doName && r.value.voff == 0
      && r.value.attrs == s.attrs && r.value.overrun == s.overrun
      && s.attrs[r.value.target].name == w
  {
    FeedNameChars(mode, s, w);
    FeedAppend(mode, s, w, ['=']);
    var s1 := Feed(mode, s, w).value;
    PutOverlay(s.name, w, NUL);
    NameLookup(s.attrs, s.name, w);
    assert Feed(mode, s, w + ['=']) == Step(mode, s1, '=');
  }

  /** An unknown name and its `=`: the extraction stops. */
  lemma UnknownStage(mode: Mode, s: State, w: seq<char>)
    requires s.doName && s.index == 0 && AttrsOk(s.attrs)
    requires NameText(w) && |w| < NAME_BUFFER_SIZE && !Named(s.attrs, w)
    ensures Feed(mode, s, w).Some? && Step(mode, Feed(mode, s, w).value, '=').None?
  {
    FeedNameChars(mode, s, w);
    PutOverlay(s.name, w, NUL);
    NameLookup(s.attrs, s.name, w);
  }

  /** A value and its CR LF: the value, terminated, lies over the old buffer and a name is read next. */
  lemma ValueStage(mode: Mode, s: State, v: seq<char>)
    requires !s.doName && s.voff == 0 && ValueText(v) && |v| < VALUE_BUFFER_SIZE
    ensures Feed(mode, s, v + ['\r', '\n']).Some?
    ensures Feed(mode, s, v + ['\r', '\n']).value
      == SetValue(s, Overlay(s.attrs[s.target].value, v + [NUL])).(voff := |v|, doName := true, index := 0)
  {
    FeedValueChars(mode, s, v);
    FeedAppend(mode, s, v, ['\r', '\n']);
    var s1 := Feed(mode, s, v).value;
    PutOverlay(s.attrs[s.target].value, v, NUL);
    var s2 := ValueEnd(mode, s1);
    assert s2 == SetValue(s, Overlay(s.attrs[s.target].value, v + [NUL])).(voff := |v|, doName := true, index := 0);
    assert Feed(mode, s1, ['\r', '\n']).Some? && Feed(mode, s1, ['\r', '\n']).value == s2;
  }

  /** A submitted form field. */
  datatype Field = Field(name: seq<char>, value: seq<char>)

  /** What the form encoding sends for one field: `name=value` and CR LF. */
  function FieldText(f: Field): seq<char> {
    f.name + ['='] + f.value + ['\r', '\n']
  }

  /** The body of a form: its fields one after another. */
  function Encode(fs: seq<Field>): seq<char> {
    if |fs| == 0 then [] else Encode(fs[..|fs| - 1]) + FieldText(fs[|fs| - 1])
  }

  /** A field the attribute table accepts: a known name, and a value that fits its buffer with the NUL. */
  predicate FieldOk(attrs: seq<Attr>, f: Field) {
    NameText(f.name) && Named(attrs, f.name) && ValueText(f.value) && |f.value| < VALUE_BUFFER_SIZE
  }

  /** One field: the attribute it names gets the value; nothing else changes. */
  lemma FeedField(mode: Mode, s: State, f: Field)
    requires s.doName && s.index == 0 && AttrsOk(s.attrs) && FieldOk(s.attrs, f)
    ensures var r := Feed(mode, s, FieldText(f));
      && r.Some? && r.value.doName && r.value.index == 0 && r.value.overrun == s.overrun
      && |r.value.attrs| == |s.attrs|
      && forall j | 0 <= j < |s.attrs| ::
           && r.value.attrs[j].name == s.attrs[j].name
           && r.value.attrs[j].value == (if s.attrs[j].name == f.name then Overlay(s.attrs[j].value, f.value + [NUL])
                                         else s.attrs[j].value)
  {
    assert |f.name| < NAME_BUFFER_SIZE by {
      var j :| 0 <= j < |s.attrs| && s.attrs[j].name == f.name;
    }
    NameStage(mode, s, f.name);
    var s1 := Feed(mode, s, f.name + ['=']).value;
    ValueStage(mode, s1, f.value);
    assert FieldText(f) == (f.name + ['=']) + (f.value + ['\r', '\n']);
    FeedAppend(mode, s, f.name + ['='], f.value + ['\r', '\n']);
  }

  /** The value a form leaves for the name `n`: that of the last field so named, else `dflt`. */
  function LastValue(fs: seq<Field>, n: seq<char>, dflt: seq<char>): (r: seq<char>)
    ensures r == dflt || exists i | 0 <= i < |fs| :: fs[i].name == n && r == fs[i].value
  {
    if |fs| == 0 then dflt
    else if fs[|fs| - 1].name == n then fs[|fs| - 1].value
    else LastValue(fs[..|fs| - 1], n, dflt)
  }

  /** Each attribute's value as a C string after the form: the last value submitted for it, or the old one. */
  function Submitted(attrs: seq<Attr>, fs: seq<Field>): (r: seq<seq<char>>)
    ensures |r| == |attrs|
  {
    seq(|attrs|, j requires 0 <= j < |attrs| => LastValue(fs, attrs[j].name, CStr(attrs[j].value)))
  }

  /** The extraction state after the whole form `fs` was read from `attrs`. */
  predicate AfterForm(st: State, attrs: seq<Attr>, fs: seq<Field>) {
    && st.doName && st.index == 0 && !st.overrun && |st.attrs| == |attrs|
    && forall j | 0 <= j < |attrs| ::
         st.attrs[j].name == attrs[j].name && CStr(st.attrs[j].value) == Submitted(attrs, fs)[j]
  }

  lemma {:induction false} FeedFields(mode: Mode, attrs: seq<Attr>, fs: seq<Field>)
    requires AttrsOk(attrs) && forall i | 0 <= i < |fs| :: FieldOk(attrs, fs[i])
    ensures Feed(mode, Start(attrs), Encode(fs)).Some?
    ensures AfterForm(Feed(mode, Start(attrs), Encode(fs)).value, attrs, fs)
    decreases |fs|
  {
    if |fs| == 0 {
      forall j | 0 <= j < |attrs| ensures Submitted(attrs, fs)[j] == CStr(attrs[j].value) {
      }
    } else {
      var fs', f := fs[..|fs| - 1], fs[|fs| - 1];
      FeedFields(mode, attrs, fs');
      var s := Feed(mode, Start(attrs), Encode(fs')).value;
      assert Named(s.attrs, f.name) by {
        assert FieldOk(attrs, f);
        var j :| 0 <= j < |attrs| && attrs[j].name == f.name;
        assert s.attrs[j].name == f.name;
      }
      FeedField(mode, s, f);
      FeedAppend(mode, Start(attrs), Encode(fs'), FieldText(f));
      var r := Feed(mode, s, FieldText(f)).value;
      forall j | 0 <= j < |attrs|
        ensures r.attrs[j].name == attrs[j].name && CStr(r.attrs[j].value) == Submitted(attrs, fs)[j]
      {
        if attrs[j].name == f.name {
          CStrOverlay(s.attrs[j].value, f.value);
        } else {
          assert Submitted(attrs, fs)[j] == Submitted(attrs, fs')[j];
        }
      }
    }
  }

  /**
   The form round trip: a body of fields the table accepts, read with its
   own length as the content length, returns 0 having consumed the body,
   writes no byte outside a buffer, and leaves in each attribute the last
   value submitted for it.
   */
  lemma FormRoundTrip(mode: Mode, attrs: seq<Attr>, fs: seq<Field>)
    requires AttrsOk(attrs) && forall i | 0 <= i < |fs| :: FieldOk(attrs, fs[i])
    ensures var r := Run(mode, Start(attrs), |Encode(fs)|, Bytes(Encode(fs)));
      && r.rc == 0 && !r.blocked && r.rest == [] && AfterForm(r.st, attrs, fs)
  {
    FeedFields(mode, attrs, fs);
    RunFeed(mode, Start(attrs), Encode(fs), 0, []);
    assert Bytes(Encode(fs)) + [] == Bytes(Encode(fs));
  }

  /** A name no attribute has ends the extraction with `-EINVAL` at its `=`. */
  lemma UnknownName(mode: Mode, s: State, w: seq<char>, budget: int, rest: seq<RecvOutcome>)
    requires s.doName && s.index == 0 && AttrsOk(s.attrs)
    requires NameText(w) && |w| < NAME_BUFFER_SIZE && !Named(s.attrs, w) && budget > |w|
    ensures Run(mode, s, budget, Bytes(w + ['=']) + rest).rc == -EINVAL
    ensures Run(mode, s, budget, Bytes(w + ['=']) + rest).rest == rest
    ensures Run(mode, s, budget, Bytes(w + ['=']) + rest).st.attrs == s.attrs
  {
    UnknownStage(mode, s, w);
    var k: nat := budget - |w| - 1;
    RunFeed(mode, s, w, k + 1, [Byte('=')] + rest);
    FeedNameChars(mode, s, w);
    var s1 := Feed(mode, s, w).value;
    assert Run(mode, s1, k + 1, [Byte('=')] + rest) == Outcome(-EINVAL, Terminate(s1), rest, false);
    assert Bytes(w + ['=']) + rest == Bytes(w) + ([Byte('=')] + rest) by {
      BytesAppend(w, ['=']);
    }
  }

  // ---------------------------------------------------------------------
  // Writes past the buffers, and retries that count against the length.

  /** The last byte the content length allows: the state is that after the byte, or the terminated name at an unknown one. */
  lemma RunLastByte(mode: Mode, s: State, c: char, rest: seq<RecvOutcome>)
    ensures var r := Run(mode, s, 1, [Byte(c)] + rest);
      r.st == if Step(mode, s, c).None? then Terminate(s) else Step(mode, s, c).value
  {
    var ev := [Byte(c)] + rest;
    assert ev[0] == Byte(c);
  }

  /** As written, a 32-character name and its `=` put the NUL one past the end of `name`. */
  lemma AsWrittenNameOverrun(s: State, w: seq<char>, rest: seq<RecvOutcome>)
    requires s.doName && s.index == 0 && NameText(w) && |w| == NAME_BUFFER_SIZE
    ensures Run(AsWritten, s, |w| + 1, Bytes(w + ['=']) + rest).st.overrun
  {
    FeedNameChars(AsWritten, s, w);
    var s1 := Feed(AsWritten, s, w).value;
    RunFeed(AsWritten, s, w, 1, [Byte('=')] + rest);
    RunLastByte(AsWritten, s1, '=', rest);
    EqualsAtIndex(s1);
    SnocBytes(w, '=', rest);
  }

  /** The `=` that arrives with the name index at the end of `name` writes its NUL past it. */
  lemma EqualsAtIndex(s: State)
    requires s.doName && s.index == NAME_BUFFER_SIZE
    ensures (if Step(AsWritten, s, '=').None? then Terminate(s) else Step(AsWritten, s, '=').value).overrun
  {
  }

  lemma SnocBytes(w: seq<char>, c: char, rest: seq<RecvOutcome>)
    ensures Bytes(w + [c]) + rest == Bytes(w) + ([Byte(c)] + rest)
  {
    BytesAppend(w, [c]);
    assert Bytes([c]) == [Byte(c)];
  }

  /** As written, a 65-character value and its CR put the NUL one past the end of the value buffer. */
  lemma AsWrittenValueOverrun(s: State, v: seq<char>, rest: seq<RecvOutcome>)
    requires !s.doName && s.voff == 0 && ValueText(v) && |v| == VALUE_BUFFER_SIZE
    ensures Run(AsWritten, s, |v| + 1, Bytes(v + ['\r']) + rest).st.overrun
  {
    FeedValueChars(AsWritten, s, v);
    RunFeed(AsWritten, s, v, 1, [Byte('\r')] + rest);
    SnocBytes(v, '\r', rest);
  }

  /**
   Corrected, the same 65-character value keeps to its buffer: the 65th
   character is dropped and the value reads back as its first 64.
   */
  lemma CorrectedValueTruncated(s: State, v: seq<char>, rest: seq<RecvOutcome>)
    requires !s.doName && s.voff == 0 && !s.overrun && ValueText(v) && |v| == VALUE_BUFFER_SIZE
    ensures var r := Run(Corrected, s, |v| + 1, Bytes(v + ['\r']) + rest);
      && !r.st.overrun && r.st.target == s.target && |r.st.attrs| == |s.attrs|
      && CStr(r.st.attrs[s.target].value) == v[..VALUE_BUFFER_SIZE - 1]
  {
    var v' := v[..VALUE_BUFFER_SIZE - 1];
    var c := v[VALUE_BUFFER_SIZE - 1];
    assert v == v' + [c];
    FeedValueChars(Corrected, s, v');
    var s1 := Feed(Corrected, s, v').value;
    var t := v' + [c, '\r'];
    assert Bytes(v + ['\r']) == Bytes(t) by {
      assert v + ['\r'] == t;
    }
    FeedAppend(Corrected, s, v', [c, '\r']);
    assert ValueChar(Corrected, s1, c) == s1;
    var s2 := ValueEnd(Corrected, s1);
    assert Feed(Corrected, s1, [c, '\r']).Some? && Feed(Corrected, s1, [c, '\r']).value == s2 by {
      assert [c, '\r'][1..] == ['\r'];
      assert ['\r'][1..] == [];
    }
    RunFeed(Corrected, s, t, 0, rest);
    PutOverlay(s.attrs[s.target].value, v', NUL);
    CStrOverlay(s.attrs[s.target].value, v');
  }

  /** The invariant of the corrected extraction: every write so far fell inside its buffer. */
  predicate InBounds(s: State) {
    && !s.overrun
    && (s.doName ==> s.index < NAME_BUFFER_SIZE)
    && (!s.doName ==> s.voff < VALUE_BUFFER_SIZE)
  }

  lemma CorrectedStepInBounds(s: State, c: char)
    requires InBounds(s)
    ensures Step(Corrected, s, c).Some? ==> InBounds(Step(Corrected, s, c).value)
    ensures Step(Corrected, s, c).None? ==> !Terminate(s).overrun
  {
  }

  /** Corrected, no input whatever makes the extraction write outside `name` or a value buffer. */
  lemma {:induction false} CorrectedNeverOverruns(s: State, budget: int, ev: seq<RecvOutcome>)
    requires InBounds(s)
    ensures !Run(Corrected, s, budget, ev).st.overrun
    decreases |ev|
  {
    if budget > 0 && |ev| > 0 {
      match ev[0]
      case Closed =>
      case Error(e) =>
        if Retryable(e) {
          CorrectedNeverOverruns(s, budget, ev[1..]);
        }
      case Byte(c) =>
        CorrectedStepInBounds(s, c);
        if Step(Corrected, s, c).Some? {
          CorrectedNeverOverruns(Step(Corrected, s, c).value, budget - 1, ev[1..]);
        }
    }
  }

  /**
   As written, each `EAGAIN` or `EINTR` uses up one byte of the content
   length: after two, the CR LF of the last field stays unread and its
   value is left without its NUL, over whatever the buffer held.
   */
  lemma AsWrittenRetriesUnterminated(attrs: seq<Attr>, f: Field, e1: int, e2: int)
    requires AttrsOk(attrs) && FieldOk(attrs, f) && Retryable(e1) && Retryable(e2)
    ensures var r := Run(AsWritten, Start(attrs), |FieldText(f)|, [Error(e1), Error(e2)] + Bytes(FieldText(f)));
      && r.rc == 0 && r.rest == Bytes(['\r', '\n']) && |r.st.attrs| == |attrs|
      && forall j | 0 <= j < |attrs| && attrs[j].name == f.name ::
           && r.st.attrs[j].value == Overlay(attrs[j].value, f.value)
           && (NulFree(attrs[j].value) && |attrs[j].value| > |f.value| ==> CStr(r.st.attrs[j].value) != f.value)
  {
    var s := Start(attrs);
    var head := f.name + ['='] + f.value;
    var ev := [Error(e1), Error(e2)] + Bytes(FieldText(f));
    AsWrittenRetriesCost(s, |FieldText(f)|, e1, e2, Bytes(FieldText(f)));
    assert Bytes(FieldText(f)) == Bytes(head) + Bytes(['\r', '\n']) by {
      assert FieldText(f) == head + ['\r', '\n'];
      BytesAppend(head, ['\r', '\n']);
    }
    FeedHead(AsWritten, attrs, f);
    RunFeed(AsWritten, s, head, 0, Bytes(['\r', '\n']));
    var r := Run(AsWritten, s, |FieldText(f)|, ev);
    assert r.st == Feed(AsWritten, s, head).value;
    forall j | 0 <= j < |attrs| && attrs[j].name == f.name
      ensures r.st.attrs[j].value == Overlay(attrs[j].value, f.value)
      ensures NulFree(attrs[j].value) && |attrs[j].value| > |f.value| ==> CStr(r.st.attrs[j].value) != f.value
    {
      if NulFree(attrs[j].value) && |attrs[j].value| > |f.value| {
        var o := Overlay(attrs[j].value, f.value);
        assert NulFree(o);
        CStrOfNulFree(o);
      }
    }
  }

  /** As written, two retried receives use up two passes of the loop. */
  lemma AsWrittenRetriesCost(s: State, budget: int, e1: int, e2: int, ev: seq<RecvOutcome>)
    requires budget >= 2 && Retryable(e1) && Retryable(e2)
    ensures Run(AsWritten, s, budget, [Error(e1), Error(e2)] + ev) == Run(AsWritten, s, budget - 2, ev)
  {
    var t := [Error(e1), Error(e2)] + ev;
    assert t[0] == Error(e1) && t[1..] == [Error(e2)] + ev;
    assert t[1..][0] == Error(e2) && t[1..][1..] == ev;
  }

  /** The name, `=` and value of an accepted field: the value lies over the named attribute's buffer, not yet terminated. */
  lemma FeedHead(mode: Mode, attrs: seq<Attr>, f: Field)
    requires AttrsOk(attrs) && FieldOk(attrs, f)
    ensures var r := Feed(mode, Start(attrs), f.name + ['='] + f.value);
      && r.Some? && |r.value.attrs| == |attrs|
      && forall j | 0 <= j < |attrs| && attrs[j].name == f.name :: r.value.attrs[j].value == Overlay(attrs[j].value, f.value)
  {
    var s := Start(attrs);
    assert |f.name| < NAME_BUFFER_SIZE by {
      var j :| 0 <= j < |attrs| && attrs[j].name == f.name;
    }
    NameStage(mode, s, f.name);
    var s1 := Feed(mode, s, f.name + ['=']).value;
    FeedValueChars(mode, s1, f.value);
    FeedAppend(mode, s, f.name + ['='], f.value);
    forall j | 0 <= j < |attrs| && attrs[j].name == f.name
      ensures j == s1.target
    {
    }
  }

  /** Corrected, retried receives are invisible: the outcome is that of the trace without them. */
  lemma {:induction false} CorrectedRetriesInvisible(s: State, budget: int, ev: seq<RecvOutcome>)
    ensures Run(Corrected, s, budget, WithoutRetries(ev)).rc == Run(Corrected, s, budget, ev).rc
    ensures Run(Corrected, s, budget, WithoutRetries(ev)).st == Run(Corrected, s, budget, ev).st
    ensures Run(Corrected, s, budget, WithoutRetries(ev)).blocked == Run(Corrected, s, budget, ev).blocked
    decreases |ev|
  {
    if |ev| > 0 {
      var r := WithoutRetries(ev);
      if ev[0].Error? && Retryable(ev[0].errno) {
        assert r == WithoutRetries(ev[1..]);
        CorrectedRetriesInvisible(s, budget, ev[1..]);
      } else {
        assert r == [ev[0]] + WithoutRetries(ev[1..]);
        assert r[0] == ev[0] && r[1..] == WithoutRetries(ev[1..]);
        if budget > 0 && ev[0].Byte? && Step(Corrected, s, ev[0].c).Some? {
          CorrectedRetriesInvisible(Step(Corrected, s, ev[0].c).value, budget - 1, ev[1..]);
        }
      }
    }
  }
}

=== FILE: request_scanner.dfy ===
/**
 The request scanner of the web server's connection handler: it reads the
 request one byte at a time until the blank line that ends the header
 block (section 2.1 of RFC 9112), and on the way recognises the method,
 copies the request target into a 32-byte `filename` buffer and picks up
 the decimal value after `Content-Length: ` (section 8.6 of RFC 9110).

 The scanner runs in one of two modes. `AsWritten` keeps every write the
 source makes, including those past the end of `filename`, and records
 them in `overrun`. `Corrected` is the repaired scanner: it never writes
 past the array and keeps it NUL-terminated, truncating long targets to
 31 characters.
 */
module RequestScanner {
  import opened CText
  import opened SocketIo

  const MAX_WEB_PATH_NAME_LEN: nat := 32

  /** The format string whose first 16 characters the length matcher follows. */
  const CONTENT_LENGTH_PATTERN: seq<char> := "Content-Length: %d\r\n"
  const CONTENT_LENGTH_END: nat := 15

  datatype Method = Unknown | Get | Post

  // ---------------------------------------------------------------------
  // The Content-Length matcher and digit reader.

  type PatternIndex = k: nat | k <= CONTENT_LENGTH_END

  datatype LengthScan = LengthScan(doGetLength: bool, length: int, ctIndex: PatternIndex)

  const LengthInit: LengthScan := LengthScan(false, 0, 0)

  /**
   One byte through the digit reader and then the matcher. The matcher
   advances only on the expected character and is never reset by a
   mismatch; completing the pattern turns the digit reader on and restarts
   the matcher. The accumulated length is never cleared.
   */
  function LengthStep(l: LengthScan, c: char): (r: LengthScan)
    ensures !l.doGetLength && c != CONTENT_LENGTH_PATTERN[l.ctIndex] ==> r == l
    ensures r.doGetLength <==> (l.doGetLength && c != '\r') || (l.ctIndex == CONTENT_LENGTH_END && c == ' ')
    ensures r.length == if l.doGetLength && IsDigit(c) then l.length * 10 + DigitValue(c) else l.length
  {
    var l1 :=
      if !l.doGetLength then l
      else if c == '\r' then l.(doGetLength := false)
      else if IsDigit(c) then l.(length := l.length * 10 + DigitValue(c))
      else l;
    if CONTENT_LENGTH_PATTERN[l1.ctIndex] != c then l1
    else if l1.ctIndex == CONTENT_LENGTH_END then l1.(doGetLength := true, ctIndex := 0)
    else l1.(ctIndex := l1.ctIndex + 1)
  }

  function LengthRun(l: LengthScan, t: seq<char>): LengthScan
    decreases |t|
  {
    if |t| == 0 then l else LengthRun(LengthStep(l, t[0]), t[1..])
  }

  lemma {:induction false} LengthRunAppend(l: LengthScan, a: seq<char>, b: seq<char>)
    ensures LengthRun(l, a + b) == LengthRun(LengthRun(l, a), b)
    decreases |a|
  {
    if |a| > 0 {
      assert (a + b)[0] == a[0];
      assert (a + b)[1..] == a[1..] + b;
      LengthRunAppend(LengthStep(l, a[0]), a[1..], b);
    } else {
      assert a + b == b;
    }
  }

  /** The header name, as far as the matcher follows it. */
  const CONTENT_LENGTH_NAME: seq<char> := "Content-Length: "

  lemma {:induction false} LengthRunName(l: LengthScan, k: nat)
    requires k <= |CONTENT_LENGTH_NAME|
    requires !l.doGetLength && l.ctIndex == 0
    ensures k < |CONTENT_LENGTH_NAME| ==> LengthRun(l, CONTENT_LENGTH_NAME[..k]) == l.(ctIndex := k)
    ensures k == |CONTENT_LENGTH_NAME| ==> LengthRun(l, CONTENT_LENGTH_NAME[..k]) == l.(doGetLength := true)
    decreases k
  {
    if k > 0 {
      LengthRunName(l, k - 1);
      assert CONTENT_LENGTH_NAME[..k] == CONTENT_LENGTH_NAME[..k - 1] + [CONTENT_LENGTH_NAME[k - 1]];
      LengthRunAppend(l, CONTENT_LENGTH_NAME[..k - 1], [CONTENT_LENGTH_NAME[k - 1]]);
    }
  }

  /** With the reader on, digits fold into the length and leave the matcher at rest. */
  lemma {:induction false} LengthRunDigits(l: LengthScan, s: seq<char>)
    requires l.doGetLength && l.ctIndex == 0
    requires forall i | 0 <= i < |s| :: IsDigit(s[i])
    ensures LengthRun(l, s) == l.(length := FoldDigits(l.length, s))
    decreases |s|
  {
    if |s| > 0 {
      LengthRunDigits(LengthStep(l, s[0]), s[1..]);
    }
  }

  /**
   Round trip with the header the source's own format string writes: from
   a matcher at rest, scanning `Content-Length: <n>` and the CR after it
   leaves the matcher at rest with `n` appended, in decimal, to whatever
   length was already accumulated (it is 0 on a fresh connection).
   */
  lemma ContentLengthRoundTrip(l: LengthScan, n: nat)
    requires !l.doGetLength && l.ctIndex == 0
    ensures LengthRun(l, CONTENT_LENGTH_NAME + Decimal(n) + "\r")
         == l.(length := l.length * Pow10(|Decimal(n)|) + n)
  {
    var d := Decimal(n);
    var l2 := l.(length := l.length * Pow10(|d|) + n);
    NameThenDigits(l, d);
    DecimalFolds(l.length, n);
    LengthRunAppend(l, CONTENT_LENGTH_NAME + d, "\r");
    CarriageReturnEndsLength(l2.(doGetLength := true));
  }

  lemma NameThenDigits(l: LengthScan, d: seq<char>)
    requires !l.doGetLength && l.ctIndex == 0
    requires forall i | 0 <= i < |d| :: IsDigit(d[i])
    ensures LengthRun(l, CONTENT_LENGTH_NAME + d) == l.(doGetLength := true, length := FoldDigits(l.length, d))
  {
    var name := CONTENT_LENGTH_NAME;
    LengthRunName(l, |name|);
    assert name[..|name|] == name;
    LengthRunAppend(l, name, d);
    LengthRunDigits(l.(doGetLength := true), d);
  }

  lemma CarriageReturnEndsLength(l: LengthScan)
    requires l.doGetLength && l.ctIndex == 0
    ensures LengthRun(l, "\r") == l.(doGetLength := false)
  {
    assert LengthRun(l, "\r") == LengthRun(LengthStep(l, '\r'), []);
  }

  lemma FreshContentLength(n: nat)
    ensures LengthRun(LengthInit, CONTENT_LENGTH_NAME + Decimal(n) + "\r").length == n
  {
    ContentLengthRoundTrip(LengthInit, n);
  }

  /** Bytes without a `C` never move a matcher at rest: other header fields leave it alone. */
  lemma {:induction false} LengthRunIgnores(l: LengthScan, t: seq<char>)
    requires !l.doGetLength && l.ctIndex == 0
    requires forall i | 0 <= i < |t| :: t[i] != 'C'
    ensures LengthRun(l, t) == l
    decreases |t|
  {
    if |t| > 0 {
      LengthRunIgnores(l, t[1..]);
    }
  }

  // ---------------------------------------------------------------------
  // The end-of-header detector.

  type TermState = k: nat | k < 4

  datatype TermResult = Stop | Continue(next: TermState)

  /** `req_state`: counts CR LF CR LF; any other byte restarts the count without being looked at again. */
  function TermStep(st: TermState, c: char): (r: TermResult)
    ensures r == Stop <==> st == 3 && c == '\n'
  {
    if st == 0 && c == '\r' then Continue(1)
    else if st == 1 && c == '\n' then Continue(2)
    else if st == 2 && c == '\r' then Continue(3)
    else if st == 3 && c == '\n' then Stop
    else Continue(0)
  }

  /** The detector over `t`: `None` once it has stopped. */
  function TermRun(st: TermState, t: seq<char>): Option<TermState>
    decreases |t|
  {
    if |t| == 0 then Some(st)
    else match TermStep(st, t[0])
      case Stop => None
      case Continue(n) => TermRun(n, t[1..])
  }

  lemma {:induction false} TermRunSnoc(st: TermState, t: seq<char>, c: char)
    ensures TermRun(st, t + [c]) ==
      match TermRun(st, t)
      case None => None
      case Some(x) => (match TermStep(x, c) case Stop => None case Continue(y) => Some(y))
    decreases |t|
  {
    if |t| == 0 {
      assert t + [c] == [c];
    } else {
      assert (t + [c])[1..] == t[1..] + [c];
      match TermStep(st, t[0])
      case Stop =>
      case Continue(n) => TermRunSnoc(n, t[1..], c);
    }
  }

  const CRLFCR: seq<char> := "\r\n\r"

  /** The detector's state is the length of the CR LF CR prefix that `t` ends with. */
  lemma {:induction false} TermStateMeaning(t: seq<char>)
    requires TermRun(0, t).Some?
    ensures TermRun(0, t).value <= |t|
    ensures t[|t| - TermRun(0, t).value..] == CRLFCR[..TermRun(0, t).value]
    decreases |t|
  {
    if |t| > 0 {
      var p := t[..|t| - 1];
      var c := t[|t| - 1];
      assert p + [c] == t;
      TermRunSnoc(0, p, c);
      TermStateMeaning(p);
      var x := TermRun(0, p).value;
      var y := TermRun(0, t).value;
      assert TermStep(x, c) == Continue(y);
      if y > 0 {
        assert y == x + 1 && c == CRLFCR[x];
        assert t[|t| - y..] == p[|p| - x..] + [c];
        assert CRLFCR[..y] == CRLFCR[..x] + [CRLFCR[x]];
      }
    }
  }

  /** Soundness: the scanner stops only on the LF of a CR LF CR LF. */
  lemma TermStopSound(t: seq<char>, c: char)
    requires TermRun(0, t).Some? && TermRun(0, t + [c]) == None
    ensures |t| >= 3 && t[|t| - 3..] + [c] == "\r\n\r\n"
  {
    TermRunSnoc(0, t, c);
    TermStateMeaning(t);
  }

  /** Header lines: each a non-empty line without CR, ended by CR LF. */
  function Lines(ls: seq<seq<char>>): seq<char>
    decreases |ls|
  {
    if |ls| == 0 then [] else ls[0] + "\r\n" + Lines(ls[1..])
  }

  predicate HeaderLine(l: seq<char>) {
    |l| > 0 && forall i | 0 <= i < |l| :: l[i] != '\r'
  }

  lemma {:induction false} TermRunLine(st: TermState, l: seq<char>)
    requires st == 0 || st == 2
    requires HeaderLine(l)
    ensures TermRun(st, l + "\r\n") == Some(2)
    decreases |l|
  {
    var t := l + "\r\n";
    assert t[0] == l[0] != '\r';
    assert TermStep(st, t[0]) == Continue(0);
    assert t[1..] == l[1..] + "\r\n";
    if |l| == 1 {
      assert t[1..] == "\r\n";
      assert TermRun(0, "\r\n") == TermRun(1, "\n");
      assert TermRun(1, "\n") == TermRun(2, "");
    } else {
      TermRunLine(0, l[1..]);
    }
  }

  lemma {:induction false} TermRunAppend(st: TermState, a: seq<char>, b: seq<char>)
    requires TermRun(st, a).Some?
    ensures TermRun(st, a + b) == TermRun(TermRun(st, a).value, b)
    decreases |a|
  {
    if |a| > 0 {
      assert (a + b)[0] == a[0];
      assert (a + b)[1..] == a[1..] + b;
      match TermStep(st, a[0])
      case Stop =>
      case Continue(n) => TermRunAppend(n, a[1..], b);
    } else {
      assert a + b == b;
    }
  }

  /**
   Completeness on well-formed requests: after a request line and header
   lines, each ended by CR LF, the detector is two bytes into the
   terminator and stops on the LF of the empty line that follows.
   */
  lemma {:induction false} TermRunHeaderBlock(ls: seq<seq<char>>)
    requires |ls| > 0
    requires forall i | 0 <= i < |ls| :: HeaderLine(ls[i])
    ensures TermRun(0, Lines(ls)) == Some(2)
    ensures TermRun(0, Lines(ls) + "\r") == Some(3)
    ensures TermRun(0, Lines(ls) + "\r\n") == None
    decreases |ls|
  {
    TermRunPrefix(0, ls);
    TermRunAppend(0, Lines(ls), "\r");
    TermRunAppend(0, Lines(ls), "\r\n");
  }

  lemma {:induction false} TermRunPrefix(st: TermState, ls: seq<seq<char>>)
    requires st == 0 || st == 2
    requires |ls| > 0
    requires forall i | 0 <= i < |ls| :: HeaderLine(ls[i])
    ensures TermRun(st, Lines(ls)) == Some(2)
    decreases |ls|
  {
    TermRunLine(st, ls[0]);
    assert Lines(ls) == (ls[0] + "\r\n") + Lines(ls[1..]);
    TermRunAppend(st, ls[0] + "\r\n", Lines(ls[1..]));
    if |ls| > 1 {
      TermRunPrefix(2, ls[1..]);
    }
  }

  // ---------------------------------------------------------------------
  // The scanner state and one byte of the receive loop.

  datatype Scan = Scan(
    i: nat,                // bytes consumed so far
    getbuf: seq<char>,     // the first five bytes
    startPage: nat,        // index of the first target byte while the target is open, else 0
    filename: seq<char>,   // the `filename` buffer, NUL-padded
    pageType: Method,
    ls: LengthScan,
    reqState: TermState,
    overrun: bool)         // some write landed past the 32-byte `filename` array

  type ScanState = s: Scan | s.startPage <= s.i
    witness Scan(0, [], 0, [], Unknown, LengthScan(false, 0, 0), 0, false)

  const Init: ScanState := Scan(0, [], 0, [], Unknown, LengthInit, 0, false)

  /**
   `filename[k] = c`. The corrected scanner keeps the last byte of the
   array for the terminator and drops what does not fit.
   */
  function WritePath(mode: Mode, s: Scan, k: nat, c: char, terminator: bool): (r: Scan)
    ensures r.i == s.i && r.startPage == s.startPage && r.pageType == s.pageType
    ensures mode == Corrected ==> r.overrun == s.overrun && (|s.filename| <= MAX_WEB_PATH_NAME_LEN ==> |r.filename| <= MAX_WEB_PATH_NAME_LEN)
  {
    if mode == AsWritten then
      s.(filename := Put(s.filename, k, c), overrun := s.overrun || k >= MAX_WEB_PATH_NAME_LEN)
    else if k < (if terminator then MAX_WEB_PATH_NAME_LEN else MAX_WEB_PATH_NAME_LEN - 1) then
      s.(filename := Put(s.filename, k, c))
    else s
  }

  /** `getbuf[i] = c` for the first five bytes. */
  function SaveGetbuf(s: ScanState, c: char): (r: ScanState)
    ensures r.(getbuf := s.getbuf) == s
  {
    if s.i < 5 then s.(getbuf := Put(s.getbuf, s.i, c)) else s
  }

  /** While the target is open, a space terminates it and any other byte extends it. */
  function ContinuePath(mode: Mode, s: ScanState, c: char): (r: ScanState)
    ensures r.i == s.i && r.getbuf == s.getbuf && r.pageType == s.pageType && r.ls == s.ls && r.reqState == s.reqState
    ensures s.startPage == 0 ==> r == s
  {
    if s.startPage == 0 then s
    else if c == ' ' then WritePath(mode, s, s.i - s.startPage, NUL, true).(startPage := 0)
    else WritePath(mode, s, s.i - s.startPage, c, false)
  }

  /** At the fifth byte: `GET ` opens a target whose first byte is this one. */
  function DetectGet(mode: Mode, s: ScanState, c: char): (r: ScanState)
    ensures r.i == s.i && r.getbuf == s.getbuf && r.ls == s.ls && r.reqState == s.reqState
    ensures s.i != 4 ==> r == s
  {
    if s.i == 4 && StrNCmpEq("GET ", s.getbuf, 4) then WritePath(mode, s.(pageType := Get, startPage := 4), 0, c, false)
    else s
  }

  /** At the sixth byte, if no target is open: `POST` opens a target whose first byte is this one. */
  function DetectPost(mode: Mode, s: ScanState, c: char): (r: ScanState)
    ensures r.i == s.i && r.getbuf == s.getbuf && r.ls == s.ls && r.reqState == s.reqState
    ensures s.i != 5 ==> r == s
  {
    if s.startPage == 0 && s.i == 5 && StrNCmpEq("POST", s.getbuf, 4) then WritePath(mode, s.(pageType := Post, startPage := 5), 0, c, false)
    else s
  }

  /** Everything one received byte does before the end-of-header check, in the source's order. */
  function CoreStep(mode: Mode, s: ScanState, c: char): (r: ScanState)
    ensures r.i == s.i && r.reqState == s.reqState
    ensures r.ls == LengthStep(s.ls, c)
  {
    var s4 := DetectPost(mode, DetectGet(mode, ContinuePath(mode, SaveGetbuf(s, c), c), c), c);
    s4.(ls := LengthStep(s4.ls, c))
  }

  datatype StepResult = StepResult(scan: ScanState, stop: bool)

  /** One received byte: the work above, then the end-of-header check, then `i++` unless it stopped. */
  function Step(mode: Mode, s: ScanState, c: char): (r: StepResult)
    ensures r.stop <==> TermStep(s.reqState, c) == Stop
    ensures r.scan.i == if r.stop then s.i else s.i + 1
  {
    var s4 := CoreStep(mode, s, c);
    match TermStep(s4.reqState, c)
    case Stop => StepResult(s4, true)
    case Continue(st) => StepResult(s4.(reqState := st, i := s4.i + 1), false)
  }

  /** Why the receive loop ended; `Pending` is a receive that would still block. */
  datatype End = HeaderEnd | PeerClosed | ConnError(errno: int) | Pending

  datatype ScanResult = ScanResult(scan: ScanState, end: End, rest: seq<RecvOutcome>)

  /** The receive loop over a trace of receive outcomes; `rest` is what a later reader would get. */
  function Run(mode: Mode, s: ScanState, ev: seq<RecvOutcome>): (r: ScanResult)
    ensures |r.rest| <= |ev| && r.rest == ev[|ev| - |r.rest|..]
    ensures r.end == Pending ==> r.rest == []
    decreases |ev|
  {
    if |ev| == 0 then ScanResult(s, Pending, [])
    else match ev[0]
      case Closed => ScanResult(s, PeerClosed, ev[1..])
      case Error(e) =>
        if Retryable(e) then Run(mode, s, ev[1..]) else ScanResult(s, ConnError(-e), ev[1..])
      case Byte(c) =>
        var st := Step(mode, s, c);
        if st.stop then ScanResult(st.scan, HeaderEnd, ev[1..]) else Run(mode, st.scan, ev[1..])
  }

  lemma {:induction false} RunAppend(mode: Mode, s: ScanState, a: seq<RecvOutcome>, b: seq<RecvOutcome>)
    ensures Run(mode, s, a).end == Pending ==> Run(mode, s, a + b) == Run(mode, Run(mode, s, a).scan, b)
    ensures Run(mode, s, a).end != Pending ==> Run(mode, s, a + b) == Run(mode, s, a).(rest := Run(mode, s, a).rest + b)
    decreases |a|
  {
    if |a| == 0 {
      assert a + b == b;
    } else {
      assert (a + b)[0] == a[0];
      assert (a + b)[1..] == a[1..] + b;
      match a[0]
      case Closed =>
      case Error(e) =>
        if Retryable(e) {
          RunAppend(mode, s, a[1..], b);
        }
      case Byte(c) =>
        if !Step(mode, s, c).stop {
          RunAppend(mode, Step(mode, s, c).scan, a[1..], b);
        }
    }
  }

  /** `EAGAIN` and `EINTR` are invisible: removing them changes neither the state reached nor why the loop ended. */
  lemma {:induction false} RetriesInvisible(mode: Mode, s: ScanState, ev: seq<RecvOutcome>)
    ensures Run(mode, s, WithoutRetries(ev)).scan == Run(mode, s, ev).scan
    ensures Run(mode, s, WithoutRetries(ev)).end == Run(mode, s, ev).end
    decreases |ev|
  {
    if |ev| > 0 {
      if ev[0].Error? && Retryable(ev[0].errno) {
        RetryDropped(mode, s, ev);
        RetriesInvisible(mode, s, ev[1..]);
      } else if ev[0].Byte? && !Step(mode, s, ev[0].c).stop {
        ByteKept(mode, s, ev);
        RetriesInvisible(mode, Step(mode, s, ev[0].c).scan, ev[1..]);
      } else {
        LastKept(mode, s, ev);
      }
    }
  }

  lemma RetryDropped(mode: Mode, s: ScanState, ev: seq<RecvOutcome>)
    requires |ev| > 0 && ev[0].Error? && Retryable(ev[0].errno)
    ensures Run(mode, s, ev) == Run(mode, s, ev[1..])
    ensures WithoutRetries(ev) == WithoutRetries(ev[1..])
  {
  }

  lemma ByteKept(mode: Mode, s: ScanState, ev: seq<RecvOutcome>)
    requires |ev| > 0 && ev[0].Byte? && !Step(mode, s, ev[0].c).stop
    ensures Run(mode, s, ev) == Run(mode, Step(mode, s, ev[0].c).scan, ev[1..])
    ensures Run(mode, s, WithoutRetries(ev)) == Run(mode, Step(mode, s, ev[0].c).scan, WithoutRetries(ev[1..]))
  {
    assert WithoutRetries(ev) == [ev[0]] + WithoutRetries(ev[1..]);
    RunKept(mode, s, ev[0], WithoutRetries(ev[1..]));
  }

  lemma LastKept(mode: Mode, s: ScanState, ev: seq<RecvOutcome>)
    requires |ev| > 0 && !(ev[0].Error? && Retryable(ev[0].errno))
    requires ev[0].Byte? ==> Step(mode, s, ev[0].c).stop
    ensures Run(mode, s, WithoutRetries(ev)).scan == Run(mode, s, ev).scan
    ensures Run(mode, s, WithoutRetries(ev)).end == Run(mode, s, ev).end
  {
    assert WithoutRetries(ev) == [ev[0]] + WithoutRetries(ev[1..]);
    RunKept(mode, s, ev[0], WithoutRetries(ev[1..]));
    RunKept(mode, s, ev[0], ev[1..]);
    assert [ev[0]] + ev[1..] == ev;
  }

  /** The loop on a trace that starts with an outcome it does not retry. */
  lemma RunKept(mode: Mode, s: ScanState, e: RecvOutcome, rest: seq<RecvOutcome>)
    requires !(e.Error? && Retryable(e.errno))
    ensures e.Closed? ==> Run(mode, s, [e] + rest).end == PeerClosed && Run(mode, s, [e] + rest).scan == s
    ensures e.Error? ==> Run(mode, s, [e] + rest).end == ConnError(-e.errno) && Run(mode, s, [e] + rest).scan == s
    ensures e.Byte? && Step(mode, s, e.c).stop ==>
      Run(mode, s, [e] + rest).end == HeaderEnd && Run(mode, s, [e] + rest).scan == Step(mode, s, e.c).scan
    ensures e.Byte? && !Step(mode, s, e.c).stop ==> Run(mode, s, [e] + rest) == Run(mode, Step(mode, s, e.c).scan, rest)
  {
    var ev := [e] + rest;
    assert ev[0] == e && ev[1..] == rest;
  }

  // ---------------------------------------------------------------------
  // What the scanner has seen, defined directly on the bytes consumed.

  /** The method the scanner recognises from the first bytes of the request line. */
  function MethodOf(b: seq<char>): Method {
    if |b| >= 5 && "GET " <= b then Get
    else if |b| >= 6 && "POST" <= b then Post
    else Unknown
  }

  /** Index of the first target byte: right after `GET ` or after `POST` and one more byte. */
  function PathStart(m: Method): nat {
    if m == Get then 4 else 5
  }

  /** `t` up to its first space. */
  function UpToSpace(t: seq<char>): (r: seq<char>)
    ensures r <= t
    ensures forall k | 0 <= k < |r| :: r[k] != ' '
    ensures |r| < |t| ==> t[|r|] == ' '
  {
    if |t| == 0 || t[0] == ' ' then [] else [t[0]] + UpToSpace(t[1..])
  }

  /** The request target as collected: the byte at `PathStart`, whatever it is, and then everything up to the next space. */
  function Target(b: seq<char>): seq<char>
    requires MethodOf(b) != Unknown
  {
    var st := PathStart(MethodOf(b));
    [b[st]] + UpToSpace(b[st + 1..])
  }

  /** A space has ended the target. */
  predicate Closed(b: seq<char>)
    requires MethodOf(b) != Unknown
  {
    var st := PathStart(MethodOf(b));
    |UpToSpace(b[st + 1..])| < |b| - (st + 1)
  }

  /** The `filename` buffer after the target `t` has been written into it. */
  function Stored(mode: Mode, t: seq<char>, closed: bool): seq<char> {
    if mode == AsWritten then t + (if closed then [NUL] else [])
    else Take(t, MAX_WEB_PATH_NAME_LEN - 1) + (if closed && |t| < MAX_WEB_PATH_NAME_LEN then [NUL] else [])
  }

  /** Writing the target `t` (and its terminator when closed) reaches index 32 or beyond. */
  predicate Overruns(t: seq<char>, closed: bool) {
    |t| > MAX_WEB_PATH_NAME_LEN || (|t| == MAX_WEB_PATH_NAME_LEN && closed)
  }

  /** The scanner state agrees with the reference definitions on the bytes `b` consumed so far. */
  predicate Tracks(mode: Mode, s: Scan, b: seq<char>) {
    && s.getbuf == Take(b, 5)
    && s.pageType == MethodOf(b)
    && s.ls == LengthRun(LengthInit, b)
    && (s.pageType == Unknown ==> s.filename == [] && s.startPage == 0 && !s.overrun)
    && (s.pageType != Unknown ==>
          && s.filename == Stored(mode, Target(b), Closed(b))
          && s.startPage == (if Closed(b) then 0 else PathStart(s.pageType))
          && s.overrun == (mode == AsWritten && Overruns(Target(b), Closed(b))))
  }

  lemma {:induction false} UpToSpaceSnoc(t: seq<char>, c: char)
    ensures |UpToSpace(t)| < |t| ==> UpToSpace(t + [c]) == UpToSpace(t)
    ensures |UpToSpace(t)| == |t| && c == ' ' ==> UpToSpace(t + [c]) == t
    ensures |UpToSpace(t)| == |t| && c != ' ' ==> UpToSpace(t + [c]) == t + [c]
    decreases |t|
  {
    if |t| == 0 {
    } else {
      assert (t + [c])[1..] == t[1..] + [c];
      UpToSpaceSnoc(t[1..], c);
    }
  }

  /** One more byte once the method is known: the target grows, or closes, or stays closed. */
  lemma TargetSnoc(b: seq<char>, c: char)
    requires MethodOf(b) != Unknown
    ensures MethodOf(b + [c]) == MethodOf(b)
    ensures var st := PathStart(MethodOf(b));
      && st < |b|
      && (Closed(b) ==> Target(b + [c]) == Target(b) && Closed(b + [c]))
      && (!Closed(b) ==> |Target(b)| == |b| - st)
      && (!Closed(b) && c == ' ' ==> Target(b + [c]) == Target(b) && Closed(b + [c]))
      && (!Closed(b) && c != ' ' ==> Target(b + [c]) == Target(b) + [c] && !Closed(b + [c]))
  {
    var st := PathStart(MethodOf(b));
    assert (b + [c])[..4] == b[..4];
    assert "GET " <= b + [c] <==> "GET " <= b;
    assert "POST" <= b + [c] <==> "POST" <= b;
    assert (b + [c])[st + 1..] == b[st + 1..] + [c];
    UpToSpaceSnoc(b[st + 1..], c);
  }

  lemma PutAppend(buf: seq<char>, c: char)
    ensures Put(buf, |buf|, c) == buf + [c]
  {
    assert seq(0, _ => NUL) == [];
  }

  /** The target continues (or closes) on byte `c`: the one write of the filename block. */
  lemma PathWrite(mode: Mode, s: ScanState, b: seq<char>, c: char)
    requires Tracks(mode, s, b) && s.i == |b| && s.pageType != Unknown && !Closed(b)
    ensures var s2 := if c == ' ' then WritePath(mode, s, s.i - s.startPage, NUL, true).(startPage := 0)
                      else WritePath(mode, s, s.i - s.startPage, c, false);
      && s2.filename == Stored(mode, Target(b + [c]), Closed(b + [c]))
      && s2.startPage == (if Closed(b + [c]) then 0 else PathStart(s.pageType))
      && s2.overrun == (mode == AsWritten && Overruns(Target(b + [c]), Closed(b + [c])))
  {
    TargetSnoc(b, c);
    assert s.i - s.startPage == |Target(b)|;
    if mode == AsWritten {
      WriteNextAsWritten(s, Target(b), c);
    } else {
      WriteNextCorrected(s, Target(b), c);
    }
  }

  /** The next write into the buffer of an open target `t`, as written. */
  lemma WriteNextAsWritten(s: Scan, t: seq<char>, c: char)
    requires s.filename == Stored(AsWritten, t, false) && s.overrun == Overruns(t, false)
    ensures c == ' ' ==> var r := WritePath(AsWritten, s, |t|, NUL, true);
      r.filename == Stored(AsWritten, t, true) && r.overrun == Overruns(t, true)
    ensures c != ' ' ==> var r := WritePath(AsWritten, s, |t|, c, false);
      r.filename == Stored(AsWritten, t + [c], false) && r.overrun == Overruns(t + [c], false)
  {
    PutAppend(t, if c == ' ' then NUL else c);
  }

  /** The next write into the buffer of an open target `t`, corrected. */
  lemma WriteNextCorrected(s: Scan, t: seq<char>, c: char)
    requires s.filename == Stored(Corrected, t, false) && !s.overrun
    ensures c == ' ' ==> var r := WritePath(Corrected, s, |t|, NUL, true);
      r.filename == Stored(Corrected, t, true) && !r.overrun
    ensures c != ' ' ==> var r := WritePath(Corrected, s, |t|, c, false);
      r.filename == Stored(Corrected, t + [c], false) && !r.overrun
  {
    var w := Take(t, MAX_WEB_PATH_NAME_LEN - 1);
    assert s.filename == w;
    if |t| < MAX_WEB_PATH_NAME_LEN - 1 {
      assert w == t;
      PutAppend(t, if c == ' ' then NUL else c);
      assert Take(t + [c], MAX_WEB_PATH_NAME_LEN - 1) == t + [c];
    } else if |t| == MAX_WEB_PATH_NAME_LEN - 1 {
      assert w == t;
      PutAppend(t, NUL);
      assert Take(t + [c], MAX_WEB_PATH_NAME_LEN - 1) == w;
    } else {
      assert Take(t + [c], MAX_WEB_PATH_NAME_LEN - 1) == w;
    }
  }

  /** The first target byte, written at index 0 when the method is recognised. */
  lemma FirstPathByte(mode: Mode, s: Scan, b: seq<char>, c: char, m: Method)
    requires s.filename == [] && !s.overrun && m != Unknown
    requires MethodOf(b + [c]) == m && |b| == PathStart(m)
    ensures var r := WritePath(mode, s.(pageType := m, startPage := PathStart(m)), 0, c, false);
      && r.filename == Stored(mode, Target(b + [c]), Closed(b + [c]))
      && r.overrun == (mode == AsWritten && Overruns(Target(b + [c]), Closed(b + [c])))
  {
    var st := PathStart(m);
    assert (b + [c])[st + 1..] == [];
    assert Target(b + [c]) == [c];
    PutAppend([], c);
  }

  /** The reference definitions are kept by every byte before the end-of-header check. */
  /** The first five bytes are kept, and the two method literals are matched against them. */
  lemma GetbufTracks(s: ScanState, b: seq<char>, c: char)
    requires s.getbuf == Take(b, 5) && s.i == |b|
    ensures SaveGetbuf(s, c).getbuf == Take(b + [c], 5)
    ensures StrNCmpEq("GET ", SaveGetbuf(s, c).getbuf, 4) <==> |b| >= 3 && "GET " <= b + [c]
    ensures StrNCmpEq("POST", SaveGetbuf(s, c).getbuf, 4) <==> |b| >= 3 && "POST" <= b + [c]
  {
    var g := SaveGetbuf(s, c).getbuf;
    if s.i < 5 {
      PutAppend(s.getbuf, c);
      assert g == b + [c];
    } else {
      assert Take(b + [c], 5) == (b + [c])[..5];
    }
    LiteralMatch("GET ", g);
    LiteralMatch("POST", g);
  }

  /** Once the method is known, only the path write changes the state. */
  lemma CoreStepKnown(mode: Mode, s: ScanState, b: seq<char>, c: char)
    requires Tracks(mode, s, b) && s.i == |b| && s.pageType != Unknown
    ensures Tracks(mode, CoreStep(mode, s, c), b + [c])
  {
    KnownHeader(mode, s, b, c);
    KnownTarget(mode, s, b, c);
  }

  /** Once the method is known, neither method detector fires again. */
  lemma KnownNoDetect(mode: Mode, s: ScanState, b: seq<char>, c: char)
    requires Tracks(mode, s, b) && s.i == |b| && s.pageType != Unknown
    ensures CoreStep(mode, s, c) == ContinuePath(mode, SaveGetbuf(s, c), c).(ls := LengthStep(s.ls, c))
  {
    var s2 := ContinuePath(mode, SaveGetbuf(s, c), c);
    assert DetectGet(mode, s2, c) == s2;
    if s.i == 5 && s2.startPage == 0 {
      GetbufTracks(s, b, c);
      assert s.pageType == Get;
      assert !("POST" <= b + [c]);
    }
    assert DetectPost(mode, DetectGet(mode, s2, c), c) == s2;
  }

  /** The first five bytes, the method and the length matcher, once the method is known. */
  lemma KnownHeader(mode: Mode, s: ScanState, b: seq<char>, c: char)
    requires Tracks(mode, s, b) && s.i == |b| && s.pageType != Unknown
    ensures var r := CoreStep(mode, s, c);
      && r.getbuf == Take(b + [c], 5)
      && r.pageType == MethodOf(b + [c])
      && r.ls == LengthRun(LengthInit, b + [c])
  {
    KnownNoDetect(mode, s, b, c);
    LengthRunAppend(LengthInit, b, [c]);
    GetbufTracks(s, b, c);
    TargetSnoc(b, c);
  }

  /** The target buffer, once the method is known. */
  lemma KnownTarget(mode: Mode, s: ScanState, b: seq<char>, c: char)
    requires Tracks(mode, s, b) && s.i == |b| && s.pageType != Unknown
    ensures var r := CoreStep(mode, s, c);
      MethodOf(b + [c]) != Unknown
      && r.filename == Stored(mode, Target(b + [c]), Closed(b + [c]))
      && r.startPage == (if Closed(b + [c]) then 0 else PathStart(s.pageType))
      && r.overrun == (mode == AsWritten && Overruns(Target(b + [c]), Closed(b + [c])))
  {
    KnownNoDetect(mode, s, b, c);
    TargetSnoc(b, c);
    var s1 := SaveGetbuf(s, c);
    if !Closed(b) {
      PathWrite(mode, s1, b, c);
    }
  }

  /** Before the method is known. */
  lemma CoreStepUnknown(mode: Mode, s: ScanState, b: seq<char>, c: char)
    requires Tracks(mode, s, b) && s.i == |b| && s.pageType == Unknown
    ensures Tracks(mode, CoreStep(mode, s, c), b + [c])
  {
    var b' := b + [c];
    LengthRunAppend(LengthInit, b, [c]);
    GetbufTracks(s, b, c);
    var s1 := SaveGetbuf(s, c);
    assert ContinuePath(mode, s1, c) == s1;
    var s3 := DetectGet(mode, s1, c);
    if |b| == 4 && "GET " <= b' {
      FirstPathByte(mode, s1, b, c, Get);
      assert DetectPost(mode, s3, c) == s3;
    } else {
      assert s3 == s1;
      if |b| == 5 && "POST" <= b' {
        FirstPathByte(mode, s1, b, c, Post);
      } else {
        assert MethodOf(b') == Unknown;
      }
    }
  }

  /** The reference definitions are kept by every byte before the end-of-header check. */
  lemma CoreStepTracks(mode: Mode, s: ScanState, b: seq<char>, c: char)
    requires Tracks(mode, s, b) && s.i == |b|
    ensures Tracks(mode, CoreStep(mode, s, c), b + [c])
  {
    if s.pageType == Unknown {
      CoreStepUnknown(mode, s, b, c);
    } else {
      CoreStepKnown(mode, s, b, c);
    }
  }

  lemma StepTracks(mode: Mode, s: ScanState, b: seq<char>, c: char)
    requires Tracks(mode, s, b) && s.i == |b| && TermRun(0, b) == Some(s.reqState)
    ensures Tracks(mode, Step(mode, s, c).scan, b + [c])
    ensures !Step(mode, s, c).stop ==> TermRun(0, b + [c]) == Some(Step(mode, s, c).scan.reqState)
    ensures Step(mode, s, c).stop <==> TermRun(0, b + [c]) == None
  {
    CoreStepTracks(mode, s, b, c);
    TermRunSnoc(0, b, c);
  }

  /**
   The whole receive loop over bytes `b` that hold no end of header: it
   consumes them all, waits for more, and its state is the one the
   reference definitions give for `b`.
   */
  lemma {:induction false} ScanOpen(mode: Mode, b: seq<char>)
    requires TermRun(0, b).Some?
    ensures var r := Run(mode, Init, Bytes(b));
      && r.end == Pending && r.scan.i == |b|
      && TermRun(0, b) == Some(r.scan.reqState)
      && Tracks(mode, r.scan, b)
    decreases |b|
  {
    if |b| == 0 {
      assert Take(b, 5) == [];
    } else {
      var p := b[..|b| - 1];
      var c := b[|b| - 1];
      assert p + [c] == b;
      TermRunSnoc(0, p, c);
      ScanOpen(mode, p);
      BytesAppend(p, [c]);
      RunAppend(mode, Init, Bytes(p), Bytes([c]));
      var s := Run(mode, Init, Bytes(p)).scan;
      StepTracks(mode, s, p, c);
      assert Bytes([c])[1..] == [];
    }
  }

  /**
   The receive loop stops on the last byte of `b + [c]` exactly when that
   byte completes the end of header; the bytes after it are left unread.
   */
  lemma ScanEnds(mode: Mode, b: seq<char>, c: char, rest: seq<RecvOutcome>)
    requires TermRun(0, b).Some? && TermRun(0, b + [c]) == None
    ensures var r := Run(mode, Init, Bytes(b + [c]) + rest);
      && r.end == HeaderEnd && r.rest == rest && r.scan.i == |b|
      && Tracks(mode, r.scan, b + [c])
  {
    ScanOpen(mode, b);
    var s := Run(mode, Init, Bytes(b)).scan;
    StepTracks(mode, s, b, c);
    ScanEndsRun(mode, b, c, rest);
  }

  /** The loop runs over `b` and stops on `c`. */
  lemma ScanEndsRun(mode: Mode, b: seq<char>, c: char, rest: seq<RecvOutcome>)
    requires Run(mode, Init, Bytes(b)).end == Pending
    requires Step(mode, Run(mode, Init, Bytes(b)).scan, c).stop
    ensures Run(mode, Init, Bytes(b + [c]) + rest) == ScanResult(Step(mode, Run(mode, Init, Bytes(b)).scan, c).scan, HeaderEnd, rest)
  {
    var tail := [Byte(c)] + rest;
    BytesSnoc(b, c, rest);
    RunAppend(mode, Init, Bytes(b), tail);
    StoppingByte(mode, Run(mode, Init, Bytes(b)).scan, c, rest);
  }

  lemma BytesSnoc(b: seq<char>, c: char, rest: seq<RecvOutcome>)
    ensures Bytes(b + [c]) + rest == Bytes(b) + ([Byte(c)] + rest)
  {
    BytesAppend(b, [c]);
    assert Bytes([c]) == [Byte(c)];
  }

  lemma StoppingByte(mode: Mode, s: ScanState, c: char, rest: seq<RecvOutcome>)
    requires Step(mode, s, c).stop
    ensures Run(mode, s, [Byte(c)] + rest) == ScanResult(Step(mode, s, c).scan, HeaderEnd, rest)
  {
    assert ([Byte(c)] + rest)[0] == Byte(c);
    assert ([Byte(c)] + rest)[1..] == rest;
  }

  // ---------------------------------------------------------------------
  // The target buffer, as the dispatcher reads it.

  /** The C string the dispatcher sees in the corrected scanner's buffer: the target, cut to 31 characters. */
  lemma CorrectedTarget(t: seq<char>, closed: bool)
    ensures |Stored(Corrected, t, closed)| <= MAX_WEB_PATH_NAME_LEN
    ensures CStr(Stored(Corrected, t, closed)) == CStr(Take(t, MAX_WEB_PATH_NAME_LEN - 1))
  {
    var w := Take(t, MAX_WEB_PATH_NAME_LEN - 1);
    if closed && |t| < MAX_WEB_PATH_NAME_LEN {
      CStrAppendNul(w);
    } else {
      assert Stored(Corrected, t, closed) == w + [];
      assert w + [] == w;
    }
  }

  lemma {:induction false} CStrAppendNul(w: seq<char>)
    ensures CStr(w + [NUL]) == CStr(w)
    decreases |w|
  {
    if |w| > 0 && w[0] != NUL {
      assert (w + [NUL])[1..] == w[1..] + [NUL];
      CStrAppendNul(w[1..]);
    }
  }

  /** The corrected scanner never writes past `filename` and always leaves it terminated within 32 bytes. */
  lemma CorrectedNeverOverruns(b: seq<char>)
    requires TermRun(0, b).Some?
    ensures var s := Run(Corrected, Init, Bytes(b)).scan;
      && !s.overrun && |s.filename| <= MAX_WEB_PATH_NAME_LEN
      && (MethodOf(b) != Unknown ==> CStr(s.filename) == CStr(Take(Target(b), MAX_WEB_PATH_NAME_LEN - 1)))
  {
    ScanOpen(Corrected, b);
    var s := Run(Corrected, Init, Bytes(b)).scan;
    if s.pageType != Unknown {
      CorrectedTarget(Target(b), Closed(b));
    }
  }

  /**
   As written, a request target of 32 or more characters followed by a
   space makes the scanner write past the 32-byte `filename` array: the
   terminator lands at index 32 or later.
   */
  lemma AsWrittenOverrun(target: seq<char>)
    requires |target| >= MAX_WEB_PATH_NAME_LEN
    requires forall k | 0 <= k < |target| :: target[k] != ' ' && target[k] != '\n'
    ensures Run(AsWritten, Init, Bytes("GET " + target + " ")).scan.overrun
  {
    var b := "GET " + target + " ";
    GetLineNoLf(target);
    NoTerminator("GET " + target, ' ');
    ScanOpen(AsWritten, b);
    GetTarget(target);
    TracksOverrun(Run(AsWritten, Init, Bytes(b)).scan, b);
  }

  lemma GetLineNoLf(target: seq<char>)
    requires forall k | 0 <= k < |target| :: target[k] != '\n'
    ensures forall k | 0 <= k < |"GET " + target| :: ("GET " + target)[k] != '\n'
  {
    var g := "GET " + target;
    forall k | 0 <= k < |g|
      ensures g[k] != '\n'
    {
      if k >= 4 {
        assert g[k] == target[k - 4];
      }
    }
  }

  lemma TracksOverrun(s: Scan, b: seq<char>)
    requires Tracks(AsWritten, s, b) && MethodOf(b) != Unknown
    ensures s.overrun == Overruns(Target(b), Closed(b))
  {
  }

  /** The target of `GET <target> ` is `target` when it holds no space; the space closes it. */
  lemma GetTarget(target: seq<char>)
    requires |target| >= 1
    requires forall k | 0 <= k < |target| :: target[k] != ' '
    ensures var b := "GET " + target + " ";
      MethodOf(b) == Get && Target(b) == target && Closed(b)
  {
    var b := "GET " + target + " ";
    assert "GET " <= b;
    assert b[4] == target[0];
    assert b[5..] == target[1..] + " ";
    NoSpace(target[1..]);
    UpToSpaceSnoc(target[1..], ' ');
    assert [target[0]] + target[1..] == target;
  }

  /** Bytes without LF never complete the end of header. */
  lemma {:induction false} NoTerminator(t: seq<char>, c: char)
    requires forall k | 0 <= k < |t| :: t[k] != '\n'
    requires c != '\n'
    ensures TermRun(0, t + [c]).Some?
    decreases |t|
  {
    if |t| == 0 {
      assert t + [c] == [c];
    } else {
      NoTerminator(t[..|t| - 1], t[|t| - 1]);
      assert t[..|t| - 1] + [t[|t| - 1]] == t;
      TermRunSnoc(0, t, c);
    }
  }

  lemma {:induction false} NoSpace(t: seq<char>)
    requires forall k | 0 <= k < |t| :: t[k] != ' '
    ensures UpToSpace(t) == t
    decreases |t|
  {
    if |t| > 0 {
      NoSpace(t[1..]);
    }
  }
}

=== FILE: response_builder.dfy ===
/**
 The responses the web server builds itself: the navigation menu of all
 registered pages, the `200 OK` header that carries it, and the fixed
 404 and 500 responses.
 */
module Responses {
  import opened CText
  import opened WebPages

  const WEB_MENU_LEN: nat := 256
  const HEADER200_SIZE: nat := 1024
  const MAX_HEADER_CONTENT_LEN: nat := 40

  const MENU_HEAD: seq<char> := "<div>\n<h1 style=\"text-align:center;background-color:#3EE427;\">Beechwoods</h1>\n</div>\n<div>\n<h3 style=\"background-color:#1E90FF;\">"
  const MENU_ITEM_OPEN: seq<char> := "&nbsp;<a href=\""
  const MENU_ITEM_MID: seq<char> := "\">"
  const MENU_ELEM_END: seq<char> := "</a>"
  const MENU_TAIL: seq<char> := "</h3>\n</div>\n"

  const HTTP_OK: seq<char> := "HTTP/1.1 200 OK\r\n"
  const CONTENT_TYPE: seq<char> := "Content-Type: text/html; charset=UTF-8\r\n\r\n"
  const CONTENT_HEAD: seq<char> := "<html>\n<head>\n<title>"
  const CONTENT_HEAD_TAIL: seq<char> := "</title>\n</head>\n<body>\n"

  // ---------------------------------------------------------------------
  // The menu.

  /** One menu entry: a non-breaking space and a link to the page with its title as text. */
  function MenuItem(p: Page): seq<char> {
    MENU_ITEM_OPEN + CStr(p.path) + MENU_ITEM_MID + CStr(p.title) + MENU_ELEM_END
  }

  /** The entries of all pages, in list order. */
  function Items(pages: seq<Page>): (r: seq<char>)
    ensures |pages| == 0 ==> r == []
    decreases |pages|
  {
    if |pages| == 0 then [] else MenuItem(pages[0]) + Items(pages[1..])
  }

  /** What `create_menu` adds to its running length for one page: the literals counted as 19 bytes. */
  function Charge(mode: Mode, p: Page): nat {
    if mode == AsWritten then 19 + |CStr(p.path)| + |CStr(p.title)| else |MenuItem(p)|
  }

  /**
   The running length before the first page. As written it is 5 plus the
   head; the corrected count is the head, the tail and the terminating NUL.
   */
  function MenuStart(mode: Mode): nat {
    if mode == AsWritten then 5 + |MENU_HEAD| else |MENU_HEAD| + |MENU_TAIL| + 1
  }

  /** The page loop of `create_menu`: add each page's charge and give up once the total passes the buffer size. */
  function MenuLoop(mode: Mode, pages: seq<Page>, len: nat): (r: Option<seq<char>>)
    ensures r.Some? ==> r.value == Items(pages)
    decreases |pages|
  {
    if |pages| == 0 then Some([])
    else
      var len' := len + Charge(mode, pages[0]);
      if len' > WEB_MENU_LEN then None
      else match MenuLoop(mode, pages[1..], len')
        case None => None
        case Some(rest) => Some(MenuItem(pages[0]) + rest)
  }

  /** The sum of the charges of all pages. */
  function TotalCharge(mode: Mode, pages: seq<Page>): nat
    decreases |pages|
  {
    if |pages| == 0 then 0 else Charge(mode, pages[0]) + TotalCharge(mode, pages[1..])
  }

  /** The running check fails somewhere exactly when the final total is over the buffer size. */
  lemma {:induction false} MenuLoopTotal(mode: Mode, pages: seq<Page>, len: nat)
    ensures MenuLoop(mode, pages, len).Some? <==> len + TotalCharge(mode, pages) <= WEB_MENU_LEN || |pages| == 0
    decreases |pages|
  {
    if |pages| > 0 {
      MenuLoopTotal(mode, pages[1..], len + Charge(mode, pages[0]));
    }
  }

  /** `create_menu`: the head, one entry per page, the tail; `None` for NULL. */
  function Menu(mode: Mode, pages: seq<Page>): (r: Option<seq<char>>)
    ensures r.Some? ==> r.value == MENU_HEAD + Items(pages) + MENU_TAIL
  {
    match MenuLoop(mode, pages, MenuStart(mode))
    case None => None
    case Some(items) => Some(MENU_HEAD + items + MENU_TAIL)
  }

  lemma {:induction false} ItemsLength(pages: seq<Page>)
    ensures |Items(pages)| == TotalCharge(Corrected, pages)
    decreases |pages|
  {
    if |pages| > 0 {
      ItemsLength(pages[1..]);
    }
  }

  /** The corrected menu always fits `_web_menu` with its terminator, and is refused only when it would not. */
  lemma CorrectedMenuFits(pages: seq<Page>)
    ensures Menu(Corrected, pages).Some? ==> |Menu(Corrected, pages).value| < WEB_MENU_LEN
    ensures Menu(Corrected, pages).None? <==> |MENU_HEAD + Items(pages) + MENU_TAIL| >= WEB_MENU_LEN
  {
    MenuLoopTotal(Corrected, pages, MenuStart(Corrected));
    ItemsLength(pages);
  }

  /** Each entry is two bytes longer than the 19 the source charges for it. */
  lemma {:induction false} ChargeGap(pages: seq<Page>)
    ensures TotalCharge(Corrected, pages) == TotalCharge(AsWritten, pages) + 2 * |pages|
    decreases |pages|
  {
    if |pages| > 0 {
      ChargeGap(pages[1..]);
    }
  }

  /**
   As written, two pages whose path and title together have 40
   characters each pass the check (the running length reaches 252) but
   the menu written is 264 characters plus its NUL: 9 bytes past the end
   of the 256-byte `_web_menu`.
   */
  lemma AsWrittenMenuOverrun(p: Page, q: Page)
    requires NulFree(p.path) && NulFree(p.title) && |p.path| + |p.title| == 40
    requires NulFree(q.path) && NulFree(q.title) && |q.path| + |q.title| == 40
    ensures Menu(AsWritten, [p, q]).Some?
    ensures |Menu(AsWritten, [p, q]).value| + 1 == WEB_MENU_LEN + 9
  {
    CStrOfNulFree(p.path);
    CStrOfNulFree(p.title);
    CStrOfNulFree(q.path);
    CStrOfNulFree(q.title);
    TwoPagesCharge(p, q);
    assert TotalCharge(AsWritten, [p, q]) == 118;
    assert MenuStart(AsWritten) == 134;
    MenuLoopTotal(AsWritten, [p, q], MenuStart(AsWritten));
    assert MenuLoop(AsWritten, [p, q], MenuStart(AsWritten)).Some?;
    ItemsLength([p, q]);
    ChargeGap([p, q]);
    assert |Items([p, q])| == 122;
    assert |MENU_HEAD| == 129 && |MENU_TAIL| == 13;
    assert |Menu(AsWritten, [p, q]).value| == |MENU_HEAD| + |Items([p, q])| + |MENU_TAIL|;
  }

  lemma TwoPagesCharge(p: Page, q: Page)
    ensures TotalCharge(AsWritten, [p, q]) == Charge(AsWritten, p) + Charge(AsWritten, q)
  {
    assert [p, q][1..] == [q];
    assert [q][1..] == [];
    assert TotalCharge(AsWritten, [q]) == Charge(AsWritten, q) + TotalCharge(AsWritten, []);
    assert TotalCharge(AsWritten, [p, q]) == Charge(AsWritten, p) + TotalCharge(AsWritten, [q]);
  }

  /** Two such pages can both be registered: their paths differ. */
  lemma OverrunPagesRegister()
    ensures var p := Page(seq(20, _ => 'a'), seq(20, _ => 't'), PAGE_IS_HOME_PAGE, 0, None, None);
      var q := Page(seq(20, _ => 'b'), seq(20, _ => 't'), 0, 0, None, None);
      && DistinctPaths([p, q])
      && Menu(AsWritten, [p, q]).Some?
      && |Menu(AsWritten, [p, q]).value| + 1 > WEB_MENU_LEN
  {
    var p := Page(seq(20, _ => 'a'), seq(20, _ => 't'), PAGE_IS_HOME_PAGE, 0, None, None);
    var q := Page(seq(20, _ => 'b'), seq(20, _ => 't'), 0, 0, None, None);
    assert !SamePath(p.path, q.path) by {
      CStrOfNulFree(p.path);
      CStrOfNulFree(q.path);
      StrNCmpEqMeaning(p.path, q.path, MAX_WEB_PATH_NAME_LEN);
      assert Take(p.path, MAX_WEB_PATH_NAME_LEN)[0] != Take(q.path, MAX_WEB_PATH_NAME_LEN)[0];
    }
    AsWrittenMenuOverrun(p, q);
  }

  // ---------------------------------------------------------------------
  // Reading the menu back: the links it holds.

  /** `s` up to the first `d`. */
  function UpTo(s: seq<char>, d: char): (r: seq<char>)
    ensures r <= s && d !in r
    ensures |r| < |s| ==> s[|r|] == d
  {
    if |s| == 0 || s[0] == d then [] else [s[0]] + UpTo(s[1..], d)
  }

  /** Reading up to `d` stops at the first `d`, which starts `y`. */
  lemma {:induction false} UpToConcat(x: seq<char>, d: char, y: seq<char>)
    requires d !in x && |y| > 0 && y[0] == d
    ensures UpTo(x + y, d) == x
    decreases |x|
  {
    if |x| == 0 {
      assert x + y == y;
    } else {
      assert (x + y)[1..] == x[1..] + y;
      UpToConcat(x[1..], d, y);
    }
  }

  /** The text after a literal `lit` that `s` starts with. */
  function After(lit: seq<char>, s: seq<char>): Option<seq<char>> {
    if lit <= s then Some(s[|lit|..]) else None
  }

  lemma AfterConcat(lit: seq<char>, s: seq<char>)
    ensures After(lit, lit + s) == Some(s)
  {
    assert lit <= lit + s;
    assert (lit + s)[|lit|..] == s;
  }

  /** One menu entry at the start of `s`: its path, its title and what follows it. */
  function ParseItem(s: seq<char>): Option<(seq<char>, seq<char>, seq<char>)> {
    match After(MENU_ITEM_OPEN, s)
    case None => None
    case Some(r) => ParseLink(r)
  }

  /** The rest of an entry after `<a href="`: the path up to the closing quote. */
  function ParseLink(r: seq<char>): Option<(seq<char>, seq<char>, seq<char>)> {
    var path := UpTo(r, '"');
    match After(MENU_ITEM_MID, r[|path|..])
    case None => None
    case Some(r2) => ParseTitle(path, r2)
  }

  /** The rest of an entry after `">`: the title up to `</a>`. */
  function ParseTitle(path: seq<char>, r2: seq<char>): Option<(seq<char>, seq<char>, seq<char>)> {
    var title := UpTo(r2, '<');
    match After(MENU_ELEM_END, r2[|title|..])
    case None => None
    case Some(r3) => Some((path, title, r3))
  }

  /** The (path, title) of each link in a run of menu entries, or `None` if `s` is not such a run. */
  function ParseItems(s: seq<char>): Option<seq<(seq<char>, seq<char>)>>
    decreases |s|
  {
    if |s| == 0 then Some([])
    else match ParseItem(s)
      case None => None
      case Some((path, title, rest)) =>
        if |rest| >= |s| then None
        else match ParseItems(rest)
          case None => None
          case Some(more) => Some([(path, title)] + more)
  }

  /** Paths without a quote and titles without `<` can be read back from the entries. */
  predicate Linkable(p: Page) {
    '"' !in CStr(p.path) && '<' !in CStr(p.title)
  }

  function Links(pages: seq<Page>): (r: seq<(seq<char>, seq<char>)>)
    ensures |r| == |pages|
    decreases |pages|
  {
    if |pages| == 0 then [] else [(CStr(pages[0].path), CStr(pages[0].title))] + Links(pages[1..])
  }

  /** One entry of a linkable page parses back to its path and title. */
  lemma ParseTitleOf(title: seq<char>, path: seq<char>, rest: seq<char>)
    requires '<' !in title
    ensures ParseTitle(path, title + MENU_ELEM_END + rest) == Some((path, title, rest))
  {
    var r3 := MENU_ELEM_END + rest;
    UpToConcat(title, '<', r3);
    assert (title + r3)[|title|..] == r3;
    AfterConcat(MENU_ELEM_END, rest);
    assert title + MENU_ELEM_END + rest == title + r3;
  }

  lemma ParseLinkOf(path: seq<char>, title: seq<char>, rest: seq<char>)
    requires '"' !in path && '<' !in title
    ensures ParseLink(path + MENU_ITEM_MID + title + MENU_ELEM_END + rest) == Some((path, title, rest))
  {
    var r2 := title + MENU_ELEM_END + rest;
    var r1 := MENU_ITEM_MID + r2;
    assert path + MENU_ITEM_MID + title + MENU_ELEM_END + rest == path + r1;
    UpToConcat(path, '"', r1);
    assert (path + r1)[|path|..] == r1;
    AfterConcat(MENU_ITEM_MID, r2);
    ParseTitleOf(title, path, rest);
  }

  lemma ParseOneItem(p: Page, rest: seq<char>)
    requires Linkable(p)
    ensures ParseItem(MenuItem(p) + rest) == Some((CStr(p.path), CStr(p.title), rest))
  {
    var r := CStr(p.path) + MENU_ITEM_MID + CStr(p.title) + MENU_ELEM_END + rest;
    assert MenuItem(p) + rest == MENU_ITEM_OPEN + r;
    AfterConcat(MENU_ITEM_OPEN, r);
    ParseLinkOf(CStr(p.path), CStr(p.title), rest);
  }

  /** Round trip: the entries of linkable pages parse back to their paths and titles, in order. */
  lemma {:induction false} ParseItemsRoundTrip(pages: seq<Page>)
    requires forall j | 0 <= j < |pages| :: Linkable(pages[j])
    ensures ParseItems(Items(pages)) == Some(Links(pages))
    decreases |pages|
  {
    if |pages| > 0 {
      var rest := Items(pages[1..]);
      assert Items(pages) == MenuItem(pages[0]) + rest;
      ParseOneItem(pages[0], rest);
      ParseItemsRoundTrip(pages[1..]);
    }
  }

  // ---------------------------------------------------------------------
  // The 200 header.

  /** `snprintf(itembuf, 40, "Content-Length: %d\r\n", n)`: at most 39 characters are kept. */
  function ContentLengthItem(n: nat): (r: seq<char>)
    ensures |r| < MAX_HEADER_CONTENT_LEN
  {
    Take("Content-Length: " + Decimal(n) + "\r\n", MAX_HEADER_CONTENT_LEN - 1)
  }

  /**
   `CreateHeader200`: the status line, the Content-Length of the page
   head, title, menu and the caller's `contentlen` bytes of body, the
   Content-Type, and then the page head, title and menu. The size check
   is the source's: it leaves out the title and the head's tail.
   */
  function Header200(mode: Mode, pages: seq<Page>, contentlen: nat, title: seq<char>): (r: Option<seq<char>>)
    ensures Menu(mode, pages).None? ==> r.None?
  {
    match Menu(mode, pages)
    case None => None
    case Some(menu) => HeaderWithMenu(menu, contentlen, title)
  }

  /** The part of `CreateHeader200` after the menu has been built. */
  function HeaderWithMenu(menu: seq<char>, contentlen: nat, title: seq<char>): Option<seq<char>> {
    var total := contentlen + |CONTENT_HEAD| + |CStr(title)| + |CONTENT_HEAD_TAIL| + |menu|;
    var item := ContentLengthItem(total);
    var estimate := |HTTP_OK| + |item| + |CONTENT_HEAD| + (|CONTENT_TYPE| + 1) + |menu| + 1;
    if estimate < HEADER200_SIZE then
      Some(HTTP_OK + item + CONTENT_TYPE + CONTENT_HEAD + CStr(title) + CONTENT_HEAD_TAIL + menu)
    else None
  }

  /** The largest value of a C `int`. */
  const INT_MAX: nat := 0x7fff_ffff

  /** A numeral narrower than `k + 1` digits is all `%d` writes for values below 10^k. */
  lemma {:induction false} DecimalNarrow(n: nat, k: nat)
    requires 1 <= k && n < Pow10(k)
    ensures |Decimal(n)| <= k
    decreases n
  {
    if n >= 10 {
      assert Decimal(n) == Decimal(n / 10) + [DigitChar(n % 10)];
      DecimalNarrow(n / 10, k - 1);
    }
  }

  lemma IntFitsTenDigits(n: nat)
    requires n <= INT_MAX
    ensures |Decimal(n)| <= 10
  {
    assert Pow10(10) == 10_000_000_000 by {
      assert Pow10(5) == 100_000;
    }
    DecimalNarrow(n, 10);
  }

  /** The Content-Length line of a header whose count is a C `int` is written in full. */
  lemma ContentLengthItemFull(n: nat)
    requires n <= INT_MAX
    ensures ContentLengthItem(n) == "Content-Length: " + Decimal(n) + "\r\n"
  {
    IntFitsTenDigits(n);
  }

  /**
   The header announces, in a well-formed Content-Length field (section
   8.6 of RFC 9110), exactly the number of bytes that follow its blank
   line once the caller has sent its `contentlen` bytes of body, as long
   as that count is a C `int`.
   */
  lemma Header200ContentLength(mode: Mode, pages: seq<Page>, contentlen: nat, title: seq<char>)
    requires Header200(mode, pages, contentlen, title).Some?
    requires contentlen + |CONTENT_HEAD| + |CStr(title)| + |CONTENT_HEAD_TAIL| + |Menu(mode, pages).value| <= INT_MAX
    ensures var h := Header200(mode, pages, contentlen, title).value;
      exists n: nat, after: seq<char> ::
        && h == HTTP_OK + "Content-Length: " + Decimal(n) + "\r\n" + CONTENT_TYPE + after
        && n == |after| + contentlen
        && FoldDigits(0, Decimal(n)) == n
  {
    HeaderWithMenuContentLength(Menu(mode, pages).value, contentlen, title);
  }

  lemma HeaderWithMenuContentLength(menu: seq<char>, contentlen: nat, title: seq<char>)
    requires HeaderWithMenu(menu, contentlen, title).Some?
    requires contentlen + |CONTENT_HEAD| + |CStr(title)| + |CONTENT_HEAD_TAIL| + |menu| <= INT_MAX
    ensures var h := HeaderWithMenu(menu, contentlen, title).value;
      exists n: nat, after: seq<char> ::
        && h == HTTP_OK + "Content-Length: " + Decimal(n) + "\r\n" + CONTENT_TYPE + after
        && n == |after| + contentlen
        && FoldDigits(0, Decimal(n)) == n
  {
    var n := contentlen + |CONTENT_HEAD| + |CStr(title)| + |CONTENT_HEAD_TAIL| + |menu|;
    HeaderWithMenuShape(menu, contentlen, title);
    ContentLengthItemFull(n);
    DecimalRoundTrip(n);
    Announced(HeaderWithMenu(menu, contentlen, title).value, HTTP_OK, "Content-Length: ", "\r\n", CONTENT_TYPE,
              CONTENT_HEAD + CStr(title) + CONTENT_HEAD_TAIL + menu, n, contentlen);
  }

  /** The shape argument of the Content-Length lemmas, with the literals kept abstract. */
  lemma Announced(h: seq<char>, ok: seq<char>, name: seq<char>, crlf: seq<char>, ct: seq<char>,
                  after: seq<char>, n: nat, contentlen: nat)
    requires h == ok + (name + Decimal(n) + crlf) + ct + after
    requires n == |after| + contentlen && FoldDigits(0, Decimal(n)) == n
    ensures exists m: nat, a: seq<char> ::
      && h == ok + name + Decimal(m) + crlf + ct + a
      && m == |a| + contentlen
      && FoldDigits(0, Decimal(m)) == m
  {
    assert h == ok + name + Decimal(n) + crlf + ct + after;
  }

  lemma Regroup4(a: seq<char>, b: seq<char>, c: seq<char>, d: seq<char>, e: seq<char>)
    ensures a + b + c + d + e == a + (b + c + d + e)
  {
  }

  lemma HeaderWithMenuShape(menu: seq<char>, contentlen: nat, title: seq<char>)
    requires HeaderWithMenu(menu, contentlen, title).Some?
    ensures var n := contentlen + |CONTENT_HEAD| + |CStr(title)| + |CONTENT_HEAD_TAIL| + |menu|;
      HeaderWithMenu(menu, contentlen, title).value
      == HTTP_OK + ContentLengthItem(n) + CONTENT_TYPE + (CONTENT_HEAD + CStr(title) + CONTENT_HEAD_TAIL + menu)
  {
    var n := contentlen + |CONTENT_HEAD| + |CStr(title)| + |CONTENT_HEAD_TAIL| + |menu|;
    Regroup4(HTTP_OK + ContentLengthItem(n) + CONTENT_TYPE, CONTENT_HEAD, CStr(title), CONTENT_HEAD_TAIL, menu);
  }

  /**
   The source's size check is enough for the titles the firmware passes:
   with a title of at most 32 characters and a menu that fits its own
   buffer, the header and its NUL fit the 1024-byte `Header200` buffer.
   */
  lemma Header200Fits(mode: Mode, pages: seq<Page>, contentlen: nat, title: seq<char>)
    requires Header200(mode, pages, contentlen, title).Some?
    requires |CStr(title)| <= MAX_WEB_TITLE_LEN
    requires |Menu(mode, pages).value| < WEB_MENU_LEN
    ensures |Header200(mode, pages, contentlen, title).value| < HEADER200_SIZE
  {
  }

  // ---------------------------------------------------------------------
  // The fixed error responses.

  const BODY_404: seq<char> := "<html><head><title>404 Not Found</title></head>\n<body bgcolor=\"white\"><center><h1>404 Not Found</h1></center><hr><center>nginx/0.8.54</center></body></html>"
  const BODY_500: seq<char> := "<html><head><title>500 Internal Server Error</title></head>\n<body bgcolor=\"white\"><center><h1>500 Internal Server Error</h1></center><hr><center>nginx/0.8.54</center></body></html>"

  const STATUS_404: seq<char> := "HTTP/1.1 404 Not Found\r\n"
  const STATUS_500: seq<char> := "HTTP/1.1 500 Internal Server Error\r\n"

  /** `http1_1_404` and `http1_1_500` as written. */
  const HTTP_404: seq<char> := STATUS_404 + "Content-Length=162\r\n\r\n" + BODY_404
  const HTTP_500: seq<char> := STATUS_500 + "Content-Length=199\r\n\r\n" + BODY_500

  datatype ErrorStatus = NotFound | ServerError

  function ErrorBody(status: ErrorStatus): seq<char> {
    if status == NotFound then BODY_404 else BODY_500
  }

  function StatusLine(status: ErrorStatus): seq<char> {
    if status == NotFound then STATUS_404 else STATUS_500
  }

  /**
   The error response sent for `status`: the source's literal as
   written; corrected, the status line, a Content-Length field with the
   body's length, the blank line and the body.
   */
  function ErrorResponse(mode: Mode, status: ErrorStatus): seq<char> {
    if mode == AsWritten then (if status == NotFound then HTTP_404 else HTTP_500)
    else StatusLine(status) + "Content-Length: " + Decimal(|ErrorBody(status)|) + "\r\n\r\n" + ErrorBody(status)
  }

  lemma DecimalOfErrorFigures()
    ensures Decimal(162) == "162" && Decimal(199) == "199"
  {
  }

  /**
   As written, the figures after the field name (162 and 199) are not the
   bodies' lengths (156 and 180), and the field is not a Content-Length
   field at all: its name is followed by `=` instead of `: `.
   */
  lemma AsWrittenErrorLengths()
    ensures HTTP_404 == STATUS_404 + "Content-Length=" + Decimal(162) + "\r\n\r\n" + BODY_404 && |BODY_404| == 156
    ensures HTTP_500 == STATUS_500 + "Content-Length=" + Decimal(199) + "\r\n\r\n" + BODY_500 && |BODY_500| == 180
    ensures !("Content-Length: " <= HTTP_404[|STATUS_404|..]) && !("Content-Length: " <= HTTP_500[|STATUS_500|..])
  {
    NotFoundLiteral();
    ServerErrorLiteral();
  }

  lemma NotFoundLiteral()
    ensures HTTP_404 == STATUS_404 + "Content-Length=" + Decimal(162) + "\r\n\r\n" + BODY_404 && |BODY_404| == 156
    ensures !("Content-Length: " <= HTTP_404[|STATUS_404|..])
  {
    DecimalOfErrorFigures();
    assert HTTP_404[|STATUS_404|..][14] == '=';
  }

  lemma ServerErrorLiteral()
    ensures HTTP_500 == STATUS_500 + "Content-Length=" + Decimal(199) + "\r\n\r\n" + BODY_500 && |BODY_500| == 180
    ensures !("Content-Length: " <= HTTP_500[|STATUS_500|..])
  {
    DecimalOfErrorFigures();
    assert HTTP_500[|STATUS_500|..][14] == '=';
  }

  /** The corrected responses announce exactly their bodies' lengths in a well-formed field. */
  lemma CorrectedErrorLength(status: ErrorStatus)
    ensures exists n: nat ::
      && ErrorResponse(Corrected, status) == StatusLine(status) + "Content-Length: " + Decimal(n) + "\r\n\r\n" + ErrorBody(status)
      && FoldDigits(0, Decimal(n)) == |ErrorBody(status)|
  {
    DecimalRoundTrip(|ErrorBody(status)|);
  }
}

=== FILE: socket_io.dfy ===
/**
 The socket primitives the web server is built on, as explicit outcomes.

 A receive is one `RecvOutcome` (one byte, an orderly close, or an error
 number); a whole conversation is a finite sequence of them, and a trace
 that runs out stands for a receive that would still be blocked. A send
 is one integer result per `zsock_send` call, supplied as an oracle.
 */
module SocketIo {
  import opened CText

  const ENOENT: int := 2
  const EINTR: int := 4
  const EIO: int := 5
  const EAGAIN: int := 11
  const ENOMEM: int := 12
  const EEXIST: int := 17
  const EINVAL: int := 22

  datatype RecvOutcome = Byte(c: char) | Closed | Error(errno: int)

  /** `EAGAIN` and `EINTR` make the receive loops try again. */
  predicate Retryable(errno: int) {
    errno == EAGAIN || errno == EINTR
  }

  /** The trace without the retryable errors. */
  function WithoutRetries(ev: seq<RecvOutcome>): (r: seq<RecvOutcome>)
    ensures |r| <= |ev|
    ensures forall k | 0 <= k < |r| :: !(r[k].Error? && Retryable(r[k].errno))
    decreases |ev|
  {
    if |ev| == 0 then []
    else if ev[0].Error? && Retryable(ev[0].errno) then WithoutRetries(ev[1..])
    else [ev[0]] + WithoutRetries(ev[1..])
  }

  /** The bytes carried by a trace, in order. */
  function Bytes(s: seq<char>): (r: seq<RecvOutcome>)
    ensures |r| == |s|
    ensures forall i | 0 <= i < |s| :: r[i] == Byte(s[i])
  {
    if |s| == 0 then [] else [Byte(s[0])] + Bytes(s[1..])
  }

  lemma BytesAppend(a: seq<char>, b: seq<char>)
    ensures Bytes(a + b) == Bytes(a) + Bytes(b)
  {
    assert Bytes(a + b) == Bytes(a) + Bytes(b);
  }

  /** SENDALL_MAX_LEN: the most one `zsock_send` call is offered. */
  const SENDALL_MAX_LEN: nat := 1024

  function Min(a: int, b: int): int {
    if a < b then a else b
  }

  /**
   Result of `sendall`: `rc` is 0 or the first negative send result,
   `sent` the bytes the socket accepted, `calls` the number of send calls,
   and `blocked` marks an oracle that ran out before the data was sent.
   */
  datatype SendOutcome = SendOutcome(rc: int, sent: seq<char>, calls: nat, blocked: bool)

  /**
   `sendall`: offer at most SENDALL_MAX_LEN bytes per call, advance by the
   count the socket accepted, and return the first negative result
   unchanged. A count larger than the chunk offered is read as the whole
   chunk (a socket never accepts more than it is given).
   */
  function SendAll(data: seq<char>, results: seq<int>): (o: SendOutcome)
    ensures o.sent <= data
    ensures o.calls <= |results|
    ensures o.rc <= 0
    ensures o.rc == 0 && !o.blocked ==> o.sent == data
    ensures o.rc < 0 ==> !o.blocked && 1 <= o.calls && results[o.calls - 1] == o.rc
    ensures o.blocked ==> o.rc == 0 && o.calls == |results| && |o.sent| < |data|
    decreases |results|
  {
    if |data| == 0 then SendOutcome(0, [], 0, false)
    else if |results| == 0 then SendOutcome(0, [], 0, true)
    else if results[0] < 0 then SendOutcome(results[0], [], 1, false)
    else
      var n := Min(results[0], Min(|data|, SENDALL_MAX_LEN));
      var tail := SendAll(data[n..], results[1..]);
      assert data[..n] + data[n..] == data;
      SendOutcome(tail.rc, data[..n] + tail.sent, tail.calls + 1, tail.blocked)
  }

  /** Every send before the one `sendall` stops at accepted something or nothing, never failed. */
  lemma {:induction false} SendAllFirstFailure(data: seq<char>, results: seq<int>)
    ensures var o := SendAll(data, results);
      forall j | 0 <= j < o.calls && (o.rc < 0 ==> j < o.calls - 1) :: results[j] >= 0
    decreases |results|
  {
    if |data| > 0 && |results| > 0 && results[0] >= 0 {
      var n := Min(results[0], Min(|data|, SENDALL_MAX_LEN));
      SendAllFirstFailure(data[n..], results[1..]);
    }
  }

  /** `o` preceded by `calls` earlier calls that accepted `sent`. */
  function After(sent: seq<char>, calls: nat, o: SendOutcome): SendOutcome {
    SendOutcome(o.rc, sent + o.sent, calls + o.calls, o.blocked)
  }

  /** One successful send call, seen from inside the loop. */
  lemma SendAllStep(data: seq<char>, results: seq<int>, off: nat, calls: nat, sent: seq<char>)
    requires off < |data| && calls < |results| && results[calls] >= 0
    ensures var n := Min(results[calls], Min(|data| - off, SENDALL_MAX_LEN));
      After(sent, calls, SendAll(data[off..], results[calls..]))
      == After(sent + data[off..off + n], calls + 1, SendAll(data[off + n..], results[calls + 1..]))
    ensures var n := Min(results[calls], Min(|data| - off, SENDALL_MAX_LEN));
      off + n <= |data| && data[..off] + data[off..off + n] == data[..off + n]
  {
    var n := Min(results[calls], Min(|data| - off, SENDALL_MAX_LEN));
    assert data[off..][n..] == data[off + n..];
    assert results[calls..][1..] == results[calls + 1..];
    assert data[off..][..n] == data[off..off + n];
  }

  /** The loop's two early exits: no more results, or a failed call. */
  lemma SendAllExit(data: seq<char>, results: seq<int>, off: nat, calls: nat)
    requires off < |data| && calls <= |results|
    ensures calls == |results| ==> SendAll(data[off..], results[calls..]) == SendOutcome(0, [], 0, true)
    ensures calls < |results| && results[calls] < 0 ==>
      SendAll(data[off..], results[calls..]) == SendOutcome(results[calls], [], 1, false)
  {
  }

  /** The loop of `sendall`, written as the source writes it. */
  method SendAllLoop(data: seq<char>, results: seq<int>) returns (rc: int, sent: seq<char>, calls: nat, blocked: bool)
    ensures SendOutcome(rc, sent, calls, blocked) == SendAll(data, results)
    ensures rc == 0 && !blocked ==> sent == data
    ensures rc < 0 ==> results[calls - 1] == rc
  {
    var off: nat := 0;
    sent := [];
    calls := 0;
    rc := 0;
    blocked := false;
    while off < |data|
      invariant off <= |data| && calls <= |results|
      invariant sent == data[..off]
      invariant SendAll(data, results) == After(sent, calls, SendAll(data[off..], results[calls..]))
      decreases |results| - calls
    {
      if calls == |results| {
        SendAllExit(data, results, off, calls);
        blocked := true;
        assert SendAll(data, results) == SendOutcome(0, sent, calls, true);
        return;
      }
      var outLen := results[calls];
      if outLen < 0 {
        SendAllExit(data, results, off, calls);
        assert SendAll(data, results) == SendOutcome(outLen, sent, calls + 1, false);
        calls := calls + 1;
        rc := outLen;
        return;
      }
      var n := Min(outLen, Min(|data| - off, SENDALL_MAX_LEN));
      SendAllStep(data, results, off, calls, sent);
      sent := sent + data[off..off + n];
      off := off + n;
      calls := calls + 1;
    }
    assert data[off..] == [];
    assert SendAll(data, results) == SendOutcome(0, sent, calls, false);
  }

  /** Number of calls when the socket accepts every chunk in full. */
  function Chunks(len: nat): nat {
    (len + SENDALL_MAX_LEN - 1) / SENDALL_MAX_LEN
  }

  /**
   When every call accepts the whole chunk offered, `sendall` succeeds
   after exactly ceil(len / 1024) calls: a buffer over 1024 bytes takes
   several sends.
   */
  lemma {:induction false} SendAllFullChunks(data: seq<char>, results: seq<int>)
    requires |results| >= Chunks(|data|)
    requires forall j | 0 <= j < |results| :: results[j] >= SENDALL_MAX_LEN
    ensures SendAll(data, results) == SendOutcome(0, data, Chunks(|data|), false)
    decreases |data|
  {
    if |data| > 0 {
      var n := Min(|data|, SENDALL_MAX_LEN);
      SendAllFullChunks(data[n..], results[1..]);
      assert data[..n] + data[n..] == data;
    }
  }

  /**
   When the k-th call fails after k - 1 calls that each accepted a full
   chunk, `sendall` reports that failure after exactly k calls: the
   remaining chunks are never offered.
   */
  lemma {:induction false} SendAllStopsAtFailure(data: seq<char>, results: seq<int>, k: nat)
    requires 0 < k <= |results|
    requires |data| > (k - 1) * SENDALL_MAX_LEN
    requires forall j | 0 <= j < k - 1 :: results[j] >= SENDALL_MAX_LEN
    requires results[k - 1] < 0
    ensures SendAll(data, results).rc == results[k - 1]
    ensures SendAll(data, results).calls == k
    ensures |SendAll(data, results).sent| == (k - 1) * SENDALL_MAX_LEN
    decreases k
  {
    if k > 1 {
      var n := Min(|data|, SENDALL_MAX_LEN);
      assert n == SENDALL_MAX_LEN;
      SendAllStopsAtFailure(data[n..], results[1..], k - 1);
    }
  }
}

=== FILE: ssid_list.dfy ===
/**
 The list of SSIDs a Wi-Fi scan found: a singly linked list of nodes with
 head and tail pointers. Each scan result is appended at the tail unless
 an entry already agrees with it; when the scan completes the list is
 handed to the scan-done callback and freed.

 The heap is a map from addresses to nodes. The allocator hands out
 `brk` and moves it on, so a new node never aliases a live one. The order
 of the chain from head to tail is not stored anywhere in the firmware; the
 model names it `order` and `Chain` states that the pointers realise it.
 */
module SsidList {
  import opened CText

  type Ptr = nat

  datatype Node = Node(ssid: seq<char>, next: Option<Ptr>)

  datatype List = List(heap: map<Ptr, Node>, head: Option<Ptr>, tail: Option<Ptr>, brk: Ptr)

  /** A list together with the chain its pointers spell. */
  datatype Tracked = Tracked(list: List, order: seq<Ptr>)

  predicate Distinct<T(==)>(s: seq<T>) {
    forall i, j | 0 <= i < j < |s| :: s[i] != s[j]
  }

  /**
   The head/tail invariant: the chain `order` starts at `head`, follows
   `next`, ends at `tail` whose `next` is NULL, visits each node once,
   and `head` is NULL exactly when `tail` is.
   */
  predicate Chain(l: List, order: seq<Ptr>) {
    && Distinct(order)
    && (forall p | p in l.heap :: p < l.brk)
    && (forall i | 0 <= i < |order| :: order[i] in l.heap)
    && (|order| == 0 ==> l.head.None? && l.tail.None?)
    && (|order| > 0 ==> l.head == Some(order[0]) && l.tail == Some(order[|order| - 1]))
    && (forall i | 0 <= i < |order| :: l.heap[order[i]].next == NextOf(order, i))
  }

  /** Where `next` of the `i`-th node of the chain points: the node after it, or NULL for the last. */
  function NextOf(order: seq<Ptr>, i: nat): Option<Ptr> {
    if i + 1 < |order| then Some(order[i + 1]) else None
  }

  predicate Valid(t: Tracked) {
    Chain(t.list, t.order)
  }

  /** The SSIDs in list order. */
  function Items(t: Tracked): (r: seq<seq<char>>)
    requires Valid(t)
    ensures |r| == |t.order|
  {
    seq(|t.order|, i requires 0 <= i < |t.order| => t.list.heap[t.order[i]].ssid)
  }

  /** `ssid_init_list`: every node freed, head and tail NULL. */
  function Clear(t: Tracked): (r: Tracked)
    ensures Valid(r) && Items(r) == []
  {
    Tracked(List(map[], None, None, t.list.brk), [])
  }

  // ---------------------------------------------------------------------
  // Adding a scan result.

  /**
   Whether a stored entry counts as the scanned SSID. As written the test
   is `strncmp(ssid, entry, ssid_length) == 0`, which also holds when the
   scanned SSID is a prefix of a longer entry; corrected, the entry must
   be exactly the string that would be stored.
   */
  predicate Match(mode: Mode, ssid: seq<char>, len: nat, entry: seq<char>) {
    if mode == AsWritten then StrNCmpEq(ssid, entry, len) else entry == StrNCpy(ssid, len)
  }

  predicate Seen(mode: Mode, items: seq<seq<char>>, ssid: seq<char>, len: nat) {
    exists i | 0 <= i < |items| :: Match(mode, ssid, len, items[i])
  }

  /**
   The search loop of `ssid_add_item`, following `next` pointers from the
   head: it reports a match exactly when some entry of the list matches.
   */
  method FindMatch(mode: Mode, t: Tracked, ssid: seq<char>, len: nat) returns (found: bool)
    requires Valid(t)
    ensures found <==> Seen(mode, Items(t), ssid, len)
  {
    var it := t.list.head;
    var i := 0;
    while it.Some?
      invariant 0 <= i <= |t.order|
      invariant it == if i < |t.order| then Some(t.order[i]) else None
      invariant forall j | 0 <= j < i :: !Match(mode, ssid, len, Items(t)[j])
      decreases |t.order| - i
    {
      var node := t.list.heap[it.value];
      NodeAt(t, i);
      if Match(mode, ssid, len, node.ssid) {
        assert Match(mode, ssid, len, Items(t)[i]);
        return true;
      }
      it := node.next;
      i := i + 1;
    }
    NoneSeen(mode, Items(t), ssid, len);
    return false;
  }

  lemma NoneSeen(mode: Mode, items: seq<seq<char>>, ssid: seq<char>, len: nat)
    requires forall j | 0 <= j < |items| :: !Match(mode, ssid, len, items[j])
    ensures !Seen(mode, items, ssid, len)
  {
  }

  /** The `i`-th node of the chain: its SSID is the `i`-th item and `next` leads to the one after. */
  lemma NodeAt(t: Tracked, i: nat)
    requires Valid(t) && i < |t.order|
    ensures t.list.heap[t.order[i]].ssid == Items(t)[i]
    ensures t.list.heap[t.order[i]].next == NextOf(t.order, i)
  {
  }

  /**
   `ssid_add_item`: unless an entry matches, allocate a node and a string
   of `len + 1` bytes (`nodeOk`, `strOk` are the outcomes of the two
   `malloc`s), copy at most `len` characters of the SSID up to its NUL,
   and link the node at the tail.
   */
  function Add(mode: Mode, t: Tracked, ssid: seq<char>, len: nat, nodeOk: bool, strOk: bool): (r: Tracked)
    requires Valid(t)
    ensures Valid(r)
  {
    if Seen(mode, Items(t), ssid, len) || !nodeOk || !strOk then t
    else
      var r := Linked(t, StrNCpy(ssid, len));
      LinkedChain(t, StrNCpy(ssid, len));
      r
  }

  /** A fresh node at `brk` holding `s`, linked after the tail (or as the head of an empty list). */
  function Linked(t: Tracked, s: seq<char>): Tracked
    requires Valid(t)
  {
    var p := t.list.brk;
    var l := t.list;
    var heap := if l.tail.Some? then l.heap[l.tail.value := l.heap[l.tail.value].(next := Some(p))] else l.heap;
    Tracked(List(heap[p := Node(s, None)], if l.head.None? then Some(p) else l.head, Some(p), p + 1), t.order + [p])
  }

  /** Linking a fresh node after the tail extends the chain by that node. */
  lemma LinkedChain(t: Tracked, s: seq<char>)
    requires Valid(t)
    ensures Valid(Linked(t, s))
    ensures Items(Linked(t, s)) == Items(t) + [s]
  {
    var r := Linked(t, s);
    forall i | 0 <= i < |r.order|
      ensures r.order[i] in r.list.heap
      ensures r.list.heap[r.order[i]].next == NextOf(r.order, i)
      ensures r.list.heap[r.order[i]].ssid == (Items(t) + [s])[i]
    {
      LinkedNode(t, s, i);
    }
    assert t.list.brk !in t.order;
  }

  /** The `i`-th node after linking: the old node with `next` redirected if it was the tail, or the new one. */
  lemma LinkedNode(t: Tracked, s: seq<char>, i: nat)
    requires Valid(t) && i <= |t.order|
    ensures var r := Linked(t, s);
      && r.order[i] in r.list.heap
      && r.list.heap[r.order[i]].next == NextOf(r.order, i)
      && r.list.heap[r.order[i]].ssid == (Items(t) + [s])[i]
  {
    var n := |t.order|;
    var r := Linked(t, s);
    if i < n {
      NodeAt(t, i);
      assert t.order[i] < t.list.brk;
      if i + 1 < n {
        assert t.order[i] != t.order[n - 1];
      }
    }
  }

  /** What `Add` does to the SSIDs: nothing if an entry matches or an allocation fails, else the copy goes last. */
  lemma AddItems(mode: Mode, t: Tracked, ssid: seq<char>, len: nat, nodeOk: bool, strOk: bool)
    requires Valid(t)
    ensures var r := Add(mode, t, ssid, len, nodeOk, strOk);
      && (Seen(mode, Items(t), ssid, len) || !nodeOk || !strOk ==> r == t)
      && (!Seen(mode, Items(t), ssid, len) && nodeOk && strOk ==> Items(r) == Items(t) + [StrNCpy(ssid, len)])
  {
  }

  /** The copy stored for a scanned SSID counts as that SSID in either mode. */
  lemma StoredMatches(mode: Mode, ssid: seq<char>, len: nat)
    ensures Match(mode, ssid, len, StrNCpy(ssid, len))
  {
    var e := StrNCpy(ssid, len);
    StrNCmpEqMeaning(ssid, e, len);
    CStrOfNulFree(e);
  }

  /** Adding the same scan result twice adds it once. */
  lemma AddIdempotent(mode: Mode, t: Tracked, ssid: seq<char>, len: nat, n2: bool, s2: bool)
    requires Valid(t)
    ensures var r := Add(mode, t, ssid, len, true, true);
      Add(mode, r, ssid, len, n2, s2) == r
  {
    var r := Add(mode, t, ssid, len, true, true);
    AddItems(mode, t, ssid, len, true, true);
    if !Seen(mode, Items(t), ssid, len) {
      StoredMatches(mode, ssid, len);
      assert Items(r)[|Items(t)|] == StrNCpy(ssid, len);
    }
  }

  /** The list never holds the same SSID twice, in either mode. */
  lemma AddKeepsDistinct(mode: Mode, t: Tracked, ssid: seq<char>, len: nat, nodeOk: bool, strOk: bool)
    requires Valid(t) && Distinct(Items(t))
    ensures Distinct(Items(Add(mode, t, ssid, len, nodeOk, strOk)))
  {
    AddItems(mode, t, ssid, len, nodeOk, strOk);
    StoredMatches(mode, ssid, len);
  }

  // ---------------------------------------------------------------------
  // Scan events.

  datatype ScanEvent =
    | ScanResult(ssid: seq<char>, len: nat, nodeOk: bool, strOk: bool)
    | ScanDone

  datatype Handled = Handled(t: Tracked, delivered: Option<seq<seq<char>>>)

  /**
   The Wi-Fi event handler for the two scan events: a result is added;
   scan done hands the list to the callback, when one is set, and clears it.
   */
  function OnScanEvent(mode: Mode, t: Tracked, ev: ScanEvent, hasCallback: bool): (r: Handled)
    requires Valid(t)
    ensures Valid(r.t)
    ensures ev.ScanDone? ==> Items(r.t) == [] && (r.delivered.Some? <==> hasCallback)
    ensures ev.ScanDone? && hasCallback ==> r.delivered == Some(Items(t))
    ensures ev.ScanResult? ==> r.delivered.None?
  {
    match ev
    case ScanResult(ssid, len, nodeOk, strOk) => Handled(Add(mode, t, ssid, len, nodeOk, strOk), None)
    case ScanDone => Handled(Clear(t), if hasCallback then Some(Items(t)) else None)
  }

  /** The list after a run of scan results. */
  function AddAll(mode: Mode, t: Tracked, results: seq<ScanEvent>): (r: Tracked)
    requires Valid(t)
    requires forall i | 0 <= i < |results| :: results[i].ScanResult?
    ensures Valid(r)
    decreases |results|
  {
    if |results| == 0 then t
    else
      var last := results[|results| - 1];
      Add(mode, AddAll(mode, t, results[..|results| - 1]), last.ssid, last.len, last.nodeOk, last.strOk)
  }

  /** The reference list: each name once, in the order first seen. */
  function FirstSeen(names: seq<seq<char>>): (r: seq<seq<char>>)
    decreases |names|
  {
    if |names| == 0 then []
    else
      var prev := FirstSeen(names[..|names| - 1]);
      if names[|names| - 1] in prev then prev else prev + [names[|names| - 1]]
  }

  /** The strings stored for a run of scan results. */
  function Stored(results: seq<ScanEvent>): (r: seq<seq<char>>)
    requires forall i | 0 <= i < |results| :: results[i].ScanResult?
    ensures |r| == |results|
  {
    seq(|results|, i requires 0 <= i < |results| => StrNCpy(results[i].ssid, results[i].len))
  }

  predicate AllocOk(results: seq<ScanEvent>) {
    forall i | 0 <= i < |results| :: results[i].ScanResult? && results[i].nodeOk && results[i].strOk
  }

  /**
   Corrected, a scan whose allocations succeed leaves each SSID exactly
   once, in the order the scan first reported it.
   */
  lemma {:induction false} CorrectedScanIsFirstSeen(t: Tracked, results: seq<ScanEvent>)
    requires Valid(t) && Items(t) == [] && AllocOk(results)
    ensures Items(AddAll(Corrected, t, results)) == FirstSeen(Stored(results))
    decreases |results|
  {
    if |results| > 0 {
      var front := results[..|results| - 1];
      var last := results[|results| - 1];
      assert AllocOk(front);
      CorrectedScanIsFirstSeen(t, front);
      assert Stored(results)[..|results| - 1] == Stored(front);
      var u := AddAll(Corrected, t, front);
      AddItems(Corrected, u, last.ssid, last.len, true, true);
      assert Seen(Corrected, Items(u), last.ssid, last.len) <==> StrNCpy(last.ssid, last.len) in Items(u);
    }
  }

  /**
   As written, a scan that reports `abc` and then `ab` keeps only `abc`:
   `strncmp("ab", "abc", 2)` is 0, so the shorter network is never
   offered. Corrected, both are listed.
   */
  lemma AsWrittenDropsPrefix(t: Tracked)
    requires Valid(t) && Items(t) == []
    ensures var results := [ScanResult("abc", 3, true, true), ScanResult("ab", 2, true, true)];
      && Items(AddAll(AsWritten, t, results)) == ["abc"]
      && Items(AddAll(Corrected, t, results)) == ["abc", "ab"]
  {
    var a := ScanResult("abc", 3, true, true);
    var b := ScanResult("ab", 2, true, true);
    AddAllPair(AsWritten, t, a, b);
    AddAllPair(Corrected, t, a, b);
    FirstStored(AsWritten, t);
    FirstStored(Corrected, t);
    PrefixSeenAsWritten(Add(AsWritten, t, "abc", 3, true, true));
    PrefixKeptCorrected(Add(Corrected, t, "abc", 3, true, true));
  }

  /** Two scan results are added one after the other. */
  lemma AddAllPair(mode: Mode, t: Tracked, a: ScanEvent, b: ScanEvent)
    requires Valid(t) && a.ScanResult? && b.ScanResult?
    ensures AddAll(mode, t, [a, b])
         == Add(mode, Add(mode, t, a.ssid, a.len, a.nodeOk, a.strOk), b.ssid, b.len, b.nodeOk, b.strOk)
  {
    var rs := [a, b];
    assert rs[..1] == [a] && rs[1] == b;
    assert [a][..0] == [];
    assert AddAll(mode, t, [a]) == Add(mode, AddAll(mode, t, []), a.ssid, a.len, a.nodeOk, a.strOk);
  }

  /** The first network of a scan into an empty list is stored. */
  lemma FirstStored(mode: Mode, t: Tracked)
    requires Valid(t) && Items(t) == []
    ensures Items(Add(mode, t, "abc", 3, true, true)) == ["abc"]
  {
    AddItems(mode, t, "abc", 3, true, true);
    CStrOfNulFree("abc");
    assert StrNCpy("abc", 3) == "abc";
  }

  /** As written, `ab` matches the stored `abc` on its two characters and is dropped. */
  lemma PrefixSeenAsWritten(u: Tracked)
    requires Valid(u) && Items(u) == ["abc"]
    ensures Add(AsWritten, u, "ab", 2, true, true) == u
  {
    StrNCmpEqMeaning("ab", "abc", 2);
    CStrOfNulFree("abc");
    CStrOfNulFree("ab");
    assert Take("abc", 2) == "ab";
    assert Take("ab", 2) == "ab";
    assert Match(AsWritten, "ab", 2, Items(u)[0]);
    AddItems(AsWritten, u, "ab", 2, true, true);
  }

  /** Corrected, `ab` is not `abc` and is stored after it. */
  lemma PrefixKeptCorrected(v: Tracked)
    requires Valid(v) && Items(v) == ["abc"]
    ensures Items(Add(Corrected, v, "ab", 2, true, true)) == ["abc", "ab"]
  {
    CStrOfNulFree("ab");
    assert StrNCpy("ab", 2) == "ab";
    assert !Match(Corrected, "ab", 2, Items(v)[0]);
    AddItems(Corrected, v, "ab", 2, true, true);
  }
}

=== FILE: wifi.dfy ===
/**
 The Wi-Fi helper logic: the MAC address text and the access-point SSID
 derived from it, the start-up choice between the device's own access
 point and a station connection, the connect retry loop, scanning, and
 the flag that says whether the access point is up.
 */
module Wifi {
  import opened CText
  import NvsData
  import SsidList

  const NVS_DOMAIN_WIFI: Byte := 1
  const NVS_ID_WIFI_SSID: Byte := 0
  const NVS_ID_WIFI_PSK: Byte := 1
  /** One past the last Wi-Fi record id: the number of ids the domain registers. */
  const NVS_ID_WIFI_SENTINAL: Byte := 3

  /** `WIFI_SSID_MAX_LEN` and `WIFI_PSK_MAX_LEN` of Zephyr's Wi-Fi management interface. */
  const WIFI_SSID_MAX_LEN: nat := 32
  const WIFI_PSK_MAX_LEN: nat := 64

  /** The `macbuf` of `Mac2String`: 17 characters and the NUL. */
  const MAC_STRING_SIZE: nat := 18

  /** The suffix appended to the access point's SSID: six hex digits. */
  const SUFFIX_LEN: nat := 6

  /** The connect attempts of `ob_wifi_connect`. */
  const NR_TRIES: nat := 20

  // ---------------------------------------------------------------------
  // MAC address text.

  /** `Mac2String`: `%02x:%02x:%02x:%02x:%02x:%02x`. */
  function MacString(mac: seq<Byte>): (r: seq<char>)
    requires |mac| == 6
    ensures |r| + 1 == MAC_STRING_SIZE
  {
    Hex2(mac[0]) + [':'] + Hex2(mac[1]) + [':'] + Hex2(mac[2]) + [':'] + Hex2(mac[3]) + [':'] + Hex2(mac[4]) + [':'] + Hex2(mac[5])
  }

  predicate IsHex(c: char) {
    '0' <= c <= '9' || 'a' <= c <= 'f'
  }

  /** Reading back text in the `Mac2String` format: six lowercase hex pairs separated by colons. */
  function ParseMac(s: seq<char>): (r: Option<seq<Byte>>)
    ensures r.Some? ==> |r.value| == 6
  {
    if |s| == 17 && (forall k | 0 <= k < 5 :: s[3 * k + 2] == ':')
       && (forall k | 0 <= k < 6 :: IsHex(s[3 * k]) && IsHex(s[3 * k + 1]))
    then Some(seq(6, k requires 0 <= k < 6 => HexValue(s[3 * k]) * 16 + HexValue(s[3 * k + 1])))
    else None
  }

  lemma HexDigitRoundTrip(d: nat)
    requires d < 16
    ensures IsHex(HexDigit(d)) && HexValue(HexDigit(d)) == d
  {
  }

  lemma HexCharRoundTrip(c: char)
    requires IsHex(c)
    ensures HexDigit(HexValue(c)) == c
  {
  }

  /** Where each octet's digits and each colon sit in the text. */
  lemma MacStringLayout(mac: seq<Byte>)
    requires |mac| == 6
    ensures var s := MacString(mac);
      && (forall k | 0 <= k < 6 :: s[3 * k] == Hex2(mac[k])[0] && s[3 * k + 1] == Hex2(mac[k])[1])
      && (forall k | 0 <= k < 5 :: s[3 * k + 2] == ':')
  {
    var s := MacString(mac);
    forall k | 0 <= k < 6
      ensures s[3 * k] == Hex2(mac[k])[0] && s[3 * k + 1] == Hex2(mac[k])[1]
    {
    }
  }

  /** The text reads back as the address it was made from. */
  lemma MacRoundTrip(mac: seq<Byte>)
    requires |mac| == 6
    ensures ParseMac(MacString(mac)) == Some(mac)
  {
    var s := MacString(mac);
    MacStringLayout(mac);
    forall k | 0 <= k < 6
      ensures IsHex(s[3 * k]) && IsHex(s[3 * k + 1])
      ensures HexValue(s[3 * k]) * 16 + HexValue(s[3 * k + 1]) == mac[k]
    {
      HexDigitRoundTrip(mac[k] / 16);
      HexDigitRoundTrip(mac[k] % 16);
    }
    var parsed := seq(6, k requires 0 <= k < 6 => HexValue(s[3 * k]) * 16 + HexValue(s[3 * k + 1]));
    assert parsed == mac;
  }

  /** One hex pair written back from its value: the same two characters. */
  lemma PairRoundTrip(hi: char, lo: char)
    requires IsHex(hi) && IsHex(lo)
    ensures HexValue(hi) * 16 + HexValue(lo) < 0x100
    ensures Hex2(HexValue(hi) * 16 + HexValue(lo)) == [hi, lo]
  {
    HexCharRoundTrip(hi);
    HexCharRoundTrip(lo);
  }

  /** Text that reads as an address is exactly that address's text: the format has one spelling per address. */
  lemma ParseRoundTrip(s: seq<char>)
    requires ParseMac(s).Some?
    ensures MacString(ParseMac(s).value) == s
  {
    var mac := ParseMac(s).value;
    ParsedPair(s, 0);
    ParsedPair(s, 1);
    ParsedPair(s, 2);
    ParsedPair(s, 3);
    ParsedPair(s, 4);
    ParsedPair(s, 5);
    assert s[2] == ':' && s[5] == ':' && s[8] == ':' && s[11] == ':' && s[14] == ':' by {
      assert s[3 * 0 + 2] == ':' && s[3 * 1 + 2] == ':' && s[3 * 2 + 2] == ':';
      assert s[3 * 3 + 2] == ':' && s[3 * 4 + 2] == ':';
    }
    assert s == s[0..2] + [':'] + s[3..5] + [':'] + s[6..8] + [':'] + s[9..11] + [':'] + s[12..14] + [':'] + s[15..17];
  }

  /** Pair `k` of a parsed MAC string prints back as itself. */
  lemma ParsedPair(s: seq<char>, k: nat)
    requires ParseMac(s).Some? && k < 6
    ensures Hex2(ParseMac(s).value[k]) == s[3 * k..3 * k + 2]
  {
    PairRoundTrip(s[3 * k], s[3 * k + 1]);
  }

  // ---------------------------------------------------------------------
  // The access point's SSID.

  /** Characters 9, 10, 12, 13, 15 and 16 of the MAC text. */
  function ApSuffix(mad: seq<char>): (r: seq<char>)
    requires |mad| + 1 >= MAC_STRING_SIZE
    ensures |r| == SUFFIX_LEN
  {
    [mad[9], mad[10], mad[12], mad[13], mad[15], mad[16]]
  }

  /** The suffix is the last three octets of the address as six hex digits. */
  lemma ApSuffixOctets(mac: seq<Byte>)
    requires |mac| == 6
    ensures ApSuffix(MacString(mac)) == Hex2(mac[3]) + Hex2(mac[4]) + Hex2(mac[5])
  {
    MacStringLayout(mac);
    assert 9 == 3 * 3 && 12 == 3 * 4 && 15 == 3 * 5;
  }

  datatype ApName = ApName(ssid: seq<char>, overrun: bool)

  /**
   `wifi_ap_ssid` as `ob_wifi_init` fills it: the configured prefix, then
   the suffix when the MAC address could be read (`mac` is `None` when
   the access-point interface is missing). `overrun` records a copy that
   does not fit the 32-byte array with its NUL.
   */
  function ApSsid(prefix: seq<char>, mac: Option<seq<Byte>>): (r: ApName)
    requires mac.Some? ==> |mac.value| == 6
    ensures CStr(prefix) <= r.ssid
    ensures r.overrun <==> |r.ssid| >= WIFI_SSID_MAX_LEN
  {
    var text := CStr(prefix) + (if mac.Some? then ApSuffix(MacString(mac.value)) else []);
    ApName(text, |text| + 1 > WIFI_SSID_MAX_LEN)
  }

  /**
   With a prefix of at most 25 characters the SSID fits, and its last six
   characters read back as the last three octets of the address.
   */
  lemma ApSsidIdentifiesDevice(prefix: seq<char>, mac: seq<Byte>)
    requires |mac| == 6 && |CStr(prefix)| + SUFFIX_LEN < WIFI_SSID_MAX_LEN
    ensures var r := ApSsid(prefix, Some(mac));
      var tail := r.ssid[|r.ssid| - SUFFIX_LEN..];
      && !r.overrun && |r.ssid| == |CStr(prefix)| + SUFFIX_LEN
      && forall k | 0 <= k < 3 :: HexValue(tail[2 * k]) * 16 + HexValue(tail[2 * k + 1]) == mac[3 + k]
  {
    var r := ApSsid(prefix, Some(mac));
    ApSuffixOctets(mac);
    assert r.ssid[|r.ssid| - SUFFIX_LEN..] == Hex2(mac[3]) + Hex2(mac[4]) + Hex2(mac[5]);
  }

  /** The SSID overruns `wifi_ap_ssid` exactly when the prefix has more than 25 characters. */
  lemma ApSsidFits(prefix: seq<char>, mac: seq<Byte>)
    requires |mac| == 6
    ensures ApSsid(prefix, Some(mac)).overrun <==> |CStr(prefix)| > WIFI_SSID_MAX_LEN - SUFFIX_LEN - 1
  {
  }

  // ---------------------------------------------------------------------
  // Start-up.

  /** The outcome of the non-volatile store's own initialisation. */
  datatype NvsPlatform = NvsPlatform(inited: bool, ready: bool, pageInfoRc: int, mountRc: int)

  datatype Start = StartAp | Station | StationThenAp

  datatype Startup = Startup(rc: int, nvsInited: bool, reg: seq<NvsData.DomainIds>, inited: bool, start: Option<Start>)

  /** The credentials are there to read: both records exist and neither read faults. */
  predicate Provisioned(mode: Mode, store: NvsData.Store, ssidFault: Option<int>, pskFault: Option<int>) {
    && ssidFault.None? && NvsData.Pack(mode, NVS_DOMAIN_WIFI, NVS_ID_WIFI_SSID) in store
    && pskFault.None? && NvsData.Pack(mode, NVS_DOMAIN_WIFI, NVS_ID_WIFI_PSK) in store
  }

  /**
   `ob_wifi_init`: initialise the store and register the Wi-Fi ids, each
   failure returning -1; then read the SSID and the password. Without a
   preconfigured network a failed read of either starts the access point;
   otherwise the device connects (`connectRc` is the result of
   `ob_wifi_connect`) and starts the access point when that fails.
   */
  function Init(mode: Mode, nvs: NvsPlatform, reg: seq<NvsData.DomainIds>, allocOk: bool, store: NvsData.Store,
                ssidFault: Option<int>, pskFault: Option<int>, preconfig: bool, connectRc: int): (r: Startup)
    requires ssidFault.Some? ==> ssidFault.value < 0
    requires pskFault.Some? ==> pskFault.value < 0
    ensures r.rc == 0 || r.rc == -1
    ensures r.rc == 0 <==> r.inited
    ensures r.rc == 0 <==> r.start.Some?
    ensures r.rc == 0 <==> (NvsData.Init(nvs.inited, nvs.ready, nvs.pageInfoRc, nvs.mountRc).rc == 0
                            && !NvsData.Registers(reg, NVS_DOMAIN_WIFI) && allocOk)
    ensures r.rc == 0 ==> r.reg == reg + [NvsData.DomainIds(NVS_DOMAIN_WIFI, NVS_ID_WIFI_SENTINAL)]
    ensures r.rc == 0 ==> (r.start == Some(StartAp) <==> !preconfig && !Provisioned(mode, store, ssidFault, pskFault))
    ensures r.rc == 0 ==> (r.start == Some(StationThenAp) <==> (preconfig || Provisioned(mode, store, ssidFault, pskFault)) && connectRc < 0)
  {
    var n := NvsData.Init(nvs.inited, nvs.ready, nvs.pageInfoRc, nvs.mountRc);
    if n.rc < 0 then Startup(-1, n.inited, reg, false, None)
    else
      var g := NvsData.Register(reg, NVS_DOMAIN_WIFI, NVS_ID_WIFI_SENTINAL, allocOk);
      if g.rc < 0 then Startup(-1, n.inited, g.reg, false, None)
      else
        var ssidRc := NvsData.Read(mode, store, NVS_DOMAIN_WIFI, NVS_ID_WIFI_SSID, WIFI_SSID_MAX_LEN, ssidFault).rc;
        var pskRc := NvsData.Read(mode, store, NVS_DOMAIN_WIFI, NVS_ID_WIFI_PSK, WIFI_PSK_MAX_LEN, pskFault).rc;
        var isAp := !preconfig && (ssidRc < 0 || pskRc < 0);
        var start := if isAp then StartAp else if connectRc < 0 then StationThenAp else Station;
        Startup(0, n.inited, g.reg, true, Some(start))
  }

  /** A second start-up fails: the Wi-Fi ids are already registered. */
  lemma InitTwiceFails(mode: Mode, nvs: NvsPlatform, reg: seq<NvsData.DomainIds>, store: NvsData.Store, preconfig: bool, connectRc: int,
                       nvs2: NvsPlatform, alloc2: bool, store2: NvsData.Store, preconfig2: bool, connectRc2: int)
    requires Init(mode, nvs, reg, true, store, None, None, preconfig, connectRc).rc == 0
    ensures var r := Init(mode, nvs, reg, true, store, None, None, preconfig, connectRc);
      Init(mode, nvs2.(inited := r.nvsInited), r.reg, alloc2, store2, None, None, preconfig2, connectRc2).rc == -1
  {
    var r := Init(mode, nvs, reg, true, store, None, None, preconfig, connectRc);
    assert r.reg[|reg|].domain == NVS_DOMAIN_WIFI;
  }

  /**
   After a factory reset that covers the Wi-Fi domain, a device without a
   preconfigured network starts its access point again.
   */
  lemma ResetStartsAp(mode: Mode, reg: seq<NvsData.DomainIds>, j: nat, store: NvsData.Store, readFails: set<NvsData.Key>,
                      nvs: NvsPlatform, boot: seq<NvsData.DomainIds>, connectRc: int)
    requires NvsData.DistinctDomains(reg) && j < |reg| && reg[j] == NvsData.DomainIds(NVS_DOMAIN_WIFI, NVS_ID_WIFI_SENTINAL)
    requires Init(mode, nvs, boot, true, NvsData.Reset(mode, reg, store, readFails, {}), None, None, false, connectRc).rc == 0
    ensures Init(mode, nvs, boot, true, NvsData.Reset(mode, reg, store, readFails, {}), None, None, false, connectRc).start == Some(StartAp)
  {
    NvsData.ResetErases(mode, reg, store, readFails, {});
    NvsData.RegisteredIdsErased(mode, reg, store, readFails, j, NVS_ID_WIFI_SSID);
  }

  // ---------------------------------------------------------------------
  // Connecting.

  /**
   `ob_wifi_connect`: -1 without the station interface or before
   start-up; otherwise up to 20 connect requests (`tries` holds their
   results) until one returns 0, the result being the last request's.
   */
  method Connect(ifaceOk: bool, inited: bool, tries: seq<int>) returns (rc: int)
    requires |tries| >= NR_TRIES
    ensures !ifaceOk || !inited ==> rc == -1
    ensures ifaceOk && inited ==> (rc == 0 <==> exists i | 0 <= i < NR_TRIES :: tries[i] == 0)
    ensures ifaceOk && inited && rc != 0 ==> rc == tries[NR_TRIES - 1]
  {
    if !ifaceOk || !inited {
      return -1;
    }
    var nrTries := NR_TRIES;
    var ret := 0;
    var i := 0;
    while nrTries > 0
      invariant 0 <= i <= NR_TRIES && i + nrTries == NR_TRIES
      invariant forall j | 0 <= j < i :: tries[j] != 0
      invariant i > 0 ==> ret == tries[i - 1]
      invariant i == 0 ==> ret == 0
      decreases nrTries
    {
      nrTries := nrTries - 1;
      ret := tries[i];
      i := i + 1;
      if ret == 0 {
        break;
      }
    }
    return ret;
  }

  // ---------------------------------------------------------------------
  // The access-point flag and the radio's life cycle.

  datatype Radio = Radio(inited: bool, hasAp: bool)

  /** The step of `_ob_wifi_ap_enable` that failed, each ending it early. */
  datatype ApFailure = NoInterface | BadAddress | AddressAdd | Netmask | ApRequest(rc: int) | DhcpStart(rc: int)

  datatype Stepped = Stepped(radio: Radio, apSemGiven: bool)

  /** `_ob_wifi_ap_enable`: the flag is set, and the start-up released, only when every step succeeds. */
  function ApEnable(r: Radio, failure: Option<ApFailure>): (s: Stepped)
    ensures s.radio.inited == r.inited
    ensures s.radio.hasAp <==> r.hasAp || failure.None?
    ensures s.apSemGiven <==> failure.None?
  {
    if failure.Some? then Stepped(r, false) else Stepped(r.(hasAp := true), true)
  }

  /**
   `ob_wifi_ap_disable`: the start-up is released when the disable request
   succeeds (`addressOk` is the parse of the access point's address). As
   written the flag is left as it was; corrected, a successful disable
   clears it.
   */
  function ApDisable(mode: Mode, r: Radio, addressOk: bool, rc: int): (s: Stepped)
    ensures s.radio.inited == r.inited
    ensures s.apSemGiven <==> addressOk && rc >= 0
    ensures mode == AsWritten ==> s.radio.hasAp == r.hasAp
    ensures mode == Corrected ==> (s.radio.hasAp <==> r.hasAp && !s.apSemGiven)
  {
    var ok := addressOk && rc >= 0;
    Stepped(if mode == Corrected && ok then r.(hasAp := false) else r, ok)
  }

  /** `ob_wifi_deinit`: disable the access point if the flag says it is up, then mark the radio uninitialised. */
  function Deinit(mode: Mode, r: Radio, addressOk: bool, rc: int): (r': Radio)
    ensures !r'.inited
    ensures mode == AsWritten ==> r'.hasAp == r.hasAp
    ensures mode == Corrected ==> (r'.hasAp <==> r.hasAp && !(addressOk && rc >= 0))
  {
    var d := if r.hasAp then ApDisable(mode, r, addressOk, rc).radio else r;
    d.(inited := false)
  }

  /** `ob_wifi_scan`: -1 before start-up, leaving the list; otherwise the list is emptied for the new scan. */
  function Scan(r: Radio, t: SsidList.Tracked): (res: (int, SsidList.Tracked))
    requires SsidList.Valid(t)
    ensures SsidList.Valid(res.1)
    ensures !r.inited ==> res == (-1, t)
    ensures r.inited ==> res.0 == 0 && SsidList.Items(res.1) == []
  {
    if !r.inited then (-1, t) else (0, SsidList.Clear(t))
  }

  datatype Event =
    | EnableAp(failure: Option<ApFailure>)
    | DisableAp(addressOk: bool, rc: int)
    | Shutdown(addressOk: bool, rc: int)
    | Started

  function Apply(mode: Mode, r: Radio, e: Event): Radio {
    match e
    case EnableAp(f) => ApEnable(r, f).radio
    case DisableAp(a, rc) => ApDisable(mode, r, a, rc).radio
    case Shutdown(a, rc) => Deinit(mode, r, a, rc)
    case Started => r.(inited := true)
  }

  function Run(mode: Mode, r: Radio, es: seq<Event>): Radio
    decreases |es|
  {
    if |es| == 0 then r else Apply(mode, Run(mode, r, es[..|es| - 1]), es[|es| - 1])
  }

  /** As written, once the access point is up the flag stays set, whatever follows. */
  lemma {:induction false} AsWrittenHasApSticky(r: Radio, es: seq<Event>)
    requires r.hasAp
    ensures Run(AsWritten, r, es).hasAp
    decreases |es|
  {
    if |es| > 0 {
      AsWrittenHasApSticky(r, es[..|es| - 1]);
    }
  }

  /** In either mode the flag is only ever raised by an access-point enable whose every step succeeded. */
  lemma {:induction false} HasApNeedsEnable(mode: Mode, r: Radio, es: seq<Event>)
    requires !r.hasAp && Run(mode, r, es).hasAp
    ensures exists i | 0 <= i < |es| :: es[i] == EnableAp(None)
    decreases |es|
  {
    var front := es[..|es| - 1];
    if Run(mode, r, front).hasAp {
      HasApNeedsEnable(mode, r, front);
      var i :| 0 <= i < |front| && front[i] == EnableAp(None);
      assert es[i] == EnableAp(None);
    } else {
      assert es[|es| - 1] == EnableAp(None);
    }
  }

  /**
   As written, after the access point is brought up and then disabled
   successfully, `ob_wifi_HasAP` still answers true; corrected, false.
   */
  lemma AsWrittenHasApAfterDisable(r: Radio)
    ensures var es := [EnableAp(None), DisableAp(true, 0)];
      Run(AsWritten, r, es).hasAp && !Run(Corrected, r, es).hasAp
  {
    var es := [EnableAp(None), DisableAp(true, 0)];
    assert es[..1] == [EnableAp(None)] && es[..1][..0] == [];
  }
}
